=== FILE: README.md ===
# tob trading bot — a verified Dafny model of its decision core

tob is a crypto-futures trading bot written in Python. Its core is a chain of pure decisions:

1. It picks a daily universe of symbols by liquidity, volatility and BTC beta.
2. It labels each symbol's market regime, the BTC macro state and a 0-100 market quality score.
3. Three strategies vote on a direction: EMA trend, Donchian breakout and Bollinger mean reversion.
4. An ensemble confluence turns the votes into one signal.
5. Hard risk rules and adaptive risk scaling gate and size the trade.
6. The trade gets ATR stops, a paper fill against one candle or, behind a gate, a real exchange order.
7. Clusters of correlated symbols are found by union-find.
8. A retry guard with a circuit breaker sits in front of exchange calls.
9. A single-candle backtest and the performance statistics replay the same pipeline over history.

The project models each of these steps as pure Dafny functions, or as methods where the source
loops. It proves what each step promises. One module follows each source file. Shared
vocabulary lives in `Common`, the Python string helpers in `Text`, and the reference
definitions of the PnL statistics (sum, cumulative curve, running peak, drawdown) in `Stats`.

The source also uses foreign numerics: `ta` indicators (RSI, ATR, ADX, Bollinger bands), pandas
correlations, quantiles and z-scores, and numpy beta. The model takes their values as
parameters. Where a NaN changes a branch, it is an `Option` (`None` is NaN). Prices are `real`.
Mutable Python objects (`RiskRules`, `AdaptiveState`, `CircuitBreaker`) are records passed
state-in, state-out.

## Model

| member | source | states |
|---|---|---|
| StrategyBase.Decide | src/strategy/trend_ema.py:29-45 | A strategy's signal is LONG exactly when its long setup holds, SHORT exactly when only the short setup holds, else NONE. Confidence is 1 for a direction and 0 for NONE, and the price is the last close. |
| Indicators.Alpha | src/strategy/indicators.py:8-9 | The `ewm(span=period)` smoothing factor lies in (0, 1]. |
| Indicators.EmaRecurrence | src/strategy/indicators.py:8-9 | The `adjust=False` EMA starts at the first input, and each later value blends the new input with the previous value. |
| Indicators.EmaPass | src/strategy/indicators.py:8-9 | A single pass over the series computes the same EMA and satisfies the recurrence. |
| Indicators.EmaPrefix | src/strategy/indicators.py:8-9 | The EMA of a prefix is the prefix of the EMA, so EMA values never depend on later rows. |
| Indicators.EmaWithinRange | src/strategy/indicators.py:8-9 | Each EMA value lies within any bounds that hold for every input seen so far. |
| Indicators.FasterEmaLeads | src/strategy/indicators.py:8-9 | On a non-decreasing series a faster EMA is never behind a slower one, and never above the last input. A strict last rise puts it strictly ahead. |
| Indicators.Ema9AboveEma21 | tests/test_indicators.py:18 | On a series that never falls and rises at its last row, EMA(9) ends strictly above EMA(21). |
| Indicators.EmaBelowRisingClose | src/strategy/indicators.py:8-9 | On such a series, an EMA with alpha below 1 ends strictly below the last close. |
| Indicators.DonchianAt | src/strategy/indicators.py:40-43 | The channel at a row is undefined before `period` rows exist. Otherwise its high and low bound every row of the window ending at that row, and both are attained in it. |
| Indicators.Donchian | src/strategy/indicators.py:40-43 | The whole channel frame has one entry per row, each the channel at that row. |
| Indicators.DonchianSpansCurrent | tests/test_indicators.py:24-25 | The channel high at a row is at least that row's high, and the channel low at most its low. |
| Indicators.EmaSlope | src/market/regime.py:20-21 | The slope times the EMA-50 four rows back is the EMA's rise over those rows. With a positive base, the slope is positive exactly when the EMA rose. |
| Indicators.AtrPct | src/data/btc_state.py:20 | The ATR fraction times the close gives back the ATR. For a positive close it is non-negative exactly when the ATR is. |
| Indicators.BbWidth | src/strategy/indicators.py:35-37 | The width times the middle band is the band spread. For a positive middle it is non-negative exactly when upper >= lower. |
| TrendEma.Generate | src/strategy/trend_ema.py:13-45 | LONG exactly when EMA9 > EMA21, RSI >= 52, the close rose, the close is above EMA9 and ATR% reaches the minimum. SHORT exactly under the mirrored test. A direction implies enough volatility. |
| TrendEma.SetupsExclusive | src/strategy/trend_ema.py:29-44 | The long and short setups never hold together. |
| TrendEma.RisingSeriesGoesLong | tests/test_strategies.py:21-29 | A close series that never falls and rises at its last row goes LONG, given RSI >= 52 and enough volatility. |
| BreakoutDonchian.Generate | src/strategy/breakout_donchian.py:13-36 | A spiking ATR z-score forces NONE. Otherwise LONG exactly when the close is above the channel high with RSI >= 50, and SHORT exactly when (not LONG) it is below the low with RSI <= 50. A NaN z-score is never a spike. |
| BreakoutDonchian.NoBreakoutInsideOwnRange | src/strategy/breakout_donchian.py:14-35 | The channel includes the latest candle, so a close within that candle's own range never breaks out. |
| MeanReversionBb.Generate | src/strategy/mean_reversion_bb.py:13-31 | LONG exactly when the previous close is below the lower band and the latest above it. SHORT exactly when (not LONG) the previous close is above the upper band and the latest below it. |
| MeanReversionBb.ReentriesExclusive | src/strategy/mean_reversion_bb.py:27-30 | With lower <= upper the two re-entries exclude each other. |
| MeanReversionBb.CloseOnBandDoesNotTrigger | src/strategy/mean_reversion_bb.py:27-30 | The comparisons are strict: a close exactly on a band does not trigger that band's signal. |
| Regime.DetectRegime | src/market/regime.py:33-39 | The four labels are decided in order: TREND_CLEAN iff ADX >= 25 and abs(slope) > 0.002; RANGE iff not that and width < 0.05 and abs(slope) <= 0.002; CHAOTIC iff neither and the z-score is NaN or abs > 2.5; TRANSITION otherwise. |
| Regime.FlatIsRange | src/market/regime.py:33-36 | A flat, tight market is RANGE whatever its ADX. |
| Regime.NaNNeverTransition | src/market/regime.py:37-39 | A NaN ATR z-score never yields TRANSITION. |
| Regime.DetectRegimeOf | src/market/regime.py:18-39 | On a frame, with the slope of its 50-period EMA: TREND_CLEAN exactly when the trend test holds, RANGE exactly when it does not and the frame is flat and tight, CHAOTIC exactly when neither holds and the z-score is NaN or beyond 2.5, TRANSITION otherwise. An erratic z-score never gives TRANSITION. |
| BtcState.DetectBtcState | src/data/btc_state.py:25-31 | SQUEEZE iff ATR% and width are both at most their squeeze limits. EXPANDING_UP iff not squeezed, ATR% at least the expansion limit and slope at least the trend slope. EXPANDING_DOWN likewise with slope at most its negation. CHOP otherwise. |
| BtcState.QuietIsChop | src/data/btc_state.py:27-31 | Below the expansion threshold and not squeezed, BTC is in CHOP. |
| BtcState.DefaultsSqueezeExcludesExpanding | src/config/settings.py:80-83 | With the default thresholds the squeeze and expansion tests never both hold. |
| BtcState.DetectBtcStateOf | src/data/btc_state.py:17-31 | On a BTC frame, with the ATR fraction of the last close and the 50-period EMA slope: SQUEEZE exactly when the squeeze test holds; otherwise EXPANDING_UP exactly when expanding with slope at or above the threshold, EXPANDING_DOWN exactly when expanding with slope below it and at or below its negation, and CHOP in every other case. |
| Quality.WickRatio | src/market/quality.py:17-22 | The wick ratio is NaN for an empty frame. Otherwise, times the number of tail candles (at most 20), it is the sum of their wick-to-body ratios, with a zero body counted as 1. |
| Quality.WickToBodyNonNegative | src/market/quality.py:17-22 | A well-formed candle has a non-negative wick-to-body ratio. |
| Quality.MarketQualityScore | src/market/quality.py:31-45 | The score is the raw 100 - penalties + bonuses clamped into [0, 100]. |
| Quality.AdxPenaltyExcludesBonus | src/market/quality.py:36-43 | The low-ADX penalty and the direction bonus never apply together. |
| Quality.DefaultScoreRange | tests/test_regime_quality.py:40-49 | With the default settings the raw score stays within [45, 125], so the clamped score is at least 45. |
| Ensemble.KeepEligible | src/strategy/ensemble.py:27-34 | A strategy is kept exactly when it is eligible. Mean reversion needs RANGE; trend and breakout are dropped under SQUEEZE or CHOP. |
| Ensemble.KeepEligibleInOrder | src/strategy/ensemble.py:27-34 | The kept strategies sit at ascending positions of the input, and every eligible position is among them: an order-preserving subsequence. |
| Ensemble.EligibleVerdict | src/strategy/ensemble.py:27-34 | After filtering, a name's last verdict is its last verdict among all strategies when it is eligible, and there is none otherwise. |
| Ensemble.FilteredVerdict | src/strategy/ensemble.py:25-34 | A name has a verdict among the allowed strategies only in an unblocked market and when it is eligible; then it is its last verdict overall. |
| Ensemble.FilterStrategies | src/strategy/ensemble.py:25-34 | Quality below 50 or a CHAOTIC regime allows nothing. Otherwise exactly the eligible strategies are allowed. |
| Ensemble.Put | src/strategy/ensemble.py:75 | `votes[name] = d` makes name map to d, leaves other names alone, adds name to the keys and keeps the keys distinct. |
| Ensemble.CastVotes | src/strategy/ensemble.py:72-76 | Every name's vote is the verdict of the last allowed strategy of that name, with distinct names. |
| Ensemble.CountsWithinTotal | src/strategy/ensemble.py:78-80 | LONG, SHORT and NONE votes together make up the total. |
| Ensemble.Required | src/strategy/ensemble.py:82-84 | Agreement needed is 2 of 3+ voters, all of them for fewer, and all of them when 50 <= quality < min trade score. |
| Ensemble.Tally | src/strategy/ensemble.py:86-92 | LONG iff the long votes reach the requirement and beat the short votes, SHORT symmetrically. Confidence times the total is the larger count, and lies in [0, 1]. |
| Ensemble.Ensemble | src/strategy/ensemble.py:51-94 | The decision is at the last close. Blocked or empty votes give NONE with confidence 0. Otherwise direction and confidence come from tallying the votes of the allowed strategies. |
| Ensemble.AbstentionLowersConfidence | src/strategy/ensemble.py:75-92 | One more allowed strategy voting NONE under a new name adds one vote. It never lowers the agreement required, never raises the confidence, and never turns a NONE decision into a direction. |
| Ensemble.VotingExample | tests/test_ensemble.py:45-51 | TREND_CLEAN, EXPANDING_UP and quality 80 with two LONG votes and a filtered SHORT mean-reversion strategy give LONG. |
| Stats.WinsLossesPartition | src/observability/metrics.py:20-21 | The wins (> 0) and losses (<= 0) together hold every PnL exactly once. |
| Stats.WinsLossesSizes | src/observability/metrics.py:20-22 | There are as many wins as positive PnLs, and the rest are losses. |
| Stats.WinShare | src/strategy/scoring.py:19-20 | The winrate lies in [0, 1] and times the count gives the number of wins; it is 0 for no PnLs. |
| Stats.MeanOf | src/strategy/scoring.py:21 | The mean times the count gives the total PnL; it is 0 for no PnLs. |
| Stats.PeakIsMax | src/strategy/scoring.py:22-23 | The running peak dominates every earlier cumulative value and is one of them. |
| Stats.DrawdownIsMin | src/strategy/scoring.py:22-24 | The drawdown is the minimum of cumulative minus peak over all trades, and never positive. |
| Stats.NoLossNoDrawdown | src/strategy/scoring.py:22-24 | Without a losing trade the drawdown is 0. |
| Stats.FirstLossNotCounted | src/strategy/scoring.py:22-24 | The curve starts at the first cumulative value, not 0, so a single losing trade shows no drawdown. |
| Scoring.ComputePerformance | src/strategy/scoring.py:16-25 | No PnLs give all zeros. The winrate lies in [0, 1] and scales to the win count, the expectancy scales to the total, and the drawdown is non-positive and 0 without losses. |
| Scoring.PerformanceDrawdown | src/strategy/scoring.py:22-24 | The reported drawdown is the deepest fall of the cumulative PnL below its running peak, attained at some trade. |
| Scoring.PruneOnScore | src/strategy/scoring.py:16-29 | A scored strategy is pruned exactly when it has at least the minimum number of trades and its PnLs add up to a loss. |
| Scoring.PruningMonotone | src/strategy/scoring.py:28-29 | A non-negative expectancy is never pruned, and more trades never un-prune. |
| Scoring.PruningExamples | tests/test_scoring_pruning.py:4-11 | -0.1 over 30 trades is pruned and +0.1 is not. The example PnLs have expectancy 0.16 and winrate 0.6. |
| Metrics.ComputeMetrics | src/observability/metrics.py:17-26 | No PnLs give all zeros; the winrate lies in [0, 1] and the drawdown is non-positive. |
| Metrics.MetricsRates | src/observability/metrics.py:20-23 | The winrate scales to the number of wins and the expectancy to the total PnL. |
| Metrics.MetricsDrawdown | src/observability/metrics.py:24-26 | The drawdown is the deepest fall below the running peak. |
| Metrics.MetricsAgreeWithScoring | src/observability/metrics.py:17-26 | The metrics report and the strategy scorer agree on winrate, expectancy and drawdown. |
| RiskRules.Fresh | src/risk/rules.py:8-17 | A new object has no loss, no positions, no cooldowns and the kill switch off. |
| RiskRules.RegisterTradeResult | src/risk/rules.py:19-22 | Only losses are added to the daily loss. The kill switch is set exactly when it was set or the loss magnitude reaches the limit. Nothing else changes. |
| RiskRules.CanOpen | src/risk/rules.py:24-31 | Opening is allowed exactly when the kill switch is off, the book is not full and the symbol has no running cooldown. |
| RiskRules.Tick | src/risk/rules.py:33-35 | Every cooldown counts down by one and stops at 0; the keys and everything else stay. |
| RiskRules.ApplyCooldown | src/risk/rules.py:37-38 | The symbol's cooldown becomes `cooldown_candles`; other symbols keep theirs. |
| RiskRules.TickNCountsDown | src/risk/rules.py:33-35 | After k >= 1 ticks a cooldown c is max(0, c - k). |
| RiskRules.CooldownLastsExactly | src/risk/rules.py:33-38 | After `apply_cooldown` the symbol's cooldown reaches 0 exactly after `cooldown_candles` ticks. |
| RiskRules.KillSwitchSticky | src/risk/rules.py:19-31 | No sequence of events clears the kill switch or shrinks the loss magnitude. Once tripped, no symbol can open. |
| RiskAdaptive.RiskFactor | src/risk/adaptive.py:15-22 | The factor is 1 exactly without a streak or drawdown, at most 0.5 on a streak, at most 0.3 in drawdown. |
| RiskAdaptive.AdjustRisk | src/risk/adaptive.py:15-22 | The risk is the base times the factor and never exceeds a non-negative base; it is strictly less when reduced. A drawdown switches defensive mode on, and nothing switches it off. |
| RiskAdaptive.UpdateStreak | src/risk/adaptive.py:25-29 | A loss extends the streak; anything else resets it. |
| RiskAdaptive.ReductionScenario | tests/test_risk_adaptive.py:4-15 | Three losses reduce the risk, and a weekly drawdown of 0.2 reduces it further and sets defensive mode. |
| RiskStops.AtrStops | src/risk/stops.py:13-20 | The stop and take lie `atr*stop_mult` and `atr*take_mult` from the entry: below/above for LONG, mirrored for any other direction. |
| RiskStops.StopsBracketEntry | src/risk/stops.py:13-20 | With positive ATR and multipliers the entry lies strictly between stop and take. |
| RiskStops.StopDistances | src/risk/stops.py:13-20 | For non-negative inputs the distances are the ATR multiples in either direction. |
| RiskSizing.Size | src/risk/sizing.py:13-19 | The risk amount is equity times risk. The quantity times the stop distance is that amount, the quantity is 0 for a zero distance, and it is non-negative for non-negative inputs. |
| RiskSizing.SizeSymmetric | src/risk/sizing.py:15 | Swapping entry and stop gives the same size. |
| Paper.PnlPct | src/execution/paper.py:43-47 | The PnL times the entry is the exit move, sign-flipped for SHORT. |
| Paper.SimulateTrade | src/execution/paper.py:17-50 | OPEN iff neither level is hit. STOP iff the stop is hit and either worst case applies or the take is not hit; TAKE symmetrically. The exit is the hit level, the PnL is present iff there is an exit, and fees are twice the rate. |
| Paper.StopLosesTakeWins | src/execution/paper.py:28-47 | With the entry between its levels, a stop fill loses and a take fill wins. |
| Paper.PaperExamples | tests/test_paper_execution.py:4-29 | A LONG whose candle spans both levels stops under the worst-case rule. A SHORT reaching only its take takes profit. |
| Precision.RoundStep | src/exchange/precision.py:16-19 | A zero step leaves the value. A positive step gives the grid point at or below it within one step, and a negative step the point at or above. |
| Precision.RoundStepOnGrid | src/exchange/precision.py:16-19 | A non-zero step puts the result on the step's grid. |
| Precision.RoundStepIdempotent | src/exchange/precision.py:16-19 | Rounding twice is rounding once. |
| Precision.NormalizePrice | src/exchange/precision.py:22-24 | With a positive tick the price is rounded down within one tick. |
| Precision.NormalizeQty | src/exchange/precision.py:27-29 | With a positive step the quantity is rounded down within one step. |
| Precision.NormalizeIdempotent | src/exchange/precision.py:22-29 | Normalising a normalised price or quantity changes nothing. |
| Precision.ValidateOrder | src/exchange/precision.py:32-39 | "min_qty" is reported iff qty < min_qty, "min_notional" iff price*qty < min_notional, in that order; no error iff both minimums hold. |
| RealExecutor.ExecuteTrade | src/execution/real.py:19-44 | Disabled sends nothing. Otherwise rejection happens iff the normalised order has violations, a dry run reports the normalised order, and exactly one `create_order` with the normalised values and side is made iff enabled, valid and not a dry run. |
| RealExecutor.SubmittedOrderValid | src/execution/real.py:32-43 | Every submitted order meets both minimums, never exceeds the offered price and quantity, and lies on the tick and step grids. |
| RealExecutor.ResubmitUnchanged | src/exchange/precision.py:16-29 | Submitting the submitted order again sends the same order. |
| RealExecutor.DryRunMirrorsSubmit | src/execution/real.py:38-44 | A dry run sends nothing and reports exactly the order a live run would send. |
| RateLimit.DefaultBreaker | src/exchange/rate_limit.py:11-16 | The defaults are 5 failures and a 30-second cooldown, closed. |
| RateLimit.CanExecute | src/exchange/rate_limit.py:18-25 | Allowed iff closed or strictly more than the cooldown has passed. An expired open breaker resets; otherwise nothing changes. |
| RateLimit.RecordFailure | src/exchange/rate_limit.py:27-30 | One more failure; reaching the maximum (re)opens the breaker at the current time. |
| RateLimit.RecordSuccess | src/exchange/rate_limit.py:32-34 | The breaker closes and forgets its failures. |
| RateLimit.FailuresOpen | src/exchange/rate_limit.py:27-30 | From a clean breaker, max_failures failures open it at the last failure's time, and fewer leave it closed. |
| RateLimit.CooldownBoundary | src/exchange/rate_limit.py:21 | An open breaker refuses at exactly the cooldown and allows after it. |
| RateLimit.Run | src/exchange/rate_limit.py:44-65 | A refusing breaker raises before any call. A non-positive retry budget falls through with no call. At most max_retries calls are made, with one sleep between consecutive calls, the k-th being 2^k seconds. |
| RateLimit.RetryResult | src/exchange/rate_limit.py:49-63 | The loop returns the first success and makes no call after it. It raises the last error iff every allowed attempt failed. |
| RateLimit.RunResultLemma | src/exchange/rate_limit.py:44-63 | Behind an allowing breaker, `run` returns the first success, or raises the last error iff all max_retries attempts fail. |
| RateLimit.BreakerNotRecheckedMidRun | src/exchange/rate_limit.py:44-65 | The breaker is only checked on entry: with a one-failure breaker all four attempts run, sleeping 1, 2 and 4 seconds. |
| Clusters.ConnectedSym | src/market/clusters.py:24-30 | Joining by pairs is symmetric. |
| Clusters.ConnectedTrans | src/market/clusters.py:24-30 | Joining by pairs is transitive. |
| Clusters.Find | src/market/clusters.py:18-22 | `find` with path halving returns the item's root and keeps every item's root. |
| Clusters.Union | src/market/clusters.py:24-27 | The parent map keeps its items and points only at items. After `union(a, b)` two items share a root exactly when the pairs so far plus (a, b) join them. |
| Clusters.UnionFind | src/market/clusters.py:15-41 | Every item gets a number. Two items share one exactly when a chain of pairs joins them. Numbers follow first appearance: the first item has 0 and each number above 0 has its predecessor earlier. |
| ClusterIds.Number | src/market/clusters.py:32-41 | The numbering loop gives two items the same number exactly when they have the same root, in order of first appearance. |
| Clusters.SelectPairs | src/market/clusters.py:46-51 | The pairs are exactly the symbol pairs above the diagonal whose correlation reaches the threshold; NaN never does. |
| Clusters.BuildClusters | src/market/clusters.py:44-53 | Symbols share a cluster exactly when a chain of above-threshold correlations joins them, and any two symbols at or above the threshold share one. |
| Runner.Strategies | src/runner.py:40-44 | The strategies are trend, breakout and mean reversion, in that order, each carrying its own `generate` direction on the frame. |
| Runner.Decide | src/runner.py:53-67 | The ensemble decision is for the symbol at its last close. |
| Runner.DecideVotes | src/runner.py:53-67 | A blocked market or no allowed strategy gives NONE with confidence 0. Otherwise each of trend_ema, breakout_donchian and mean_reversion_bb votes its own `generate` direction (its verdict in `Runner.Strategies`) exactly when it is eligible, and direction and confidence are the tally of those votes. |
| Runner.StrategyVerdicts | src/runner.py:40-44 | Each of the three strategy names carries the verdict of its own strategy. |
| Runner.Execute | src/runner.py:77-98 | Stops come from ATR around the signal price. The size is on 1000 equity at the adjusted risk, with qty*distance = risk amount. The fill is against the last candle. |
| Runner.RunOnce | src/runner.py:52-98 | NONE ends before the risk check. A blocked symbol ends before sizing. Only a trade may change the adaptive state. |
| Runner.StopLossIsRiskBudget | src/runner.py:77-98 | A stop fill loses exactly the risk budget, which never exceeds the base risk. Stop fills lose and take fills win. |
| Runner.KillSwitchBlocks | src/runner.py:73-75 | With the kill switch on, no pass trades or changes the adaptive state. |
| Backtest.CalculateDrawdown | src/backtest/engine.py:71-84 | The result is the magnitude of the deepest fall below the running peak: non-negative, and 0 for no PnLs. |
| Backtest.Window | src/backtest/engine.py:126 | The window at a row is the frame's first rows up to and including it, each equal to the frame's row. |
| Backtest.BtcWindow | src/backtest/engine.py:127-130 | When some BTC row opened by the window's last candle exists, the BTC window holds exactly those rows, in their order and with repeats. Otherwise it is the symbol's own window. |
| Backtest.OpenedByInOrder | src/backtest/engine.py:128 | The rows opened by a time sit at ascending positions of the frame, and every row opened by then is among them: the boolean mask keeps order and multiplicity. |
| Backtest.TradeAt | src/backtest/engine.py:132-180 | No trade on NONE. Otherwise the stops are the ATR stops around the signal price for the window's ATR, and the status and PnL are the paper fill on the last candle's high and low, stamped with its close time. |
| Backtest.TradesInSteps | src/backtest/engine.py:125-180 | The trades are exactly the trades of the individual steps. Each comes from a distinct step, in ascending step order, and no step's trade is missing. |
| Backtest.CollectInOrder | src/backtest/engine.py:125-180 | Collecting per-step optional results keeps each present result at its step, in ascending order, and misses none. |
| Backtest.ClosedPnlsMembers | src/backtest/engine.py:182 | The closed PnLs are exactly the PnLs the trades carry. |
| Backtest.Summarise | src/backtest/engine.py:182-196 | Winrate and expectancy are taken over closed trades (0 if none) and scale to their wins and total. The drawdown is the non-negative depth. |
| Backtest.RunBacktest | src/backtest/engine.py:87-197 | A short or empty frame gives the empty result. Otherwise at most one trade per row past the minimum window, each stamped with a row's close time. The summary counts the closed trades; winrate and expectancy are 0 without one and otherwise scale to their wins and total PnL; the maximum drawdown is the non-negative depth of their curve. |
| Backtest.NoLookAhead | src/backtest/engine.py:125-133 | A step's trade depends only on the rows up to it and the BTC rows opened by then. |
| Backtest.FallbackIsWindow | src/backtest/engine.py:112-115 | With the symbol's own frame standing in for BTC, each BTC window is exactly the symbol's window. |
| Cli.DummyDf | src/cli.py:16-25 | The synthetic frame has 60 candles; the first is flat at 100 at time 0. Each next one opens 900000 ms later with open and close up by 0.1, high by 0.12 and low by 0.08. Every candle has low <= open == close <= high and volume 1000. |
| Cli.DummyDfShape | src/cli.py:16-25 | Each close lies within its candle, closes are positive and strictly rising, and rows are 15 minutes apart. |
| Cli.ParseSymbols | src/cli.py:67-70 | No option or "" gives None. Otherwise the items are stripped, non-empty and comma-free, and they are the stripped non-empty comma-separated pieces, in order, with none missing. |
| Cli.ParseSymbolsJoin | src/cli.py:67-70 | Clean symbols joined by commas parse back to themselves. |
| Cli.ParseSymbolsBlank | src/cli.py:67-70 | An option of only commas and spaces gives an empty list, not None. |
| Text.Strip | src/cli.py:70 | `strip()` gives an infix of the string that neither starts nor ends with whitespace, with only whitespace cut on either side. |
| Text.JoinSplit | src/cli.py:70 | Joining the pieces of a split at the same separator gives back the string. |
| Text.CleanInOrder | src/cli.py:70 | The cleaned items are the stripped forms of the pieces whose stripped form is non-empty, in order, with none missing. |
| Text.SplitJoin | src/cli.py:70 | Splitting a join at the same separator recovers the pieces. |
| Text.CsvRoundTrip | src/gui/app.py:260-262 | The items of a comma-join of clean items are those items. |
| Text.SplitLinesJoin | src/gui/app.py:41-51 | The lines of a newline-join plus a final newline are the joined lines. |
| GuiApp.ParseLine | src/gui/app.py:42-45 | Empty, comment and `=`-free lines give no entry. Otherwise the key (without `=`) and value are stripped. |
| GuiApp.Put | src/gui/app.py:45 | An existing key keeps its place with the new value, and a new key is appended. |
| GuiApp.PutLookup | src/gui/app.py:45 | After `entries[k] = v`, k holds v. |
| GuiApp.PutLookupOther | src/gui/app.py:45 | After `entries[k] = v`, other keys keep their values. |
| GuiApp.LoadEnv | src/gui/app.py:37-46 | A missing file gives no entries, and the keys are distinct. |
| GuiApp.LaterLineOverrides | src/gui/app.py:41-45 | A later line overrides the same key and leaves other keys alone. |
| GuiApp.SkippedLine | src/gui/app.py:42-43 | A skipped line leaves the entries unchanged. |
| GuiApp.WriteEnv | src/gui/app.py:49-51 | The written text ends with a newline. |
| GuiApp.LoadWriteEnv | src/gui/app.py:37-51 | Loading what was written gives back every entry with a non-empty value, in order. |
| GuiApp.EmptyEnvFile | src/gui/app.py:41-51 | A file of one newline has no entries. |
| GuiApp.SettingsToConfig | src/gui/app.py:54-58 | The dump keeps every key except the two API credentials, with their values. |
| GuiApp.PercentRoundTrip | src/gui/app.py:122-238 | A percentage shown times 100 and saved divided by 100 round-trips both ways. |
| GuiApp.OverrideRoundTrip | src/gui/app.py:179-262 | An unedited manual override saves the list it was loaded with. |
| GuiApp.LiveSymbols | src/gui/app.py:305 | The live form's symbols are the parsed items, and None when there are none. |
| Universe.DefaultSettings | src/config/settings.py:27-40 | The default weights sum to 1, at most 15 symbols, no override. |
| Universe.Normalize | src/data/universe.py:22-25 | Every normalised value lies in [0, 1]. |
| Universe.NormalizeShape | src/data/universe.py:22-25 | A constant column becomes all ones. Any other maps its minimum to 0 and maximum to 1, keeping order. |
| Universe.FilterMembers | src/data/universe.py:86-90 | A row is kept exactly when it is a candidate that passes every inclusive threshold. |
| Universe.ScoredBounds | src/data/universe.py:94-103 | With non-negative weights every score lies in [0, sum of weights]. With volume unavailable, it lies within the ATR and beta weights. |
| Universe.SortDescSorted | src/data/universe.py:104 | Sorting leaves scores non-increasing. |
| Universe.SortDescPerm | src/data/universe.py:104 | Sorting is a permutation. |
| Universe.Head | src/data/universe.py:104 | `head(n)` is the first n entries, or all but the last -n for negative n. |
| Universe.SelectedShape | src/data/universe.py:104 | The selection is sorted, holds at most max_symbols rows, and at least one when a row passes and there is room. |
| Universe.Build | src/data/universe.py:55-109 | An override returns itself. No candidates give `no_data`. Otherwise the filter-score-rank result. |
| Universe.FilteredEmptyIff | src/data/universe.py:91-92 | `filtered_empty` is returned exactly when there are candidates and none passes. |
| Universe.BuildRanked | src/data/universe.py:104-109 | A ranked result pairs each symbol with its score in non-increasing order. It holds at least one symbol when max_symbols >= 1, and never more than max_symbols. A filtered-empty result is empty. |
| Universe.BuildPasses | src/data/universe.py:81-90 | Every returned symbol names a candidate that passed the filters. |
| Universe.SelectedAreTop | src/data/universe.py:104 | A passing row left out scores no more than any kept row. |
| Universe.SelectedScoreBounds | src/data/universe.py:94-103 | Every selected score lies in [0, sum of weights]. |
| Universe.SingleCandidateSelected | tests/test_universe.py:64-70 | One qualifying candidate with room for one symbol is selected. |
| Universe.BuildAsWritten | src/data/universe.py:77-79 | As written, an empty candidate set raises instead of returning. Every returned result equals `Build`'s. |
| Universe.NoDataUnreachable | src/data/universe.py:77-79 | As written, no input reaches the `no_data` result. |
| Universe.NoCandidatesRaise | src/data/universe.py:77-79 | With no override and no candidates, the as-written build raises where `Build` returns `no_data`. |

## Left out

- Indicator values: RSI, ATR, ADX, Bollinger bands, the ATR z-score, beta, correlation, the correlation matrix and the volume quantile come from `ta`, pandas and numpy. They are inputs. EMA, the Donchian channel, the wick ratio, the EMA slope and ATR% are modelled.
- Floating point: prices and ratios are exact reals. NaN is modelled only where it decides a branch (the ATR z-score, the Donchian warm-up, an empty wick ratio, a NaN correlation).
- Universe.Build: the `quoteVolume` lookup, the beta and correlation computations and the volume quantile threshold are inputs. Tie order among equal scores is a stable insertion order; pandas' `sort_values` does not promise one.
- Universe.Build: the `scores` dict is an association list in rank order.
- Metrics.ComputeMetrics: the Sharpe ratio is not modelled (a floating-point quotient with an epsilon).
- Paper.SimulateTrade: requires a non-zero entry. The source divides by it only when a level is hit, and raises there.
- Indicators.AtrPct, Indicators.EmaSlope, Indicators.BbWidth, Paper.PnlPct, TrendEma.Generate: require non-zero divisors. Python raises or yields inf/NaN there, and the model does not follow either.
- Ensemble.Ensemble, TrendEma.Generate, MeanReversionBb.Generate, BreakoutDonchian.Generate, Regime.DetectRegimeOf, BtcState.DetectBtcStateOf: require a minimum frame length, and below it the source raises `IndexError`. `Ensemble.Ensemble` and `BreakoutDonchian.Generate` need one row (`df["close"].iloc[-1]`, `df.iloc[-1]`). `TrendEma.Generate` and `MeanReversionBb.Generate` need two (`df.iloc[-2]`). `Regime.DetectRegimeOf` and `BtcState.DetectBtcStateOf` need five (`ema50.iloc[-5]`). `BreakoutDonchian.Generate` also requires a positive Donchian period: pandas raises for a negative window, and a zero window gives an all-NaN channel, so the source returns NONE where the model has no case. The backtest reaches such short frames with `--min-window` 0 or 1.
- Runner.RunOnce: requires at least five rows, a non-zero last close and EMA-50 base, and a positive Donchian period. A smaller frame makes the source index out of range or divide by zero.
- Runner.RunOnce: logging is not modelled, and neither are `loop`, `main` and the constructor, which only build the fixed strategy list and fresh risk objects.
- Runner.RunOnce: `run_live` is imported by the CLI and the GUI but is not part of this model.
- Backtest.RunBacktest: the per-step pipeline is a parameter `decide(window, btcWindow)`. So the model fixes which rows each stage sees, not how the signal is computed; `Runner.Decide` models that.
- Backtest.RunBacktest: `minWindow` is a nat. A negative `min_window` (the `--min-window` option takes any int) makes the source's loop reach `idx = -1`, whose window is empty, and `window.iloc[-1]` raises `IndexError`.
- Backtest.RunBacktest: the discarded `position_size` call is omitted. The SQLite fetch and the sort by open time are inputs: the frame arrives sorted.
- Backtest.Summarise: wins are the strictly positive closed PnLs. The source's `trade.pnl_pct and ...` excludes a zero PnL, and so does the model.
- Clusters.UnionFind: requires every pair end to be an item. The source would raise `KeyError`, and `build_clusters` never passes such a pair.
- RateLimit.Run: the wall clock is a parameter, sleeps are recorded rather than taken, and exceptions are values. The log line is not modelled.
- RealExecutor.ExecuteTrade: the exchange response is not modelled; the result records the `create_order` requests made.
- Cli: argparse dispatch and the `backtest`, `report`, `universe` and `healthcheck` commands are not modelled. They print or wire settings. The `run` command's frame (`Cli.DummyDf`) and `_parse_symbols` are modelled.
- GuiApp: Streamlit rendering, YAML and SQLite I/O are not modelled. The `.env` parsing and writing, the settings dump filter and the form conversions are modelled.
- Settings loading (`Settings.load`, environment variables, YAML merging) is not modelled. Defaults appear as constants in the modules that use them.
- Storage, the candle collector, the exchange client, logging and reports are not part of this model.

## Findings

| source | as written | input that shows it | evidently intended | confidence | as-written member | corrected member |
|---|---|---|---|---|---|---|
| src/data/universe.py:77-79 | `pd.DataFrame(records).set_index("symbol")` runs before the `data.empty` guard, and with no records the frame has no `symbol` column, so it raises `KeyError` | no manual override and an empty `symbol_candles` dict | return the `no_data` result for no candidates | medium, not executed | Universe.BuildAsWritten, Universe.NoCandidatesRaise | Universe.Build |

=== FILE: backtest.dfy ===
/** The single-candle backtest (`backtest/engine.py`): every prefix of the candle frame from
    `min_window` rows on is shown to the decision pipeline, each directional decision becomes one
    paper trade settled on the window's last candle, and the closed trades are summarised.
    The pipeline's pandas/`ta` stages (regime, BTC state, quality, ensemble, ATR) are the
    `Engine`'s functions, so the model fixes which rows each stage may see but not what it does. */
module Backtest {
  import opened Common
  import opened StrategyBase
  import Stats
  import RiskStops
  import Paper

  /** A stored candle row with its `close_time_ms`. */
  datatype Row = Row(candle: Candle, closeTime: int)

  /** `BacktestTrade`. */
  datatype Trade = Trade(timeMs: int, symbol: string, direction: Direction, entry: real, stop: real, take: real,
                         status: Paper.Status, pnlPct: Option<real>)

  /** `BacktestSummary`. */
  datatype Summary = Summary(totalTrades: nat, closedTrades: nat, winrate: real, expectancy: real, maxDrawdown: real)

  datatype BacktestResult = BacktestResult(summary: Summary, trades: seq<Trade>)

  /** The decision pipeline and the settings it runs under: `decide(window, btcWindow)` is the
      ensemble's signal and `atrOf(window)` the last 14-period ATR of the window. */
  datatype Engine = Engine(decide: (seq<Row>, seq<Row>) -> Signal, atrOf: seq<Row> -> real,
                           stopMult: real, takeMult: real, feeRate: real, worstCase: bool)

  /** A directional signal never carries a zero price (the paper fill divides by it). */
  ghost predicate PricedSignals(e: Engine) {
    forall w: seq<Row>, b: seq<Row> :: e.decide(w, b).direction != NoneDir ==> e.decide(w, b).price != 0.0
  }

  /** `_calculate_drawdown`: the depth of the worst fall of the cumulative PnL below its running
      peak, as a non-negative number, and 0 for no trades. */
  method CalculateDrawdown(pnls: seq<real>) returns (dd: real)
    ensures dd == -Stats.Drawdown(pnls)
    ensures dd >= 0.0
    ensures |pnls| == 0 ==> dd == 0.0
  {
    if |pnls| == 0 {
      return 0.0;
    }
    var cumulative: seq<real> := [];
    var running := 0.0;
    for i := 0 to |pnls|
      invariant |cumulative| == i
      invariant running == Stats.Sum(pnls[..i])
      invariant forall k :: 0 <= k < i ==> cumulative[k] == Stats.Cum(pnls, k)
    {
      Stats.SumSnoc(pnls[..i], pnls[i]);
      assert pnls[..i + 1] == pnls[..i] + [pnls[i]];
      running := running + pnls[i];
      cumulative := cumulative + [running];
    }
    var peak := cumulative[0];
    var maxDd := 0.0;
    for i := 0 to |cumulative|
      invariant peak == Stats.Peak(pnls, if i == 0 then 0 else i - 1)
      invariant maxDd == if i == 0 then 0.0 else Min(0.0, Stats.DrawdownTo(pnls, i - 1))
    {
      peak := Max(peak, cumulative[i]);
      maxDd := Min(maxDd, cumulative[i] - peak);
    }
    Stats.DrawdownToIsMin(pnls, |pnls| - 1);
    dd := if maxDd < 0.0 then -maxDd else maxDd;
  }

  /** The rows of `rows` opened at or before `t`, in their order. */
  function OpenedBy(rows: seq<Row>, t: int): (r: seq<Row>)
    ensures |r| <= |rows|
  {
    if |rows| == 0 then []
    else OpenedBy(rows[..|rows| - 1], t) + (if rows[|rows| - 1].candle.openTime <= t then [rows[|rows| - 1]] else [])
  }

  /** `OpenedBy` keeps exactly the rows opened at or before `t`. */
  lemma {:induction false} OpenedByMembers(rows: seq<Row>, t: int)
    ensures forall x :: x in OpenedBy(rows, t) <==> x in rows && x.candle.openTime <= t
    decreases |rows|
  {
    if |rows| > 0 {
      OpenedByMembers(rows[..|rows| - 1], t);
      assert rows == rows[..|rows| - 1] + [rows[|rows| - 1]];
    }
  }

  /** `r` lists, in their order, the rows of `rows` opened at or before `t`: `pos` ascends
      through exactly their positions, so duplicates stay and nothing is reordered. */
  ghost predicate OpenedInOrder(rows: seq<Row>, t: int, r: seq<Row>, pos: seq<nat>) {
    && |pos| == |r| && Ascending(pos, 0, |rows|)
    && (forall k :: 0 <= k < |pos| ==> r[k] == rows[pos[k]] && rows[pos[k]].candle.openTime <= t)
    && (forall i :: 0 <= i < |rows| && rows[i].candle.openTime <= t ==> i in pos)
  }

  /** The boolean mask `rows[rows["open_time_ms"] <= t]` keeps the selected rows in order. */
  lemma {:induction false} OpenedByInOrder(rows: seq<Row>, t: int)
    ensures exists pos :: OpenedInOrder(rows, t, OpenedBy(rows, t), pos)
    decreases |rows|
  {
    if |rows| == 0 {
      var none: seq<nat> := [];
      assert OpenedBy(rows, t) == [];
      assert OpenedInOrder(rows, t, [], none);
    } else {
      var init, last := rows[..|rows| - 1], rows[|rows| - 1];
      OpenedByInOrder(init, t);
      var prev := OpenedBy(init, t);
      var pos: seq<nat> :| OpenedInOrder(init, t, prev, pos);
      var r := prev + (if last.candle.openTime <= t then [last] else []);
      assert OpenedBy(rows, t) == r;
      var pos' := OpenedStep(rows, t, prev, r, pos);
    }
  }

  /** One more row extends the order of the rows before it. */
  lemma OpenedStep(rows: seq<Row>, t: int, prev: seq<Row>, r: seq<Row>, pos: seq<nat>) returns (pos': seq<nat>)
    requires |rows| > 0 && OpenedInOrder(rows[..|rows| - 1], t, prev, pos)
    requires r == prev + (if rows[|rows| - 1].candle.openTime <= t then [rows[|rows| - 1]] else [])
    ensures OpenedInOrder(rows, t, r, pos')
  {
    var n := |rows| - 1;
    var init := rows[..n];
    assert forall i :: 0 <= i < n ==> init[i] == rows[i];
    if rows[n].candle.openTime <= t {
      pos' := pos + [n];
      AscendingSnoc(pos, 0, n);
      forall k | 0 <= k < |pos'|
        ensures r[k] == rows[pos'[k]] && rows[pos'[k]].candle.openTime <= t
      {
        if k < |pos| {
          assert pos'[k] == pos[k] && r[k] == prev[k];
        }
      }
    } else {
      pos' := pos;
      assert Ascending(pos', 0, n + 1);
    }
    assert |pos'| == |r| && Ascending(pos', 0, |rows|);
  }

  /** `window = df.iloc[: idx + 1]`. */
  function Window(df: seq<Row>, idx: nat): (w: seq<Row>)
    requires idx < |df|
    ensures |w| == idx + 1 && w[idx] == df[idx]
    ensures forall i :: 0 <= i <= idx ==> w[i] == df[i]
  {
    df[..idx + 1]
  }

  /** The BTC rows the decision at `idx` may see: those opened no later than the window's last
      candle, or the window itself when there are none. */
  function BtcWindow(df: seq<Row>, btc: seq<Row>, idx: nat): (b: seq<Row>)
    requires idx < |df|
    ensures (exists x :: x in btc && x.candle.openTime <= df[idx].candle.openTime) ==>
      && (forall x :: x in b <==> x in btc && x.candle.openTime <= df[idx].candle.openTime)
      && exists pos :: OpenedInOrder(btc, df[idx].candle.openTime, b, pos)
    ensures !(exists x :: x in btc && x.candle.openTime <= df[idx].candle.openTime) ==> b == Window(df, idx)
  {
    var early := OpenedBy(btc, df[idx].candle.openTime);
    OpenedByMembers(btc, df[idx].candle.openTime);
    OpenedByInOrder(btc, df[idx].candle.openTime);
    assert |early| > 0 ==> early[0] in early;
    if |early| == 0 then Window(df, idx) else early
  }

  /** One step of the loop at row `idx`: no trade on a NONE decision; otherwise ATR stops around
      the signal price, a paper fill against the window's last candle, stamped with its close time. */
  function TradeAt(symbol: string, df: seq<Row>, btc: seq<Row>, idx: nat, e: Engine): (t: Option<Trade>)
    requires idx < |df| && PricedSignals(e)
    ensures var sig := e.decide(Window(df, idx), BtcWindow(df, btc, idx));
      (t == None <==> sig.direction == NoneDir)
      && (t.Some? ==> t.value.timeMs == df[idx].closeTime && t.value.symbol == symbol
                      && t.value.direction == sig.direction && t.value.entry == sig.price)
    ensures var sig := e.decide(Window(df, idx), BtcWindow(df, btc, idx));
      t.Some? ==>
        var stops := RiskStops.AtrStops(sig.price, e.atrOf(Window(df, idx)), sig.direction, e.stopMult, e.takeMult);
        var fill := Paper.SimulateTrade(sig.direction, sig.price, stops.stop, stops.take,
                                        df[idx].candle.high, df[idx].candle.low, e.feeRate, e.worstCase);
        && t.value.stop == stops.stop && t.value.take == stops.take
        && t.value.status == fill.status && t.value.pnlPct == fill.pnlPct
  {
    var window := Window(df, idx);
    var sig := e.decide(window, BtcWindow(df, btc, idx));
    if sig.direction == NoneDir then None
    else
      var stops := RiskStops.AtrStops(sig.price, e.atrOf(window), sig.direction, e.stopMult, e.takeMult);
      var candle := df[idx].candle;
      var fill := Paper.SimulateTrade(sig.direction, sig.price, stops.stop, stops.take, candle.high, candle.low,
                                      e.feeRate, e.worstCase);
      Some(Trade(df[idx].closeTime, symbol, sig.direction, sig.price, stops.stop, stops.take, fill.status, fill.pnlPct))
  }

  /** The values of the steps `lo .. hi - 1` that produce one, in step order. */
  function Collect<T>(step: nat -> Option<T>, lo: nat, hi: nat): (ts: seq<T>)
    requires lo <= hi
    ensures |ts| <= hi - lo
    decreases hi - lo
  {
    if lo == hi then []
    else Collect(step, lo, hi - 1) + (if step(hi - 1).Some? then [step(hi - 1).value] else [])
  }

  /** `Collect` keeps exactly the values of the steps in range. */
  lemma {:induction false} CollectMembers<T>(step: nat -> Option<T>, lo: nat, hi: nat)
    requires lo <= hi
    ensures forall t :: t in Collect(step, lo, hi) ==> exists idx :: lo <= idx < hi && step(idx) == Some(t)
    ensures forall idx :: lo <= idx < hi && step(idx).Some? ==> step(idx).value in Collect(step, lo, hi)
    decreases hi - lo
  {
    if lo < hi {
      CollectMembers(step, lo, hi - 1);
      var prev := Collect(step, lo, hi - 1);
      var extra := if step(hi - 1).Some? then [step(hi - 1).value] else [];
      assert Collect(step, lo, hi) == prev + extra;
      forall t | t in prev + extra
        ensures exists idx :: lo <= idx < hi && step(idx) == Some(t)
      {
        if t !in prev {
          assert step(hi - 1) == Some(t);
        }
      }
      forall idx | lo <= idx < hi && step(idx).Some?
        ensures step(idx).value in prev + extra
      {
        if idx == hi - 1 {
          assert step(idx).value in extra;
        }
      }
    }
  }

  /** `ts` lists, in step order, the values of the steps `lo .. hi - 1` that produce one: `idx`
      ascends through exactly those steps. */
  ghost predicate InStepOrder<T>(step: nat -> Option<T>, lo: nat, hi: nat, ts: seq<T>, idx: seq<nat>) {
    && |idx| == |ts| && Ascending(idx, lo, hi)
    && (forall k :: 0 <= k < |idx| ==> step(idx[k]) == Some(ts[k]))
    && (forall i: nat :: lo <= i < hi && step(i).Some? ==> i in idx)
  }

  /** `Collect` keeps the producing steps in their order, each once. */
  lemma {:induction false} CollectInOrder<T>(step: nat -> Option<T>, lo: nat, hi: nat)
    requires lo <= hi
    ensures exists idx :: InStepOrder(step, lo, hi, Collect(step, lo, hi), idx)
    decreases hi - lo
  {
    if lo == hi {
      var none: seq<nat> := [];
      assert Collect(step, lo, hi) == [];
      assert InStepOrder(step, lo, hi, [], none);
    } else {
      CollectInOrder(step, lo, hi - 1);
      var idx: seq<nat> :| InStepOrder(step, lo, hi - 1, Collect(step, lo, hi - 1), idx);
      var idx' := CollectStep(step, lo, hi, idx);
    }
  }

  /** One more step extends the order of the steps before it. */
  lemma CollectStep<T>(step: nat -> Option<T>, lo: nat, hi: nat, idx: seq<nat>) returns (idx': seq<nat>)
    requires lo < hi && InStepOrder(step, lo, hi - 1, Collect(step, lo, hi - 1), idx)
    ensures InStepOrder(step, lo, hi, Collect(step, lo, hi), idx')
  {
    var prev := Collect(step, lo, hi - 1);
    var ts := Collect(step, lo, hi);
    if step(hi - 1).Some? {
      idx' := idx + [hi - 1];
      assert ts == prev + [step(hi - 1).value];
      AscendingSnoc(idx, lo, hi - 1);
      forall k | 0 <= k < |idx'|
        ensures step(idx'[k]) == Some(ts[k])
      {
        if k < |idx| {
          assert idx'[k] == idx[k] && ts[k] == prev[k];
        }
      }
    } else {
      idx' := idx;
      assert ts == prev;
    }
    assert |idx'| == |ts| && Ascending(idx', lo, hi);
    assert InStepOrder(step, lo, hi, ts, idx');
  }

  /** The step function of the loop: the trade of each row of the frame, none past its end. */
  function StepTrade(symbol: string, df: seq<Row>, btc: seq<Row>, e: Engine): (f: nat -> Option<Trade>)
    requires PricedSignals(e)
    ensures forall idx: nat :: idx < |df| ==> f(idx) == TradeAt(symbol, df, btc, idx, e)
  {
    (idx: nat) => if idx < |df| then TradeAt(symbol, df, btc, idx, e) else None
  }

  /** The trades of the steps `lo .. hi - 1`, in step order. */
  function TradesIn(symbol: string, df: seq<Row>, btc: seq<Row>, lo: nat, hi: nat, e: Engine): (ts: seq<Trade>)
    requires lo <= hi <= |df| && PricedSignals(e)
    ensures |ts| <= hi - lo
  {
    Collect(StepTrade(symbol, df, btc, e), lo, hi)
  }

  /** `ts` are the trades of the rows at the ascending positions `idx`, which are all the rows
      of `lo .. hi - 1` that trade. */
  ghost predicate TradesInOrder(symbol: string, df: seq<Row>, btc: seq<Row>, lo: nat, hi: nat, e: Engine,
                                ts: seq<Trade>, idx: seq<nat>)
    requires hi <= |df| && PricedSignals(e)
  {
    && |idx| == |ts| && Ascending(idx, lo, hi)
    && (forall k :: 0 <= k < |idx| ==> TradeAt(symbol, df, btc, idx[k], e) == Some(ts[k]))
    && (forall i: nat :: lo <= i < hi && TradeAt(symbol, df, btc, i, e).Some? ==> i in idx)
  }

  /** The trades are exactly the trades of the individual steps, in row order: each comes from a
      step in range, every step that trades contributes its trade once, and earlier rows' trades
      come first. */
  lemma TradesInSteps(symbol: string, df: seq<Row>, btc: seq<Row>, lo: nat, hi: nat, e: Engine)
    requires lo <= hi <= |df| && PricedSignals(e)
    ensures var ts := TradesIn(symbol, df, btc, lo, hi, e);
      (forall t :: t in ts ==> exists idx: nat :: lo <= idx < hi && TradeAt(symbol, df, btc, idx, e) == Some(t))
      && (forall idx: nat :: lo <= idx < hi && TradeAt(symbol, df, btc, idx, e).Some? ==>
            TradeAt(symbol, df, btc, idx, e).value in ts)
    ensures exists idx :: TradesInOrder(symbol, df, btc, lo, hi, e, TradesIn(symbol, df, btc, lo, hi, e), idx)
  {
    var step := StepTrade(symbol, df, btc, e);
    CollectMembers(step, lo, hi);
    CollectInOrder(step, lo, hi);
    var idx: seq<nat> :| InStepOrder(step, lo, hi, Collect(step, lo, hi), idx);
    assert TradesInOrder(symbol, df, btc, lo, hi, e, TradesIn(symbol, df, btc, lo, hi, e), idx);
  }

  /** The PnLs of the trades that closed on their candle. */
  function ClosedPnls(trades: seq<Trade>): (pnls: seq<real>)
    ensures |pnls| <= |trades|
  {
    if |trades| == 0 then []
    else
      var last := trades[|trades| - 1];
      ClosedPnls(trades[..|trades| - 1]) + (if last.pnlPct.Some? then [last.pnlPct.value] else [])
  }

  /** The closed PnLs are exactly the PnLs the trades carry. */
  lemma {:induction false} ClosedPnlsMembers(trades: seq<Trade>)
    ensures forall x :: x in ClosedPnls(trades) ==> exists t :: t in trades && t.pnlPct == Some(x)
    ensures forall t :: t in trades && t.pnlPct.Some? ==> t.pnlPct.value in ClosedPnls(trades)
    decreases |trades|
  {
    if |trades| > 0 {
      var init, last := trades[..|trades| - 1], trades[|trades| - 1];
      ClosedPnlsMembers(init);
      assert trades == init + [last];
      assert ClosedPnls(trades) == ClosedPnls(init) + (if last.pnlPct.Some? then [last.pnlPct.value] else []);
      forall x | x in ClosedPnls(trades)
        ensures exists t :: t in trades && t.pnlPct == Some(x)
      {
        if x !in ClosedPnls(init) {
          assert last.pnlPct == Some(x);
        }
      }
      forall t | t in trades && t.pnlPct.Some?
        ensures t.pnlPct.value in ClosedPnls(trades)
      {
        if t == last {
          assert t.pnlPct.value in (if last.pnlPct.Some? then [last.pnlPct.value] else []);
        } else {
          assert t in init;
        }
      }
    }
  }

  /** The summary lines of `run_backtest`: wins are strictly positive closed trades, winrate and
      expectancy are taken over the closed trades and are 0 when none closed. */
  method Summarise(trades: seq<Trade>) returns (s: Summary)
    ensures s.totalTrades == |trades|
    ensures s.closedTrades == |ClosedPnls(trades)| <= s.totalTrades
    ensures s.closedTrades == 0 ==> s.winrate == 0.0 && s.expectancy == 0.0
    ensures s.closedTrades > 0 ==> Mul(s.winrate, s.closedTrades as real) == Stats.CountPos(ClosedPnls(trades)) as real
    ensures s.closedTrades > 0 ==> Mul(s.expectancy, s.closedTrades as real) == Stats.Sum(ClosedPnls(trades))
    ensures 0.0 <= s.winrate <= 1.0
    ensures s.maxDrawdown == -Stats.Drawdown(ClosedPnls(trades)) && s.maxDrawdown >= 0.0
  {
    var pnls := ClosedPnls(trades);
    var n := |pnls|;
    var rates := Summary(|trades|, n, Stats.WinShare(pnls), Stats.MeanOf(pnls), 0.0);
    var dd := CalculateDrawdown(pnls);
    s := rates.(maxDrawdown := dd);
  }

  /** `run_backtest` over the frame `df` (already in open-time order) and the stored BTC rows. */
  method RunBacktest(symbol: string, df: seq<Row>, btcRows: seq<Row>, minWindow: nat, e: Engine)
    returns (r: BacktestResult)
    requires PricedSignals(e)
    ensures |df| < minWindow || |df| == 0 ==> r == BacktestResult(Summary(0, 0, 0.0, 0.0, 0.0), [])
    ensures |df| >= minWindow && |df| > 0 ==>
      r.trades == TradesIn(symbol, df, if |btcRows| == 0 then df else btcRows, minWindow, |df|, e)
    ensures |r.trades| <= if |df| >= minWindow then |df| - minWindow else 0
    ensures r.summary.totalTrades == |r.trades| && r.summary.closedTrades <= r.summary.totalTrades
    ensures r.summary.closedTrades == |ClosedPnls(r.trades)|
    ensures r.summary.closedTrades == 0 ==> r.summary.winrate == 0.0 && r.summary.expectancy == 0.0
    ensures r.summary.closedTrades > 0 ==>
      && Mul(r.summary.winrate, r.summary.closedTrades as real) == Stats.CountPos(ClosedPnls(r.trades)) as real
      && Mul(r.summary.expectancy, r.summary.closedTrades as real) == Stats.Sum(ClosedPnls(r.trades))
    ensures r.summary.maxDrawdown == -Stats.Drawdown(ClosedPnls(r.trades)) && r.summary.maxDrawdown >= 0.0
    ensures forall t :: t in r.trades ==> exists idx :: minWindow <= idx < |df| && t.timeMs == df[idx].closeTime
  {
    if |df| == 0 || |df| < minWindow {
      return BacktestResult(Summary(0, 0, 0.0, 0.0, 0.0), []);
    }
    var btc := if |btcRows| == 0 then df else btcRows;
    var trades := TradesIn(symbol, df, btc, minWindow, |df|, e);
    TradesInSteps(symbol, df, btc, minWindow, |df|, e);
    var summary := Summarise(trades);
    r := BacktestResult(summary, trades);
  }

  /** No look-ahead: the step at `idx` is decided by the rows up to `idx` and the BTC rows opened
      by then; frames that agree on those give the same trade, whatever follows. */
  lemma NoLookAhead(symbol: string, df: seq<Row>, df': seq<Row>, btc: seq<Row>, btc': seq<Row>, idx: nat, e: Engine)
    requires PricedSignals(e)
    requires idx < |df| && idx < |df'| && df[..idx + 1] == df'[..idx + 1]
    requires OpenedBy(btc, df[idx].candle.openTime) == OpenedBy(btc', df[idx].candle.openTime)
    ensures TradeAt(symbol, df, btc, idx, e) == TradeAt(symbol, df', btc', idx, e)
  {
    assert df[idx] == df[..idx + 1][idx] == df'[idx];
  }

  /** Open times strictly increase down the frame. */
  predicate StrictlyOrdered(rows: seq<Row>) {
    forall i, j :: 0 <= i < j < |rows| ==> rows[i].candle.openTime < rows[j].candle.openTime
  }

  /** Without stored BTC candles the frame stands in for them, and with strictly increasing open
      times the BTC window at each step is exactly the symbol's own window. */
  lemma {:induction false} FallbackIsWindow(df: seq<Row>, idx: nat)
    requires idx < |df| && StrictlyOrdered(df)
    ensures BtcWindow(df, df, idx) == Window(df, idx)
  {
    OpenedByPrefix(df, idx + 1, df[idx].candle.openTime);
  }

  /** Of a strictly ordered frame, the rows opened by the open time of row `n - 1` are the first
      `n` rows. */
  lemma {:induction false} OpenedByPrefix(rows: seq<Row>, n: nat, t: int)
    requires 0 < n <= |rows| && StrictlyOrdered(rows) && t == rows[n - 1].candle.openTime
    ensures OpenedBy(rows, t) == rows[..n]
    decreases |rows|
  {
    if |rows| > n {
      var init := rows[..|rows| - 1];
      assert StrictlyOrdered(init);
      OpenedByPrefix(init, n, t);
      assert init[..n] == rows[..n];
      assert rows[|rows| - 1].candle.openTime > t;
    } else {
      assert rows[..n] == rows;
      OpenedByAll(rows, t);
    }
  }

  /** Every row opened by `t` is kept. */
  lemma {:induction false} OpenedByAll(rows: seq<Row>, t: int)
    requires forall i :: 0 <= i < |rows| ==> rows[i].candle.openTime <= t
    ensures OpenedBy(rows, t) == rows
    decreases |rows|
  {
    if |rows| > 0 {
      OpenedByAll(rows[..|rows| - 1], t);
      assert rows[..|rows| - 1] + [rows[|rows| - 1]] == rows;
    }
  }
}

=== FILE: breakout_donchian.dfy ===
/** Donchian breakout strategy (`strategy/breakout_donchian.py`): a close beyond the channel
    with a confirming RSI, unless the ATR z-score spikes. RSI and the z-score are inputs; a NaN
    z-score (`None`) is never a spike, and a channel still undefined (`None`) never breaks. */
module BreakoutDonchian {
  import opened Common
  import opened StrategyBase
  import Indicators

  datatype BreakoutSettings = BreakoutSettings(donchianPeriod: int, atrZscoreSpike: real)

  /** The configured defaults. */
  const Defaults := BreakoutSettings(20, 2.5)

  predicate Spike(atrZ: Option<real>, s: BreakoutSettings) {
    atrZ.Some? && atrZ.value >= s.atrZscoreSpike
  }

  predicate AboveChannel(close: real, ch: Option<Indicators.Channel>) {
    ch.Some? && close > ch.value.high
  }

  predicate BelowChannel(close: real, ch: Option<Indicators.Channel>) {
    ch.Some? && close < ch.value.low
  }

  /** `BreakoutDonchianStrategy.generate`: the channel is the Donchian channel at the last row. */
  function Generate(symbol: string, candles: seq<Candle>, rsi: real, atrZ: Option<real>, s: BreakoutSettings): (sig: Signal)
    requires |candles| >= 1 && s.donchianPeriod >= 1
    ensures var last := candles[|candles| - 1];
      var ch := Indicators.DonchianAt(candles, s.donchianPeriod, |candles| - 1);
      && sig.symbol == symbol && sig.price == last.close
      && (Spike(atrZ, s) ==> sig.direction == NoneDir)
      && (sig.direction == Long <==> !Spike(atrZ, s) && AboveChannel(last.close, ch) && rsi >= 50.0)
      && (sig.direction == Short <==>
            !Spike(atrZ, s) && !(AboveChannel(last.close, ch) && rsi >= 50.0) && BelowChannel(last.close, ch) && rsi <= 50.0)
      && sig.confidence == if sig.direction == NoneDir then 0.0 else 1.0
  {
    var last := candles[|candles| - 1];
    var ch := Indicators.DonchianAt(candles, s.donchianPeriod, |candles| - 1);
    if Spike(atrZ, s) then Signal(symbol, NoneDir, last.close, 0.0)
    else Decide(symbol, last.close,
      AboveChannel(last.close, ch) && rsi >= 50.0,
      BelowChannel(last.close, ch) && rsi <= 50.0)
  }

  /** The channel at the last row includes that row, so a last candle whose close lies within its
      own high/low range can never break out in either direction. */
  lemma NoBreakoutInsideOwnRange(symbol: string, candles: seq<Candle>, rsi: real, atrZ: Option<real>, s: BreakoutSettings)
    requires |candles| >= 1 && s.donchianPeriod >= 1
    requires WellFormed(candles[|candles| - 1])
    ensures Generate(symbol, candles, rsi, atrZ, s).direction == NoneDir
  {
    var n := |candles|;
    if s.donchianPeriod - 1 <= n - 1 {
      Indicators.DonchianSpansCurrent(candles, s.donchianPeriod, n - 1);
    }
  }
}

=== FILE: btc_state.dfy ===
/** BTC macro state (`data/btc_state.py`): BTC's volatility (ATR as a fraction of price), its
    Bollinger width and its 50-period EMA slope select one of four states, first match wins. */
module BtcState {
  import Indicators

  datatype State = Squeeze | ExpandingUp | ExpandingDown | Chop

  datatype BtcStateSettings = BtcStateSettings(
    squeezeBbWidth: real, squeezeAtrPct: real, expandingAtrPct: real, trendSlope: real)

  /** The configured defaults. */
  const Defaults := BtcStateSettings(0.04, 0.003, 0.006, 0.0005)

  predicate Squeezed(atrPct: real, width: real, s: BtcStateSettings) {
    atrPct <= s.squeezeAtrPct && width <= s.squeezeBbWidth
  }

  predicate Expanding(atrPct: real, s: BtcStateSettings) {
    atrPct >= s.expandingAtrPct
  }

  function DetectBtcState(atrPct: real, width: real, slope: real, s: BtcStateSettings): (r: State)
    ensures r == Squeeze <==> Squeezed(atrPct, width, s)
    ensures r == ExpandingUp <==> !Squeezed(atrPct, width, s) && Expanding(atrPct, s) && slope >= s.trendSlope
    ensures r == ExpandingDown <==>
      !Squeezed(atrPct, width, s) && Expanding(atrPct, s) && slope < s.trendSlope && slope <= -s.trendSlope
    ensures r == Chop <==>
      !Squeezed(atrPct, width, s) && (!Expanding(atrPct, s) || (-s.trendSlope < slope < s.trendSlope))
  {
    if atrPct <= s.squeezeAtrPct && width <= s.squeezeBbWidth then Squeeze
    else if atrPct >= s.expandingAtrPct && slope >= s.trendSlope then ExpandingUp
    else if atrPct >= s.expandingAtrPct && slope <= -s.trendSlope then ExpandingDown
    else Chop
  }

  /** Below the expansion threshold and not squeezed, BTC is always in CHOP. */
  lemma QuietIsChop(atrPct: real, width: real, slope: real, s: BtcStateSettings)
    requires atrPct < s.expandingAtrPct && !Squeezed(atrPct, width, s)
    ensures DetectBtcState(atrPct, width, slope, s) == Chop
  {
  }

  /** With the default thresholds (0.003 < 0.006) the squeeze and expansion tests never both
      hold, so the order of the first two rules makes no difference. */
  lemma DefaultsSqueezeExcludesExpanding(atrPct: real, width: real)
    ensures !(Squeezed(atrPct, width, Defaults) && Expanding(atrPct, Defaults))
  {
  }

  /** `detect_btc_state` on a BTC frame: ATR as a fraction of the last close, the Bollinger width
      and the 50-period EMA slope of the closes. ATR and the width are foreign indicator values. */
  function DetectBtcStateOf(closes: seq<real>, atr: real, width: real, s: BtcStateSettings): (r: State)
    requires |closes| >= 5 && closes[|closes| - 1] != 0.0
    requires Indicators.Ema(closes, 50)[|closes| - 5] != 0.0
    ensures r == Squeeze <==> Squeezed(Indicators.AtrPct(atr, closes[|closes| - 1]), width, s)
    ensures r == ExpandingUp ==> Indicators.EmaSlope(closes) >= s.trendSlope
    ensures r == ExpandingDown ==> Indicators.EmaSlope(closes) <= -s.trendSlope
    ensures var a, slope := Indicators.AtrPct(atr, closes[|closes| - 1]), Indicators.EmaSlope(closes);
      && (r == ExpandingUp <==> !Squeezed(a, width, s) && Expanding(a, s) && slope >= s.trendSlope)
      && (r == ExpandingDown <==> !Squeezed(a, width, s) && Expanding(a, s) && slope < s.trendSlope && slope <= -s.trendSlope)
      && (r == Chop <==> !Squeezed(a, width, s) && (!Expanding(a, s) || -s.trendSlope < slope < s.trendSlope))
  {
    DetectBtcState(Indicators.AtrPct(atr, closes[|closes| - 1]), width, Indicators.EmaSlope(closes), s)
  }
}

=== FILE: cli.dfy ===
/** The command-line helpers (`cli.py`): the synthetic frame that `run` feeds the runner, and
    the parsing of the `--symbols` option. */
module Cli {
  import opened Common
  import opened Text

  /** `_dummy_df()`: sixty fifteen-minute candles from time zero on a gentle uptrend. The first
      candle is flat at 100; each next one opens 15 minutes later with open and close 0.1, high
      0.12 and low 0.08 higher, so the range widens as the price climbs. */
  function DummyDf(): (rows: seq<Candle>)
    ensures |rows| == 60
    ensures rows[0] == Candle(0, 100.0, 100.0, 100.0, 100.0, 1000.0)
    ensures forall i :: 0 <= i < 59 ==>
      && rows[i + 1].openTime == rows[i].openTime + 900000
      && rows[i + 1].open == rows[i].open + 0.1 && rows[i + 1].close == rows[i].close + 0.1
      && rows[i + 1].high == rows[i].high + 0.12 && rows[i + 1].low == rows[i].low + 0.08
    ensures forall i :: 0 <= i < 60 ==>
      rows[i].low <= rows[i].open == rows[i].close <= rows[i].high && rows[i].volume == 1000.0
  {
    var rows := DummyRowsUpTo(60);
    DummyRows(rows);
    rows
  }

  /** The first `n` synthetic rows. */
  function DummyRowsUpTo(n: nat): (rows: seq<Candle>)
    ensures |rows| == n && forall i :: 0 <= i < n ==> rows[i] == DummyRow(i)
  {
    seq(n, i requires 0 <= i < n => DummyRow(i))
  }

  function DummyRow(i: int): Candle {
    Candle(900000 * i, 100.0 + 0.1 * i as real, 100.0 + 0.12 * i as real,
           100.0 + 0.08 * i as real, 100.0 + 0.1 * i as real, 1000.0)
  }

  /** Sixty consecutive synthetic rows advance by fixed steps and keep each close inside its range. */
  lemma DummyRows(rows: seq<Candle>)
    requires |rows| == 60 && forall i :: 0 <= i < 60 ==> rows[i] == DummyRow(i)
    ensures |rows| == 60
    ensures rows[0] == Candle(0, 100.0, 100.0, 100.0, 100.0, 1000.0)
    ensures forall i :: 0 <= i < 59 ==>
      && rows[i + 1].openTime == rows[i].openTime + 900000
      && rows[i + 1].open == rows[i].open + 0.1 && rows[i + 1].close == rows[i].close + 0.1
      && rows[i + 1].high == rows[i].high + 0.12 && rows[i + 1].low == rows[i].low + 0.08
    ensures forall i :: 0 <= i < 60 ==>
      rows[i].low <= rows[i].open == rows[i].close <= rows[i].high && rows[i].volume == 1000.0
  {
  }

  /** The synthetic frame is usable by every component: each close lies within its candle,
      closes are positive and strictly rising, and the rows are fifteen minutes apart. */
  lemma DummyDfShape()
    ensures var rows := DummyDf();
      && (forall i :: 0 <= i < |rows| ==> WellFormed(rows[i]) && rows[i].close > 0.0)
      && (forall i :: 0 <= i < |rows| - 1 ==> rows[i].close < rows[i + 1].close)
      && (forall i :: 0 <= i < |rows| - 1 ==> rows[i + 1].openTime - rows[i].openTime == 900000)
  {
  }

  /** `_parse_symbols`: no option and the empty string give `None`; otherwise the stripped,
      non-empty comma-separated items, which may be none at all. */
  function ParseSymbols(raw: Option<string>): (r: Option<seq<string>>)
    ensures r == None <==> raw == None || raw == Some("")
    ensures r.Some? ==> forall i :: 0 <= i < |r.value| ==>
      IsStripped(r.value[i]) && r.value[i] != "" && FreeOf(r.value[i], {','})
    ensures r.Some? ==> exists idx :: CleanedAt(Split(raw.value, {','}), r.value, idx)
  {
    if raw == None || raw == Some("") then None
    else
      CleanInOrder(Split(raw.value, {','}));
      Some(CsvItems(raw.value))
  }

  /** Round trip: a non-empty list of clean symbols, joined with commas, parses back to itself. */
  lemma ParseSymbolsJoin(symbols: seq<string>)
    requires |symbols| >= 1
    requires forall i :: 0 <= i < |symbols| ==>
      IsStripped(symbols[i]) && symbols[i] != "" && FreeOf(symbols[i], {','})
    ensures ParseSymbols(Some(Join(symbols, ','))) == Some(symbols)
  {
    CsvRoundTrip(symbols);
    JoinNonEmpty(symbols, ',');
  }

  /** A join of items whose first one is non-empty is non-empty. */
  lemma JoinNonEmpty(xs: seq<string>, sep: char)
    requires |xs| >= 1 && xs[0] != ""
    ensures Join(xs, sep) != ""
  {
  }

  /** An option made only of commas and whitespace is given but names no symbol. */
  lemma ParseSymbolsBlank(raw: string)
    requires raw != ""
    requires forall j :: 0 <= j < |raw| ==> raw[j] == ',' || IsSpace(raw[j])
    ensures ParseSymbols(Some(raw)) == Some([])
  {
    BlankItems(raw);
  }

  lemma BlankItems(raw: string)
    requires forall j :: 0 <= j < |raw| ==> raw[j] == ',' || IsSpace(raw[j])
    ensures CsvItems(raw) == []
  {
    var pieces := Split(raw, {','});
    SplitBlank(raw);
    CleanBlankPieces(pieces);
  }

  /** The pieces of an all-separator-or-space string are all whitespace. */
  lemma {:induction false} SplitBlank(raw: string)
    requires forall j :: 0 <= j < |raw| ==> raw[j] == ',' || IsSpace(raw[j])
    ensures forall k :: 0 <= k < |Split(raw, {','})| ==>
      forall j :: 0 <= j < |Split(raw, {','})[k]| ==> IsSpace(Split(raw, {','})[k][j])
    decreases |raw|
  {
    if |raw| > 0 {
      SplitBlank(raw[1..]);
    }
  }

  lemma {:induction false} CleanBlankPieces(pieces: seq<string>)
    requires forall k :: 0 <= k < |pieces| ==> forall j :: 0 <= j < |pieces[k]| ==> IsSpace(pieces[k][j])
    ensures Clean(pieces) == []
    decreases |pieces|
  {
    if |pieces| > 0 {
      CleanBlankPieces(pieces[..|pieces| - 1]);
      StripAllSpace(pieces[|pieces| - 1]);
    }
  }
}

=== FILE: cluster_ids.dfy ===
/** The numbering pass of `_union_find` (`market/clusters.py`), stated over the component map of
    the finished forest: each item gets the number of its root, roots numbered from 0 in order
    of first appearance. */
module ClusterIds {

  /** The numbering after the first `i` items: `clusters` holds those items, each with the
      number `rootMap` gives its root; numbers below `next` are given to distinct roots, each root
      seen among the first `i` items, in order of first appearance. */
  ghost predicate Numbered<T(!new)>(items: seq<T>, i: int, comp: map<T, T>,
                           clusters: map<T, nat>, rootMap: map<T, nat>, next: nat) {
    && 0 <= i <= |items|
    && (forall j :: 0 <= j < i ==> items[j] in clusters)
    && ByRoot(comp, clusters, rootMap)
    && (forall r :: r in rootMap ==> rootMap[r] < next)
    && Injective(rootMap)
    && (forall r :: r in rootMap ==> exists j :: 0 <= j < i && items[j] in comp && comp[items[j]] == r)
    && Ordered(items, i, clusters, next)
  }

  /** Every numbered item carries the number of its root. */
  ghost predicate ByRoot<T(!new)>(comp: map<T, T>, clusters: map<T, nat>, rootMap: map<T, nat>) {
    forall x :: x in clusters ==> x in comp && comp[x] in rootMap && clusters[x] == rootMap[comp[x]]
  }

  ghost predicate Injective<T(!new)>(rootMap: map<T, nat>) {
    forall r1, r2 :: r1 in rootMap && r2 in rootMap && rootMap[r1] == rootMap[r2] ==> r1 == r2
  }

  /** Numbers appear in order among the first `i` items: the first item has 0, every number
      above 0 has its predecessor on an earlier item, and the last number handed out is on one. */
  ghost predicate Ordered<T(!new)>(items: seq<T>, i: int, clusters: map<T, nat>, next: nat)
    requires 0 <= i <= |items| && forall j :: 0 <= j < i ==> items[j] in clusters
  {
    && (next > 0 ==> exists j :: 0 <= j < i && clusters[items[j]] == next - 1)
    && (i > 0 ==> clusters[items[0]] == 0)
    && (forall j :: 0 <= j < i ==> HasPredecessor(items, clusters, j))
  }

  /** The number of item `j` is 0 or is one more than the number of an earlier item. */
  ghost predicate HasPredecessor<T(!new)>(items: seq<T>, clusters: map<T, nat>, j: int)
    requires 0 <= j < |items| && items[j] in clusters
    requires forall k :: 0 <= k < j ==> items[k] in clusters
  {
    clusters[items[j]] == 0 || exists k :: 0 <= k < j && clusters[items[k]] == clusters[items[j]] - 1
  }

  /** One turn of the numbering loop keeps `Numbered`. */
  lemma NumberStep<T(!new)>(items: seq<T>, i: int, comp: map<T, T>,
                   clusters: map<T, nat>, rootMap: map<T, nat>, next: nat, root: T,
                   cl: map<T, nat>, rm: map<T, nat>, nx: nat)
    requires Numbered(items, i, comp, clusters, rootMap, next) && i < |items|
    requires items[i] in comp && root == comp[items[i]]
    requires rm == (if root in rootMap then rootMap else rootMap[root := next])
    requires nx == (if root in rootMap then next else next + 1)
    requires cl == clusters[items[i] := rm[root]]
    ensures Numbered(items, i + 1, comp, cl, rm, nx)
  {
    KeepsEarlier(items, i, comp, clusters, rootMap, root, rm, cl);
    RootMapStep(items, i, comp, clusters, rootMap, next, root, cl, rm, nx);
    OrderedStep(items, i, comp, clusters, rootMap, next, root, rm, nx, cl);
  }

  /** The root map after a turn still numbers every item by its root, gives distinct roots
      distinct numbers below the next free one, and holds only roots already seen. */
  lemma RootMapStep<T(!new)>(items: seq<T>, i: int, comp: map<T, T>,
                    clusters: map<T, nat>, rootMap: map<T, nat>, next: nat, root: T,
                    cl: map<T, nat>, rm: map<T, nat>, nx: nat)
    requires Numbered(items, i, comp, clusters, rootMap, next) && i < |items|
    requires items[i] in comp && root == comp[items[i]]
    requires rm == (if root in rootMap then rootMap else rootMap[root := next])
    requires nx == (if root in rootMap then next else next + 1)
    requires cl == clusters[items[i] := rm[root]]
    ensures ByRoot(comp, cl, rm) && Injective(rm)
    ensures forall r :: r in rm ==> rm[r] < nx
    ensures forall r :: r in rm ==> exists j :: 0 <= j < i + 1 && items[j] in comp && comp[items[j]] == r
  {
    RootsSeenStep(items, i, comp, clusters, rootMap, next, root, rm);
  }

  /** A root entered in the map is the root of the item just numbered. */
  lemma RootsSeenStep<T(!new)>(items: seq<T>, i: int, comp: map<T, T>,
                      clusters: map<T, nat>, rootMap: map<T, nat>, next: nat, root: T, rm: map<T, nat>)
    requires Numbered(items, i, comp, clusters, rootMap, next) && i < |items|
    requires items[i] in comp && root == comp[items[i]]
    requires rm == (if root in rootMap then rootMap else rootMap[root := next])
    ensures forall r :: r in rm ==> exists j :: 0 <= j < i + 1 && items[j] in comp && comp[items[j]] == r
  {
    forall r | r in rm
      ensures exists j :: 0 <= j < i + 1 && items[j] in comp && comp[items[j]] == r
    {
      if r in rootMap {
        var j :| 0 <= j < i && items[j] in comp && comp[items[j]] == r;
      } else {
        assert comp[items[i]] == r;
      }
    }
  }

  /** Items numbered before keep their numbers: a repeated item gets its old number again. */
  lemma KeepsEarlier<T(!new)>(items: seq<T>, i: int, comp: map<T, T>, clusters: map<T, nat>,
                     rootMap: map<T, nat>, root: T, rm: map<T, nat>, cl: map<T, nat>)
    requires 0 <= i < |items| && (forall j :: 0 <= j < i ==> items[j] in clusters)
    requires ByRoot(comp, clusters, rootMap) && items[i] in comp && root == comp[items[i]]
    requires forall r :: r in rootMap ==> r in rm && rm[r] == rootMap[r]
    requires root in rm && cl == clusters[items[i] := rm[root]]
    ensures forall k :: 0 <= k < i ==> items[k] in clusters && cl[items[k]] == clusters[items[k]]
  {
    forall k | 0 <= k < i
      ensures items[k] in clusters && cl[items[k]] == clusters[items[k]]
    {
      if items[k] == items[i] {
        assert comp[items[i]] == root && root in rootMap;
      }
    }
  }

  lemma OrderedStep<T(!new)>(items: seq<T>, i: int, comp: map<T, T>, clusters: map<T, nat>,
                    rootMap: map<T, nat>, next: nat, root: T, rm: map<T, nat>, nx: nat,
                    cl: map<T, nat>)
    requires Numbered(items, i, comp, clusters, rootMap, next) && i < |items|
    requires items[i] in comp && root == comp[items[i]]
    requires rm == (if root in rootMap then rootMap else rootMap[root := next])
    requires nx == (if root in rootMap then next else next + 1)
    requires cl == clusters[items[i] := rm[root]]
    requires forall k :: 0 <= k < i ==> items[k] in clusters && cl[items[k]] == clusters[items[k]]
    requires forall j :: 0 <= j < i + 1 ==> items[j] in cl
    ensures Ordered(items, i + 1, cl, nx)
  {
    forall j | 0 <= j < i + 1
      ensures HasPredecessor(items, cl, j)
    {
      if j < i {
        assert HasPredecessor(items, clusters, j);
        if clusters[items[j]] != 0 {
          var k :| 0 <= k < j && clusters[items[k]] == clusters[items[j]] - 1;
          assert cl[items[k]] == cl[items[j]] - 1;
        }
      } else if root in rootMap {
        var w :| 0 <= w < i && items[w] in comp && comp[items[w]] == root;
        assert cl[items[w]] == cl[items[j]];
        assert HasPredecessor(items, clusters, w);
        if clusters[items[w]] != 0 {
          var k :| 0 <= k < w && clusters[items[k]] == clusters[items[w]] - 1;
          assert cl[items[k]] == cl[items[j]] - 1;
        }
      } else if next > 0 {
        var k :| 0 <= k < i && clusters[items[k]] == next - 1;
        assert cl[items[k]] == cl[items[j]] - 1;
      }
    }
    if nx > 0 {
      if root in rootMap {
        var k :| 0 <= k < i && clusters[items[k]] == next - 1;
        assert cl[items[k]] == nx - 1;
      } else {
        assert cl[items[i]] == nx - 1;
      }
    }
  }

  lemma NumberedInit<T(!new)>(items: seq<T>, comp: map<T, T>)
    ensures Numbered(items, 0, comp, map[], map[], 0)
  {
  }

  /** The numbering loop of `_union_find`: each item gets the number of its root, a new root
      taking the next free number. */
  method Number<T(==,!new)>(items: seq<T>, ghost itemSet: set<T>, roots: seq<T>, ghost comp: map<T, T>)
    returns (clusters: map<T, nat>)
    requires itemSet == (set x | x in items) && comp.Keys == itemSet
    requires |roots| == |items|
    requires forall j :: 0 <= j < |items| ==> items[j] in comp && roots[j] == comp[items[j]]
    ensures clusters.Keys == itemSet
    ensures forall x, y :: x in clusters && y in clusters ==> (clusters[x] == clusters[y] <==> comp[x] == comp[y])
    ensures |items| > 0 ==> clusters[items[0]] == 0
    ensures forall j :: 0 <= j < |items| ==>
      clusters[items[j]] == 0 || exists k :: 0 <= k < j && clusters[items[k]] == clusters[items[j]] - 1
  {
    var rootMap: map<T, nat> := map[];
    var next: nat := 0;
    clusters := map[];
    NumberedInit(items, comp);
    for i := 0 to |items|
      invariant Numbered(items, i, comp, clusters, rootMap, next)
    {
      clusters, rootMap, next := NumberOne(items, i, roots[i], comp, clusters, rootMap, next);
    }
    NumberedFinal(items, itemSet, comp, clusters, rootMap, next);
  }

  /** One turn of the loop: the item's root keeps its number, or a new root takes the next
      free one, and the item gets its root's number. */
  method NumberOne<T(==,!new)>(items: seq<T>, i: int, root: T, ghost comp: map<T, T>,
                              clusters: map<T, nat>, rootMap: map<T, nat>, next: nat)
    returns (cl: map<T, nat>, rm: map<T, nat>, nx: nat)
    requires Numbered(items, i, comp, clusters, rootMap, next) && i < |items|
    requires items[i] in comp && root == comp[items[i]]
    ensures Numbered(items, i + 1, comp, cl, rm, nx)
  {
    rm, nx := rootMap, next;
    if root !in rootMap {
      rm, nx := rootMap[root := next], next + 1;
    }
    cl := clusters[items[i] := rm[root]];
    NumberStep(items, i, comp, clusters, rootMap, next, root, cl, rm, nx);
  }

  lemma NumberedFinal<T(!new)>(items: seq<T>, itemSet: set<T>, comp: map<T, T>,
                      clusters: map<T, nat>, rootMap: map<T, nat>, next: nat)
    requires itemSet == set x | x in items
    requires comp.Keys == itemSet
    requires Numbered(items, |items|, comp, clusters, rootMap, next)
    ensures clusters.Keys == itemSet
    ensures forall x, y :: x in clusters && y in clusters ==> (clusters[x] == clusters[y] <==> comp[x] == comp[y])
    ensures |items| > 0 ==> clusters[items[0]] == 0
    ensures forall j :: 0 <= j < |items| ==>
      clusters[items[j]] == 0 || exists k :: 0 <= k < j && clusters[items[k]] == clusters[items[j]] - 1
  {
    forall j | 0 <= j < |items|
      ensures clusters[items[j]] == 0 || exists k :: 0 <= k < j && clusters[items[k]] == clusters[items[j]] - 1
    {
      assert HasPredecessor(items, clusters, j);
    }
    assert clusters.Keys == itemSet by {
      forall x | x in itemSet ensures x in clusters {
        var j :| 0 <= j < |items| && items[j] == x;
      }
    }
  }
}

=== FILE: clusters.dfy ===
/** Correlation clustering (`market/clusters.py`): symbol pairs whose return correlation reaches
    the threshold are merged with a union-find (find with path halving), and each symbol gets the
    number of its cluster, numbered in order of first appearance. The correlation matrix comes
    from pandas and is an input. */
module Clusters {
  import opened Common
  import opened ClusterIds

  type Pair<T> = (T, T)

  /** `x` and `y` are the two ends of one of the pairs, in either order. */
  predicate Adjacent<T(==,!new)>(ps: seq<Pair<T>>, x: T, y: T) {
    (x, y) in ps || (y, x) in ps
  }

  /** A walk along pairs: consecutive items are adjacent. */
  predicate IsChain<T(==,!new)>(ps: seq<Pair<T>>, path: seq<T>) {
    |path| >= 1 && forall i :: 0 <= i < |path| - 1 ==> Adjacent(ps, path[i], path[i + 1])
  }

  /** `x` and `y` are joined by a chain of pairs (every item is joined to itself). */
  ghost predicate Connected<T(!new)>(ps: seq<Pair<T>>, x: T, y: T) {
    exists path :: IsChain(ps, path) && path[0] == x && path[|path| - 1] == y
  }

  lemma ConnectedRefl<T(!new)>(ps: seq<Pair<T>>, x: T)
    ensures Connected(ps, x, x)
  {
    assert IsChain(ps, [x]);
  }

  lemma ConnectedEdge<T(!new)>(ps: seq<Pair<T>>, x: T, y: T)
    requires Adjacent(ps, x, y)
    ensures Connected(ps, x, y)
  {
    assert IsChain(ps, [x, y]);
  }

  lemma ConnectedSym<T(!new)>(ps: seq<Pair<T>>, x: T, y: T)
    requires Connected(ps, x, y)
    ensures Connected(ps, y, x)
  {
    var path :| IsChain(ps, path) && path[0] == x && path[|path| - 1] == y;
    var rev := seq(|path|, i requires 0 <= i < |path| => path[|path| - 1 - i]);
    forall i | 0 <= i < |rev| - 1
      ensures Adjacent(ps, rev[i], rev[i + 1])
    {
      assert Adjacent(ps, path[|path| - 2 - i], path[|path| - 1 - i]);
    }
    assert IsChain(ps, rev);
  }

  lemma ConnectedTrans<T(!new)>(ps: seq<Pair<T>>, x: T, y: T, z: T)
    requires Connected(ps, x, y) && Connected(ps, y, z)
    ensures Connected(ps, x, z)
  {
    var p :| IsChain(ps, p) && p[0] == x && p[|p| - 1] == y;
    var q :| IsChain(ps, q) && q[0] == y && q[|q| - 1] == z;
    var pq := p + q[1..];
    forall i | 0 <= i < |pq| - 1
      ensures Adjacent(ps, pq[i], pq[i + 1])
    {
      if i < |p| - 1 {
        assert pq[i] == p[i] && pq[i + 1] == p[i + 1];
      } else {
        var k := i - |p| + 1;
        assert pq[i] == q[k] && pq[i + 1] == q[k + 1];
      }
    }
    assert IsChain(ps, pq);
  }

  /** More pairs never disconnect anything. */
  lemma ConnectedMono<T(!new)>(ps: seq<Pair<T>>, e: Pair<T>, x: T, y: T)
    requires Connected(ps, x, y)
    ensures Connected(ps + [e], x, y)
  {
    var path :| IsChain(ps, path) && path[0] == x && path[|path| - 1] == y;
    assert IsChain(ps + [e], path);
  }

  /** A labelling that agrees across every pair agrees along every chain. */
  lemma {:induction false} ChainKeepsLabel<T(!new)>(ps: seq<Pair<T>>, comp: map<T, T>, path: seq<T>)
    requires IsChain(ps, path) && path[0] in comp
    requires forall x, y :: x in comp && Adjacent(ps, x, y) ==> y in comp && comp[x] == comp[y]
    ensures path[|path| - 1] in comp && comp[path[|path| - 1]] == comp[path[0]]
    decreases |path|
  {
    if |path| > 1 {
      var init := path[..|path| - 1];
      assert IsChain(ps, init);
      ChainKeepsLabel(ps, comp, init);
      assert Adjacent(ps, path[|path| - 2], path[|path| - 1]);
    }
  }

  /** Every end of every pair is one of the items. */
  predicate PairsWithin<T(==,!new)>(items: set<T>, ps: seq<Pair<T>>) {
    forall i :: 0 <= i < |ps| ==> ps[i].0 in items && ps[i].1 in items
  }

  /** The union-find forest: `parent` over the items, `comp` the root every item reaches, and
      `level` a height that strictly grows along parent links, so every walk up ends at a root. */
  ghost predicate Forest<T(!new)>(items: set<T>, parent: map<T, T>, comp: map<T, T>,
                         level: map<T, nat>, bound: nat) {
    && parent.Keys == items && comp.Keys == items && level.Keys == items
    && parent.Values <= items && comp.Values <= items
    && (forall x {:trigger comp[parent[x]]} :: x in items ==> comp[parent[x]] == comp[x])
    && (forall x :: x in items ==> (parent[x] == x <==> comp[x] == x))
    && (forall x :: x in items && parent[x] != x ==> level[x] < level[parent[x]])
    && (forall x :: x in items ==> level[x] <= bound)
  }

  /** Two items have the same root exactly when a chain of the pairs joins them. */
  ghost predicate Partition<T(!new)>(ps: seq<Pair<T>>, comp: map<T, T>) {
    forall x, y :: x in comp && y in comp ==> (comp[x] == comp[y] <==> Connected(ps, x, y))
  }

  /** Every item its own root: the state before any union. */
  lemma InitialPartition<T(!new)>(items: seq<T>, comp: map<T, T>)
    requires comp == map x | x in items :: x
    ensures Partition([], comp)
  {
    forall x, y | x in comp && y in comp
      ensures comp[x] == comp[y] <==> Connected([], x, y)
    {
      if x == y {
        ConnectedRefl([], x);
      }
      if Connected([], x, y) {
        var path :| IsChain([], path) && path[0] == x && path[|path| - 1] == y;
        if |path| > 1 {
          assert Adjacent([], path[0], path[1]);
        }
      }
    }
  }

  /** The roots after linking root `rb` under root `ra`. */
  ghost function Relabel<T(!new)>(comp: map<T, T>, rb: T, ra: T): (c: map<T, T>)
    ensures c.Keys == comp.Keys
  {
    map x | x in comp :: if comp[x] == rb then ra else comp[x]
  }

  /** The level of `ra` once `rb` hangs below it. */
  function RaisedLevel<T(==,!new)>(level: map<T, nat>, ra: T, rb: T): (lv: map<T, nat>)
    requires ra in level && rb in level
    ensures lv.Keys == level.Keys && lv[ra] > level[rb] && lv[ra] >= level[ra]
    ensures forall x :: x in level && x != ra ==> lv[x] == level[x]
  {
    level[ra := if level[ra] > level[rb] then level[ra] else level[rb] + 1]
  }

  /** Linking two different roots keeps the forest well formed. */
  lemma LinkKeepsForest<T(!new)>(items: set<T>, parent: map<T, T>, comp: map<T, T>,
                        level: map<T, nat>, bound: nat, ra: T, rb: T,
                        p: map<T, T>, c: map<T, T>, lv: map<T, nat>, bd: nat)
    requires Forest(items, parent, comp, level, bound)
    requires ra in items && rb in items && parent[ra] == ra && parent[rb] == rb && ra != rb
    requires p == parent[rb := ra] && c == Relabel(comp, rb, ra) && lv == RaisedLevel(level, ra, rb)
    requires bd == if bound >= lv[ra] then bound else lv[ra]
    ensures Forest(items, p, c, lv, bd)
  {
    LinkKeepsValues(items, parent, comp, ra, rb, p, c);
    LinkKeepsRoots(items, parent, comp, ra, rb, p, c);
    forall x | x in items && p[x] != x
      ensures lv[x] < lv[p[x]]
    {
    }
    forall x | x in items
      ensures lv[x] <= bd
    {
    }
  }

  lemma LinkKeepsValues<T(!new)>(items: set<T>, parent: map<T, T>, comp: map<T, T>,
                        ra: T, rb: T, p: map<T, T>, c: map<T, T>)
    requires parent.Keys == items && comp.Keys == items && parent.Values <= items && comp.Values <= items
    requires ra in items && rb in items
    requires p == parent[rb := ra] && c == Relabel(comp, rb, ra)
    ensures p.Keys == items && c.Keys == items && p.Values <= items && c.Values <= items
  {
    forall v | v in p.Values
      ensures v in items
    {
      var x :| x in p && p[x] == v;
      if x != rb {
        assert parent[x] in parent.Values;
      }
    }
    forall v | v in c.Values
      ensures v in items
    {
      var x :| x in c && c[x] == v;
      assert comp[x] in comp.Values;
    }
  }

  lemma LinkKeepsRoots<T(!new)>(items: set<T>, parent: map<T, T>, comp: map<T, T>,
                       ra: T, rb: T, p: map<T, T>, c: map<T, T>)
    requires parent.Keys == items && comp.Keys == items && parent.Values <= items
    requires forall x :: x in items ==> comp[parent[x]] == comp[x]
    requires forall x :: x in items ==> (parent[x] == x <==> comp[x] == x)
    requires ra in items && rb in items && parent[ra] == ra && parent[rb] == rb && ra != rb
    requires p == parent[rb := ra] && c == Relabel(comp, rb, ra)
    ensures forall x :: x in items ==> c[p[x]] == c[x]
    ensures forall x :: x in items ==> (p[x] == x <==> c[x] == x)
  {
    assert comp[ra] == ra && comp[rb] == rb;
    forall x | x in items
      ensures c[p[x]] == c[x] && (p[x] == x <==> c[x] == x)
    {
      if x != rb {
        assert parent[x] in parent.Values;
        assert p[x] == parent[x] && comp[parent[x]] == comp[x];
      }
    }
  }

  /** Linking the roots of the two ends of a new pair keeps the roots in step with connectivity. */
  lemma LinkKeepsPartition<T(!new)>(items: set<T>, ps: seq<Pair<T>>, comp: map<T, T>,
                           a: T, b: T, ra: T, rb: T)
    requires comp.Keys == items && PairsWithin(items, ps) && a in items && b in items
    requires Partition(ps, comp)
    requires comp[a] == ra && comp[b] == rb && ra in comp && comp[ra] == ra
    ensures ra != rb ==> Partition(ps + [(a, b)], Relabel(comp, rb, ra))
    ensures ra == rb ==> Partition(ps + [(a, b)], comp)
  {
    var ps' := ps + [(a, b)];
    var c := if ra != rb then Relabel(comp, rb, ra) else comp;
    assert c[a] == c[b];
    // The new labels agree across every pair, old or new.
    forall x, y | x in c && Adjacent(ps', x, y)
      ensures y in c && c[x] == c[y]
    {
      if Adjacent(ps, x, y) {
        if (x, y) in ps {
          var i :| 0 <= i < |ps| && ps[i] == (x, y);
        } else {
          var i :| 0 <= i < |ps| && ps[i] == (y, x);
        }
        ConnectedEdge(ps, x, y);
      } else {
        assert (x, y) == (a, b) || (y, x) == (a, b);
      }
    }
    forall x, y | x in c && y in c
      ensures c[x] == c[y] <==> Connected(ps', x, y)
    {
      if Connected(ps', x, y) {
        var path :| IsChain(ps', path) && path[0] == x && path[|path| - 1] == y;
        ChainKeepsLabel(ps', c, path);
      }
      if c[x] == c[y] {
        // Both ends reach `a` in the old pairs, or through the new pair (a, b).
        ConnectedToA(ps, comp, a, b, ra, rb, x);
        ConnectedToA(ps, comp, a, b, ra, rb, y);
        if comp[x] == comp[y] {
          ConnectedMono(ps, (a, b), x, y);
        } else {
          ConnectedSym(ps', y, a);
          ConnectedTrans(ps', x, a, y);
        }
      }
    }
  }

  /** An item labelled `ra` or `rb` before the link is joined to `a` once the pair (a, b) is added. */
  lemma ConnectedToA<T(!new)>(ps: seq<Pair<T>>, comp: map<T, T>, a: T, b: T, ra: T, rb: T, x: T)
    requires Partition(ps, comp) && a in comp && b in comp && x in comp
    requires comp[a] == ra && comp[b] == rb
    ensures comp[x] == ra || comp[x] == rb ==> Connected(ps + [(a, b)], x, a)
  {
    var ps' := ps + [(a, b)];
    if comp[x] == ra {
      ConnectedMono(ps, (a, b), x, a);
    } else if comp[x] == rb {
      ConnectedMono(ps, (a, b), x, b);
      ConnectedEdge(ps', b, a);
      ConnectedTrans(ps', x, b, a);
    }
  }

  /** `find` with path halving: walks up from `x`, pointing each visited item at its grandparent,
      and returns the root. Every item keeps its root, so the forest and `comp` stay valid. */
  method Find<T(==,!new)>(ghost items: set<T>, parent: map<T, T>, x: T,
              ghost comp: map<T, T>, ghost level: map<T, nat>, ghost bound: nat)
    returns (root: T, parent': map<T, T>)
    requires Forest(items, parent, comp, level, bound) && x in items
    ensures Forest(items, parent', comp, level, bound)
    ensures root == comp[x] && root in items && parent'[root] == root
  {
    parent' := parent;
    var y := x;
    while parent'[y] != y
      invariant Forest(items, parent', comp, level, bound)
      invariant y in items && comp[y] == comp[x]
      decreases bound - level[y]
    {
      HalveKeepsForest(items, parent', comp, level, bound, y);
      parent' := parent'[y := parent'[parent'[y]]];
      y := parent'[y];
    }
    root := y;
  }

  /** Pointing a non-root item at its grandparent keeps the forest and every root. */
  lemma HalveKeepsForest<T(!new)>(items: set<T>, parent: map<T, T>, comp: map<T, T>,
                         level: map<T, nat>, bound: nat, y: T)
    requires Forest(items, parent, comp, level, bound) && y in items && parent[y] != y
    ensures parent[y] in items && parent[parent[y]] in items
    ensures Forest(items, parent[y := parent[parent[y]]], comp, level, bound)
    ensures level[y] < level[parent[parent[y]]]
  {
    var p := parent[y := parent[parent[y]]];
    var g := parent[parent[y]];
    assert parent[y] in parent.Values && g in parent.Values;
    assert comp[g] == comp[y];
    assert g != y && level[y] < level[g];
    forall v | v in p.Values
      ensures v in items
    {
      var z :| z in p && p[z] == v;
      assert parent[z] in parent.Values;
    }
    forall z | z in items
      ensures comp[p[z]] == comp[z] && (p[z] == z <==> comp[z] == z)
      ensures p[z] != z ==> level[z] < level[p[z]]
    {
    }
  }

  /** `union(a, b)`: finds both roots and hangs the second under the first when they differ.
      The roots then reflect the pairs seen so far plus (a, b). */
  method Union<T(==,!new)>(ghost items: set<T>, parent: map<T, T>, a: T, b: T,
               ghost ps: seq<Pair<T>>, ghost comp: map<T, T>, ghost level: map<T, nat>, ghost bound: nat)
    returns (parent': map<T, T>, ghost comp': map<T, T>, ghost level': map<T, nat>, ghost bound': nat)
    requires Forest(items, parent, comp, level, bound) && Partition(ps, comp)
    requires PairsWithin(items, ps) && a in items && b in items
    ensures parent'.Keys == parent.Keys && parent'.Values <= parent.Keys
    ensures Forest(items, parent', comp', level', bound') && Partition(ps + [(a, b)], comp')
  {
    var ra, rb;
    ra, parent' := Find(items, parent, a, comp, level, bound);
    rb, parent' := Find(items, parent', b, comp, level, bound);
    LinkKeepsPartition(items, ps, comp, a, b, ra, rb);
    comp', level', bound' := comp, level, bound;
    if ra != rb {
      level' := RaisedLevel(level, ra, rb);
      bound' := if bound >= level'[ra] then bound else level'[ra];
      comp' := Relabel(comp, rb, ra);
      LinkKeepsForest(items, parent', comp, level, bound, ra, rb, parent'[rb := ra], comp', level', bound');
      parent' := parent'[rb := ra];
    }
  }

  /** Before any union every item is its own root. */
  lemma InitialForest<T(!new)>(items: seq<T>, parent: map<T, T>, comp: map<T, T>, level: map<T, nat>)
    requires parent == (map x | x in items :: x) && comp == parent && level == (map x | x in items :: 0)
    ensures Forest((set x | x in items), parent, comp, level, 0)
    ensures Partition([], comp)
  {
    InitialPartition(items, comp);
    forall v | v in parent.Values
      ensures v in items
    {
      var z :| z in parent && parent[z] == v;
    }
  }

  /** `_union_find`: the cluster number of every item. Items joined by a chain of pairs share a
      number and no others do; numbers are handed out from 0 in order of first appearance, so
      every number above 0 has its predecessor on an earlier item. */
  method UnionFind<T(==,!new)>(items: seq<T>, pairs: seq<Pair<T>>) returns (clusters: map<T, nat>)
    requires PairsWithin((set x | x in items), pairs)
    ensures clusters.Keys == set x | x in items
    ensures forall x, y :: x in clusters && y in clusters ==> (clusters[x] == clusters[y] <==> Connected(pairs, x, y))
    ensures |items| > 0 ==> clusters[items[0]] == 0
    ensures forall j :: 0 <= j < |items| ==>
      clusters[items[j]] == 0 || exists k :: 0 <= k < j && clusters[items[k]] == clusters[items[j]] - 1
  {
    ghost var itemSet := set x | x in items;
    var parent := map x | x in items :: x;
    ghost var comp := parent;
    ghost var level: map<T, nat> := map x | x in items :: 0;
    ghost var bound: nat := 0;
    InitialForest(items, parent, comp, level);
    var i := 0;
    while i < |pairs|
      invariant 0 <= i <= |pairs|
      invariant Forest(itemSet, parent, comp, level, bound)
      invariant Partition(pairs[..i], comp)
    {
      var (a, b) := pairs[i];
      assert pairs[..i + 1] == pairs[..i] + [(a, b)];
      assert PairsWithin(itemSet, pairs[..i]);
      parent, comp, level, bound := Union(itemSet, parent, a, b, pairs[..i], comp, level, bound);
      i := i + 1;
    }
    assert pairs[..|pairs|] == pairs;
    var roots := Roots(items, itemSet, parent, comp, level, bound);
    clusters := Number(items, itemSet, roots, comp);
  }

  /** The `find(item)` of every item, in order, as the numbering loop of `_union_find` calls it.
      Path halving only shortens walks and never changes a root, so finding all roots first and
      numbering afterwards hands out the same numbers as interleaving the two. */
  method Roots<T(==,!new)>(items: seq<T>, ghost itemSet: set<T>, parent0: map<T, T>,
               ghost comp: map<T, T>, ghost level: map<T, nat>, ghost bound: nat)
    returns (roots: seq<T>)
    requires forall j :: 0 <= j < |items| ==> items[j] in itemSet
    requires Forest(itemSet, parent0, comp, level, bound)
    ensures |roots| == |items|
    ensures forall j :: 0 <= j < |items| ==> items[j] in comp && roots[j] == comp[items[j]]
  {
    var parent := parent0;
    roots := [];
    while |roots| < |items|
      invariant |roots| <= |items|
      invariant Forest(itemSet, parent, comp, level, bound)
      invariant forall j :: 0 <= j < |roots| ==> items[j] in comp && roots[j] == comp[items[j]]
    {
      var x := items[|roots|];
      var root;
      root, parent := Find(itemSet, parent, x, comp, level, bound);
      roots := roots + [root];
    }
  }

  /** A square correlation matrix over the symbols; `None` is a NaN entry (a constant column). */
  predicate IsMatrix<T>(symbols: seq<T>, corr: seq<seq<Option<real>>>) {
    |corr| == |symbols| && forall i :: 0 <= i < |corr| ==> |corr[i]| == |symbols|
  }

  /** `corr.loc[a, b] >= threshold`; a NaN correlation never reaches it. */
  predicate Qualifies(corr: seq<seq<Option<real>>>, threshold: real, i: int, k: int)
    requires 0 <= i < |corr| && 0 <= k < |corr[i]|
  {
    corr[i][k].Some? && corr[i][k].value >= threshold
  }

  /** The pairs `(symbols[a], symbols[k])`, `b <= k`, whose correlation reaches the threshold. */
  function RowPairs<T(!new)>(symbols: seq<T>, corr: seq<seq<Option<real>>>, threshold: real, a: int, b: int)
    : (ps: seq<Pair<T>>)
    requires IsMatrix(symbols, corr) && 0 <= a < |symbols| && 0 <= b <= |symbols|
    ensures forall p :: p in ps <==>
      exists k :: b <= k < |symbols| && Qualifies(corr, threshold, a, k) && p == (symbols[a], symbols[k])
    decreases |symbols| - b
  {
    if b == |symbols| then []
    else
      var rest := RowPairs(symbols, corr, threshold, a, b + 1);
      if Qualifies(corr, threshold, a, b) then [(symbols[a], symbols[b])] + rest else rest
  }

  /** The selected pairs from row `a` on, in the row-major order of the nested loops of
      `build_clusters`: only pairs above the diagonal are looked at. */
  function PairsFrom<T(!new)>(symbols: seq<T>, corr: seq<seq<Option<real>>>, threshold: real, a: int)
    : (ps: seq<Pair<T>>)
    requires IsMatrix(symbols, corr) && 0 <= a <= |symbols|
    ensures forall p :: p in ps <==>
      exists i, k :: a <= i < k < |symbols| && Qualifies(corr, threshold, i, k) && p == (symbols[i], symbols[k])
    decreases |symbols| - a
  {
    if a == |symbols| then []
    else RowPairs(symbols, corr, threshold, a, a + 1) + PairsFrom(symbols, corr, threshold, a + 1)
  }

  function SelectPairs<T(!new)>(symbols: seq<T>, corr: seq<seq<Option<real>>>, threshold: real): (ps: seq<Pair<T>>)
    requires IsMatrix(symbols, corr)
    ensures forall p :: p in ps <==>
      exists i, k :: 0 <= i < k < |symbols| && Qualifies(corr, threshold, i, k) && p == (symbols[i], symbols[k])
  {
    PairsFrom(symbols, corr, threshold, 0)
  }

  /** Every selected pair joins two of the symbols. */
  lemma SelectedWithin<T(!new)>(symbols: seq<T>, corr: seq<seq<Option<real>>>, threshold: real)
    requires IsMatrix(symbols, corr)
    ensures PairsWithin((set x | x in symbols), SelectPairs(symbols, corr, threshold))
  {
    var ps := SelectPairs(symbols, corr, threshold);
    forall n | 0 <= n < |ps|
      ensures ps[n].0 in (set x | x in symbols) && ps[n].1 in (set x | x in symbols)
    {
      assert ps[n] in ps;
      var i, k :| 0 <= i < k < |symbols| && Qualifies(corr, threshold, i, k) && ps[n] == (symbols[i], symbols[k]);
    }
  }

  datatype ClusterResult<T> = ClusterResult(clusters: map<T, nat>, matrix: seq<seq<Option<real>>>)

  /** `build_clusters`: the symbols are the matrix's columns; two symbols share a cluster exactly
      when a chain of above-threshold correlations joins them. */
  method BuildClusters<T(==,!new)>(symbols: seq<T>, corr: seq<seq<Option<real>>>, threshold: real)
    returns (result: ClusterResult<T>)
    requires IsMatrix(symbols, corr)
    ensures result.matrix == corr
    ensures result.clusters.Keys == set x | x in symbols
    ensures forall x, y :: x in result.clusters && y in result.clusters ==>
      (result.clusters[x] == result.clusters[y] <==> Connected(SelectPairs(symbols, corr, threshold), x, y))
    ensures forall i, k :: 0 <= i < k < |symbols| && Qualifies(corr, threshold, i, k) ==>
      result.clusters[symbols[i]] == result.clusters[symbols[k]]
  {
    var pairs := SelectPairs(symbols, corr, threshold);
    SelectedWithin(symbols, corr, threshold);
    var clusters := UnionFind(symbols, pairs);
    forall i, k | 0 <= i < k < |symbols| && Qualifies(corr, threshold, i, k)
      ensures clusters[symbols[i]] == clusters[symbols[k]]
    {
      assert symbols[i] in clusters && symbols[k] in clusters;
      assert (symbols[i], symbols[k]) in pairs;
      ConnectedEdge(pairs, symbols[i], symbols[k]);
    }
    result := ClusterResult(clusters, corr);
  }
}

=== FILE: common.dfy ===
/** Shared vocabulary of the trading pipeline: optional values (Python's `None`,
    and pandas' NaN where the model needs it) and the OHLCV candle row. */
module Common {

  /** `None` stands for a Python `None`, or for a NaN where a comparison with it is always false. */
  datatype Option<+T> = None | Some(value: T) {
    function GetOr(default: T): T {
      match this
      case Some(v) => v
      case None => default
    }
  }

  /** One closed candle row of a pandas frame: `open_time_ms`, `open`, `high`, `low`, `close`, `volume`. */
  datatype Candle = Candle(openTime: int, open: real, high: real, low: real, close: real, volume: real)

  /** A candle whose close lies inside its own high/low range. */
  predicate WellFormed(c: Candle) {
    c.low <= c.close <= c.high
  }

  function Abs(x: real): (r: real)
    ensures r >= 0.0 && (r == x || r == -x)
  {
    if x < 0.0 then -x else x
  }

  function Max(a: real, b: real): real {
    if a >= b then a else b
  }

  function Min(a: real, b: real): real {
    if a <= b then a else b
  }

  /** `idx` lists positions of `[lo, hi)` in strictly increasing order: the positions an
      order-preserving selection keeps. */
  ghost predicate Ascending(idx: seq<nat>, lo: nat, hi: nat) {
    && (forall k :: 0 <= k < |idx| ==> lo <= idx[k] < hi)
    && (forall k, l :: 0 <= k < l < |idx| ==> idx[k] < idx[l])
  }

  /** A position past every listed one extends an ascending list. */
  lemma AscendingSnoc(idx: seq<nat>, lo: nat, hi: nat)
    requires Ascending(idx, lo, hi) && lo <= hi
    ensures Ascending(idx + [hi], lo, hi + 1)
  {
  }

  /** Real multiplication under a name, so that proofs can treat products as opaque quantities
      and stay within linear arithmetic. */
  function Mul(a: real, b: real): real {
    a * b
  }
}

=== FILE: ensemble.dfy ===
/** Confluence engine (`strategy/ensemble.py`): eligibility filtering by regime, BTC state and
    market quality, then vote counting over the eligible strategies. Votes are a dictionary keyed
    by strategy name; a later strategy with the same name overwrites the earlier vote in place,
    as a Python dict assignment does. */
module Ensemble {
  import opened Common
  import opened StrategyBase
  import Regime
  import BtcState

  /** A strategy together with the direction its `generate` returns on the frame at hand. */
  datatype Strategy = Strategy(name: string, verdict: Direction)

  /** The votes dictionary in insertion order. */
  type Votes = seq<(string, Direction)>

  datatype Decision = Decision(signal: Signal, votes: Votes)

  predicate Eligible(name: string, regime: Regime.Label, btc: BtcState.State) {
    && !(name == "mean_reversion_bb" && regime != Regime.Range)
    && !((name == "trend_ema" || name == "breakout_donchian") && (btc == BtcState.Squeeze || btc == BtcState.Chop))
  }

  /** The strategies passing `Eligible`, in their original order. */
  function KeepEligible(strats: seq<Strategy>, regime: Regime.Label, btc: BtcState.State): (r: seq<Strategy>)
    ensures |r| <= |strats|
    ensures forall x :: x in r <==> x in strats && Eligible(x.name, regime, btc)
  {
    if |strats| == 0 then []
    else
      var init, last := strats[..|strats| - 1], strats[|strats| - 1];
      assert strats == init + [last];
      KeepEligible(init, regime, btc) + (if Eligible(last.name, regime, btc) then [last] else [])
  }

  /** `r` lists the strategies at the ascending positions `idx`, which are all the positions
      of eligible strategies. */
  ghost predicate PicksEligible(strats: seq<Strategy>, r: seq<Strategy>, idx: seq<nat>,
                                regime: Regime.Label, btc: BtcState.State) {
    && |idx| == |r| && Ascending(idx, 0, |strats|)
    && (forall k :: 0 <= k < |idx| ==> r[k] == strats[idx[k]] && Eligible(r[k].name, regime, btc))
    && (forall i :: 0 <= i < |strats| && Eligible(strats[i].name, regime, btc) ==> i in idx)
  }

  /** The kept strategies are an order-preserving selection: every eligible strategy, once
      each, in its original position order. */
  lemma {:induction false} KeepEligibleInOrder(strats: seq<Strategy>, regime: Regime.Label, btc: BtcState.State)
    ensures exists idx :: PicksEligible(strats, KeepEligible(strats, regime, btc), idx, regime, btc)
    decreases |strats|
  {
    if |strats| == 0 {
      var none: seq<nat> := [];
      assert KeepEligible(strats, regime, btc) == [];
      assert PicksEligible(strats, [], none, regime, btc);
    } else {
      var init, last := strats[..|strats| - 1], strats[|strats| - 1];
      KeepEligibleInOrder(init, regime, btc);
      var kept := KeepEligible(init, regime, btc);
      var idx: seq<nat> :| PicksEligible(init, kept, idx, regime, btc);
      var r := if Eligible(last.name, regime, btc) then kept + [last] else kept;
      assert KeepEligible(strats, regime, btc) == r;
      var idx' := KeepEligibleStep(strats, kept, r, idx, regime, btc);
    }
  }

  /** One more strategy extends the selection of the ones before it. */
  lemma KeepEligibleStep(strats: seq<Strategy>, kept: seq<Strategy>, r: seq<Strategy>, idx: seq<nat>,
                         regime: Regime.Label, btc: BtcState.State)
    returns (idx': seq<nat>)
    requires |strats| > 0 && PicksEligible(strats[..|strats| - 1], kept, idx, regime, btc)
    requires r == if Eligible(strats[|strats| - 1].name, regime, btc) then kept + [strats[|strats| - 1]] else kept
    ensures PicksEligible(strats, r, idx', regime, btc)
  {
    var n := |strats| - 1;
    var eligible := Eligible(strats[n].name, regime, btc);
    idx' := if eligible then idx + [n] else idx;
    if eligible {
      AscendingSnoc(idx, 0, n);
    }
    StepPositions(strats, r, kept, idx, idx', regime, btc);
    StepCovers(strats, idx, idx', regime, btc);
    assert |idx'| == |r| && Ascending(idx', 0, |strats|);
  }

  lemma StepPositions(strats: seq<Strategy>, r: seq<Strategy>, kept: seq<Strategy>, idx: seq<nat>, idx': seq<nat>,
                      regime: Regime.Label, btc: BtcState.State)
    requires |strats| > 0 && |idx| == |kept| && Ascending(idx, 0, |strats| - 1)
    requires forall k :: 0 <= k < |idx| ==> kept[k] == strats[..|strats| - 1][idx[k]] && Eligible(kept[k].name, regime, btc)
    requires var last := strats[|strats| - 1];
      if Eligible(last.name, regime, btc) then r == kept + [last] && idx' == idx + [|strats| - 1]
      else r == kept && idx' == idx
    ensures |idx'| == |r|
    ensures forall k :: 0 <= k < |idx'| ==> r[k] == strats[idx'[k]] && Eligible(r[k].name, regime, btc)
  {
    forall k | 0 <= k < |idx'|
      ensures r[k] == strats[idx'[k]] && Eligible(r[k].name, regime, btc)
    {
      if k < |idx| {
        assert r[k] == kept[k] && idx'[k] == idx[k];
      }
    }
  }

  lemma StepCovers(strats: seq<Strategy>, idx: seq<nat>, idx': seq<nat>, regime: Regime.Label, btc: BtcState.State)
    requires |strats| > 0
    requires forall i :: 0 <= i < |strats| - 1 && Eligible(strats[..|strats| - 1][i].name, regime, btc) ==> i in idx
    requires var last := strats[|strats| - 1];
      if Eligible(last.name, regime, btc) then idx' == idx + [|strats| - 1] else idx' == idx
    ensures forall i :: 0 <= i < |strats| && Eligible(strats[i].name, regime, btc) ==> i in idx'
  {
    forall i | 0 <= i < |strats| && Eligible(strats[i].name, regime, btc)
      ensures i in idx'
    {
      if i < |strats| - 1 {
        assert strats[..|strats| - 1][i] == strats[i];
      }
    }
  }

  /** The last verdict of a name among the kept strategies is its last verdict overall when the
      name is eligible, and there is none otherwise. */
  lemma {:induction false} EligibleVerdict(strats: seq<Strategy>, name: string, regime: Regime.Label, btc: BtcState.State)
    ensures LastVerdict(KeepEligible(strats, regime, btc), name)
      == if Eligible(name, regime, btc) then LastVerdict(strats, name) else None
    decreases |strats|
  {
    if |strats| > 0 {
      var init, last := strats[..|strats| - 1], strats[|strats| - 1];
      EligibleVerdict(init, name, regime, btc);
      var kept := KeepEligible(init, regime, btc);
      assert strats == init + [last];
      LastVerdictSnoc(init, last, name);
      if Eligible(last.name, regime, btc) {
        assert KeepEligible(strats, regime, btc) == kept + [last];
        LastVerdictSnoc(kept, last, name);
      } else {
        assert KeepEligible(strats, regime, btc) == kept;
      }
    }
  }

  /** Appending a strategy makes its verdict the last one of its name and leaves the others alone. */
  lemma LastVerdictSnoc(strats: seq<Strategy>, x: Strategy, name: string)
    ensures LastVerdict(strats + [x], name) == if x.name == name then Some(x.verdict) else LastVerdict(strats, name)
  {
    assert (strats + [x])[..|strats|] == strats;
  }

  /** Low market quality or a chaotic regime disables every strategy. */
  predicate Blocked(regime: Regime.Label, mqs: int) {
    mqs < 50 || regime == Regime.Chaotic
  }

  /** `_filter_strategies` */
  function FilterStrategies(strats: seq<Strategy>, regime: Regime.Label, btc: BtcState.State, mqs: int): (allowed: seq<Strategy>)
    ensures Blocked(regime, mqs) ==> allowed == []
    ensures !Blocked(regime, mqs) ==> forall x :: x in allowed <==> x in strats && Eligible(x.name, regime, btc)
    ensures |allowed| <= |strats|
  {
    if Blocked(regime, mqs) then [] else KeepEligible(strats, regime, btc)
  }

  /** A name's last verdict among the allowed strategies: none in a blocked market or for an
      ineligible name, its last verdict among all strategies otherwise. */
  lemma FilteredVerdict(strats: seq<Strategy>, name: string, regime: Regime.Label, btc: BtcState.State, mqs: int)
    ensures LastVerdict(FilterStrategies(strats, regime, btc, mqs), name)
      == if !Blocked(regime, mqs) && Eligible(name, regime, btc) then LastVerdict(strats, name) else None
  {
    if !Blocked(regime, mqs) {
      EligibleVerdict(strats, name, regime, btc);
    }
  }

  /** The keys of the dictionary, in insertion order. */
  function Names(votes: Votes): (ns: seq<string>)
    ensures |ns| == |votes|
  {
    if |votes| == 0 then [] else [votes[0].0] + Names(votes[1..])
  }

  function Lookup(votes: Votes, name: string): (v: Option<Direction>)
    ensures v.Some? <==> name in Names(votes)
  {
    if |votes| == 0 then None
    else if votes[0].0 == name then Some(votes[0].1)
    else Lookup(votes[1..], name)
  }

  /** No name occurs twice. */
  predicate DistinctNames(votes: Votes) {
    |votes| == 0 || (votes[0].0 !in Names(votes[1..]) && DistinctNames(votes[1..]))
  }

  /** `votes[name] = d`: overwrites an existing entry where it stands, or appends a new one. */
  function Put(votes: Votes, name: string, d: Direction): (r: Votes)
    ensures Lookup(r, name) == Some(d)
    ensures forall n :: n != name ==> Lookup(r, n) == Lookup(votes, n)
    ensures forall n :: n in Names(r) <==> n in Names(votes) || n == name
    ensures |r| == if name in Names(votes) then |votes| else |votes| + 1
    ensures DistinctNames(votes) ==> DistinctNames(r)
  {
    if |votes| == 0 then [(name, d)]
    else if votes[0].0 == name then
      var r := [(name, d)] + votes[1..];
      assert r[1..] == votes[1..];
      r
    else
      var r := [votes[0]] + Put(votes[1..], name, d);
      assert r[1..] == Put(votes[1..], name, d);
      r
  }

  /** The verdict of the last strategy in `strats` named `name`, if any. */
  function LastVerdict(strats: seq<Strategy>, name: string): (v: Option<Direction>)
    ensures v.Some? <==> exists i :: 0 <= i < |strats| && strats[i].name == name
    ensures v.Some? ==> exists i :: 0 <= i < |strats| && strats[i] == Strategy(name, v.value)
  {
    if |strats| == 0 then None
    else if strats[|strats| - 1].name == name then Some(strats[|strats| - 1].verdict)
    else
      var v := LastVerdict(strats[..|strats| - 1], name);
      assert forall i :: 0 <= i < |strats| - 1 ==> strats[..|strats| - 1][i] == strats[i];
      v
  }

  /** The loop `votes[strat.name] = result.direction` over the allowed strategies. */
  function CastVotes(allowed: seq<Strategy>): (votes: Votes)
    ensures DistinctNames(votes)
    ensures forall n :: Lookup(votes, n) == LastVerdict(allowed, n)
    ensures |votes| <= |allowed|
    ensures |allowed| > 0 ==> |votes| > 0
  {
    if |allowed| == 0 then []
    else
      var last := allowed[|allowed| - 1];
      Put(CastVotes(allowed[..|allowed| - 1]), last.name, last.verdict)
  }

  /** Number of votes for direction `d`. */
  function CountDir(votes: Votes, d: Direction): (n: nat)
    ensures n <= |votes|
  {
    if |votes| == 0 then 0 else (if votes[0].1 == d then 1 else 0) + CountDir(votes[1..], d)
  }

  /** LONG and SHORT votes together never exceed the total: a NONE vote is counted in neither. */
  lemma {:induction false} CountsWithinTotal(votes: Votes)
    ensures CountDir(votes, Long) + CountDir(votes, Short) + CountDir(votes, NoneDir) == |votes|
  {
    if |votes| > 0 {
      CountsWithinTotal(votes[1..]);
    }
  }

  /** Agreement needed: 2 of 3 or more voters, otherwise all of them; all of them when the
      market quality is between 50 and the trade threshold. */
  function Required(total: nat, mqs: int, minTradeScore: int): (req: nat)
    ensures 50 <= mqs < minTradeScore ==> req == total
    ensures !(50 <= mqs < minTradeScore) ==> req == (if total >= 3 then 2 else total)
  {
    if 50 <= mqs < minTradeScore then total else if total >= 3 then 2 else total
  }

  function MaxNat(a: nat, b: nat): (m: nat)
    ensures m >= a && m >= b && (m == a || m == b)
  {
    if a >= b then a else b
  }

  /** Direction and confidence from a non-empty set of votes: a direction needs the required
      agreement and a strict majority over the opposite direction; the confidence is the larger
      of the two counts over all votes cast, NONE votes included. */
  function Tally(votes: Votes, mqs: int, minTradeScore: int): (r: (Direction, real))
    requires |votes| > 0
    ensures r.0 == Long <==> CountDir(votes, Long) >= Required(|votes|, mqs, minTradeScore) && CountDir(votes, Long) > CountDir(votes, Short)
    ensures r.0 == Short <==> CountDir(votes, Short) >= Required(|votes|, mqs, minTradeScore) && CountDir(votes, Short) > CountDir(votes, Long)
    ensures 0.0 <= r.1 <= 1.0
    ensures Mul(r.1, |votes| as real) == MaxNat(CountDir(votes, Long), CountDir(votes, Short)) as real
  {
    var d := Verdict(CountDir(votes, Long), CountDir(votes, Short), Required(|votes|, mqs, minTradeScore));
    var c := Confidence(MaxNat(CountDir(votes, Long), CountDir(votes, Short)), |votes|);
    (d, c)
  }

  /** A direction needs at least `req` votes and strictly more than the opposite direction. */
  function Verdict(l: nat, s: nat, req: nat): (d: Direction)
    ensures d == Long <==> l >= req && l > s
    ensures d == Short <==> s >= req && s > l
  {
    if l >= req && l > s then Long else if s >= req && s > l then Short else NoneDir
  }

  /** `k / n` as a fraction of the votes cast. */
  function Confidence(k: nat, n: nat): (c: real)
    requires 0 < n && k <= n
    ensures 0.0 <= c <= 1.0
    ensures Mul(c, n as real) == k as real
  {
    k as real / n as real
  }

  /** `ensemble`: the signal of the confluence of the given strategies at the frame's last close. */
  function Ensemble(symbol: string, closes: seq<real>, strats: seq<Strategy>, regime: Regime.Label,
                    btc: BtcState.State, mqs: int, minTradeScore: int): (d: Decision)
    requires |closes| >= 1
    ensures d.signal.symbol == symbol && d.signal.price == closes[|closes| - 1]
    ensures DistinctNames(d.votes)
    ensures forall n :: Lookup(d.votes, n) == LastVerdict(FilterStrategies(strats, regime, btc, mqs), n)
    ensures Blocked(regime, mqs) ==> d.votes == [] && d.signal.direction == NoneDir && d.signal.confidence == 0.0
    ensures |d.votes| == 0 ==> d.signal.direction == NoneDir && d.signal.confidence == 0.0
    ensures |d.votes| > 0 ==> (d.signal.direction, d.signal.confidence) == Tally(d.votes, mqs, minTradeScore)
  {
    var allowed := FilterStrategies(strats, regime, btc, mqs);
    var price := closes[|closes| - 1];
    if |allowed| == 0 then Decision(Signal(symbol, NoneDir, price, 0.0), [])
    else
      var votes := CastVotes(allowed);
      var r := Tally(votes, mqs, minTradeScore);
      Decision(Signal(symbol, r.0, price, r.1), votes)
  }

  /** A vote under a name not cast yet is appended at the end. */
  lemma {:induction false} PutFresh(votes: Votes, name: string, d: Direction)
    requires name !in Names(votes)
    ensures Put(votes, name, d) == votes + [(name, d)]
    decreases |votes|
  {
    if |votes| > 0 {
      PutFresh(votes[1..], name, d);
      assert (votes + [(name, d)])[1..] == votes[1..] + [(name, d)];
    }
  }

  lemma {:induction false} CountDirSnoc(votes: Votes, v: (string, Direction), d: Direction)
    ensures CountDir(votes + [v], d) == CountDir(votes, d) + (if v.1 == d then 1 else 0)
    decreases |votes|
  {
    if |votes| > 0 {
      CountDirSnoc(votes[1..], v, d);
      assert (votes + [v])[1..] == votes[1..] + [v];
    } else {
      assert ([] + [v])[1..] == [];
    }
  }

  /** A fraction `m / t` does not grow when the denominator does. */
  lemma FractionShrinks(c: real, c': real, m: real, t: nat)
    requires 0 < t && 0.0 <= c' && Mul(c, t as real) == m && Mul(c', (t + 1) as real) == m
    ensures c' <= c
  {
    assert (c - c') * t as real == c';
  }

  /** Abstentions count in the total: a strategy answering NONE under a name not voted yet adds
      one vote, never lowers the agreement required, never raises the confidence and never
      turns an undecided tally into a direction. */
  lemma AbstentionLowersConfidence(allowed: seq<Strategy>, name: string, mqs: int, minTradeScore: int)
    requires |allowed| > 0
    requires forall i :: 0 <= i < |allowed| ==> allowed[i].name != name
    ensures var before := CastVotes(allowed);
      var after := CastVotes(allowed + [Strategy(name, NoneDir)]);
      && |after| == |before| + 1
      && Required(|after|, mqs, minTradeScore) >= Required(|before|, mqs, minTradeScore)
      && Tally(after, mqs, minTradeScore).1 <= Tally(before, mqs, minTradeScore).1
      && (Tally(before, mqs, minTradeScore).0 == NoneDir ==> Tally(after, mqs, minTradeScore).0 == NoneDir)
  {
    var before := CastVotes(allowed);
    var all := allowed + [Strategy(name, NoneDir)];
    assert all[..|all| - 1] == allowed;
    assert Lookup(before, name) == LastVerdict(allowed, name) == None;
    PutFresh(before, name, NoneDir);
    var after := CastVotes(all);
    assert after == before + [(name, NoneDir)];
    CountDirSnoc(before, (name, NoneDir), Long);
    CountDirSnoc(before, (name, NoneDir), Short);
    FractionShrinks(Tally(before, mqs, minTradeScore).1, Tally(after, mqs, minTradeScore).1,
                    MaxNat(CountDir(before, Long), CountDir(before, Short)) as real, |before|);
  }

  /** Regime TREND_CLEAN, BTC EXPANDING_UP and quality 80: two LONG votes, with the SHORT
      mean-reversion strategy filtered out, give LONG. */
  lemma VotingExample()
    ensures var strats := [Strategy("trend_ema", Long), Strategy("breakout_donchian", Long),
                           Strategy("mean_reversion_bb", Short)];
      Ensemble("BTC/USDT", [1.0, 1.1, 1.2], strats, Regime.TrendClean, BtcState.ExpandingUp, 80, 70).signal.direction == Long
  {
    var allowed := ExampleAllowed();
    var votes := ExampleVotes(allowed);
    assert CountDir(votes, Long) == 2 && CountDir(votes, Short) == 0;
  }

  /** The mean-reversion strategy is not eligible outside a range regime. */
  lemma ExampleAllowed() returns (allowed: seq<Strategy>)
    ensures var strats := [Strategy("trend_ema", Long), Strategy("breakout_donchian", Long),
                           Strategy("mean_reversion_bb", Short)];
      allowed == FilterStrategies(strats, Regime.TrendClean, BtcState.ExpandingUp, 80)
    ensures allowed == [Strategy("trend_ema", Long), Strategy("breakout_donchian", Long)]
  {
    var strats := [Strategy("trend_ema", Long), Strategy("breakout_donchian", Long),
                   Strategy("mean_reversion_bb", Short)];
    allowed := [Strategy("trend_ema", Long), Strategy("breakout_donchian", Long)];
    assert strats[..2] == allowed && strats[..1] == allowed[..1];
    assert "mean_reversion_bb" != "trend_ema" && "trend_ema" != "breakout_donchian";
  }

  /** Two differently named strategies cast two votes. */
  lemma ExampleVotes(allowed: seq<Strategy>) returns (votes: Votes)
    requires allowed == [Strategy("trend_ema", Long), Strategy("breakout_donchian", Long)]
    ensures votes == CastVotes(allowed) && votes == [("trend_ema", Long), ("breakout_donchian", Long)]
  {
    assert "trend_ema" != "breakout_donchian";
    assert allowed[..1] == [Strategy("trend_ema", Long)];
    votes := [("trend_ema", Long), ("breakout_donchian", Long)];
  }
}

=== FILE: gui_app.dfy ===
/** The string handling of the configuration GUI (`gui/app.py`): the `.env` file as parsed and as
    written back, the key removal before `config.yaml` is written, and the conversions between
    what the forms show and what the settings hold. File access is left to the caller: a file is
    its text, or `None` when it does not exist. */
module GuiApp {
  import opened Common
  import opened Text

  /** A Python `dict[str, str]` in insertion order, as an association list. */
  type Env = seq<(string, string)>

  /** The keys of `e`, in order. */
  function Keys(e: Env): (ks: seq<string>)
    ensures |ks| == |e| && forall i :: 0 <= i < |e| ==> ks[i] == e[i].0
  {
    if |e| == 0 then [] else Keys(e[..|e| - 1]) + [e[|e| - 1].0]
  }

  /** The value stored under `k`, if any. */
  function Lookup(e: Env, k: string): (r: Option<string>)
    ensures r.Some? <==> k in Keys(e)
    ensures r.Some? ==> (k, r.value) in e
  {
    if |e| == 0 then None
    else if e[|e| - 1].0 == k then Some(e[|e| - 1].1)
    else Lookup(e[..|e| - 1], k)
  }

  /** No key occurs twice, as in a dict. */
  predicate DistinctKeys(e: Env) {
    var ks := Keys(e);
    forall i, j :: 0 <= i < j < |ks| ==> ks[i] != ks[j]
  }

  /** `entries[k] = v`: an existing key keeps its place and takes the new value, a new key is
      appended. */
  function Put(e: Env, k: string, v: string): (r: Env)
    ensures k !in Keys(e) ==> r == e + [(k, v)]
    ensures k in Keys(e) ==> Keys(r) == Keys(e)
  {
    if |e| == 0 then [(k, v)]
    else if e[|e| - 1].0 == k then e[..|e| - 1] + [(k, v)]
    else if k in Keys(e[..|e| - 1]) then Put(e[..|e| - 1], k, v) + [e[|e| - 1]]
    else
      assert Keys(e) == Keys(e[..|e| - 1]) + [e[|e| - 1].0];
      e + [(k, v)]
  }

  /** After `entries[k] = v`, `k` holds `v`. */
  lemma {:induction false} PutLookup(e: Env, k: string, v: string)
    ensures Lookup(Put(e, k, v), k) == Some(v)
    decreases |e|
  {
    if |e| > 0 && e[|e| - 1].0 != k && k in Keys(e[..|e| - 1]) {
      var init := e[..|e| - 1];
      PutLookup(init, k, v);
      assert Put(e, k, v)[..|e| - 1] == Put(init, k, v);
    } else if |e| > 0 && e[|e| - 1].0 == k {
      assert Put(e, k, v)[..|e| - 1] == e[..|e| - 1];
    } else if |e| > 0 {
      assert Put(e, k, v)[..|e|] == e;
    }
  }

  /** `entries[k] = v` leaves every other key's value alone. */
  lemma {:induction false} PutLookupOther(e: Env, k: string, v: string, k': string)
    requires k' != k
    ensures Lookup(Put(e, k, v), k') == Lookup(e, k')
    decreases |e|
  {
    if |e| > 0 && e[|e| - 1].0 != k && k in Keys(e[..|e| - 1]) {
      var init := e[..|e| - 1];
      PutLookupOther(init, k, v, k');
      assert Put(e, k, v)[..|e| - 1] == Put(init, k, v);
    } else if |e| > 0 && e[|e| - 1].0 == k {
      assert Put(e, k, v)[..|e| - 1] == e[..|e| - 1];
    } else if |e| > 0 {
      assert Put(e, k, v)[..|e|] == e;
    }
  }

  /** `entries[k] = v` keeps the keys distinct. */
  lemma PutDistinct(e: Env, k: string, v: string)
    requires DistinctKeys(e)
    ensures DistinctKeys(Put(e, k, v))
  {
    if k !in Keys(e) {
      assert Keys(Put(e, k, v)) == Keys(e) + [k];
    }
  }

  /** The entry a `.env` line contributes: none for an empty line, a comment or a line without
      `=`; otherwise the stripped text before the first `=` and the stripped rest. */
  function ParseLine(line: string): (r: Option<(string, string)>)
    ensures r == None <==> line == "" || line[0] == '#' || '=' !in line
    ensures r.Some? ==> IsStripped(r.value.0) && IsStripped(r.value.1) && FreeOf(r.value.0, {'='})
  {
    if line == "" || line[0] == '#' || '=' !in line then None
    else
      var i := IndexOf(line, '=');
      assert FreeOf(line[..i], {'='});
      StripSubset(line[..i]);
      Some((Strip(line[..i]), Strip(line[i + 1..])))
  }

  lemma StripSubset(s: string)
    requires FreeOf(s, {'='})
    ensures FreeOf(Strip(s), {'='})
  {
    var r := Strip(s);
    forall j | 0 <= j < |r|
      ensures r[j] != '='
    {
      assert r[j] in r;
    }
  }

  /** The entries of a sequence of lines, read in order. */
  function ParseLines(lines: seq<string>): (r: Env)
    ensures DistinctKeys(r)
  {
    if |lines| == 0 then []
    else
      var e := ParseLines(lines[..|lines| - 1]);
      match ParseLine(lines[|lines| - 1])
      case None => e
      case Some((k, v)) => PutDistinct(e, k, v); Put(e, k, v)
  }

  /** `_load_env`: a missing file gives no entries; otherwise its lines are read in order and a
      later line overrides an earlier one with the same key. */
  function LoadEnv(file: Option<string>): (r: Env)
    ensures DistinctKeys(r)
    ensures file == None ==> r == []
  {
    match file
    case None => []
    case Some(text) => ParseLines(SplitLines(text))
  }

  /** The lines `_write_env` emits: `key=value` for each entry with a non-empty value. */
  function EnvLines(e: Env): (lines: seq<string>)
    ensures |lines| <= |e|
  {
    if |e| == 0 then []
    else
      var (k, v) := e[|e| - 1];
      EnvLines(e[..|e| - 1]) + (if v != "" then [k + "=" + v] else [])
  }

  /** `_write_env`: the lines joined by newlines, with a final newline. */
  function WriteEnv(e: Env): (text: string)
    ensures |text| > 0 && text[|text| - 1] == '\n'
  {
    Join(EnvLines(e), '\n') + "\n"
  }

  /** The entries `_write_env` keeps: those with a non-empty value. */
  function NonEmpty(e: Env): (r: Env)
    ensures forall i :: 0 <= i < |r| ==> r[i].1 != "" && r[i] in e
  {
    if |e| == 0 then []
    else NonEmpty(e[..|e| - 1]) + (if e[|e| - 1].1 != "" then [e[|e| - 1]] else [])
  }

  /** What a `.env` entry must look like to survive the round trip: keys stripped, without `=`,
      line breaks or a leading `#`; values stripped and without line breaks. */
  predicate Writable(k: string, v: string) {
    && IsStripped(k) && FreeOf(k, {'='}) && (k == "" || k[0] != '#')
    && (forall j :: 0 <= j < |k| ==> !IsLineBreak(k[j]))
    && IsStripped(v) && (forall j :: 0 <= j < |v| ==> !IsLineBreak(v[j]))
  }

  /** A written line reads back as its entry. */
  lemma ParseLineWritten(k: string, v: string)
    requires Writable(k, v)
    ensures ParseLine(k + "=" + v) == Some((k, v))
  {
    var line := k + "=" + v;
    assert line[|k|] == '=';
    assert line[0] != '#' by {
      if k == "" { assert line[0] == '='; } else { assert line[0] == k[0]; }
    }
    IndexOfAt(k, v);
    assert line[..|k|] == k;
    assert line[|k| + 1..] == v;
    StripStripped(k);
    StripStripped(v);
  }

  lemma IndexOfAt(k: string, v: string)
    requires FreeOf(k, {'='})
    ensures IndexOf(k + "=" + v, '=') == |k|
    decreases |k|
  {
    if |k| > 0 {
      assert (k + "=" + v)[1..] == k[1..] + "=" + v;
      IndexOfAt(k[1..], v);
    }
  }

  /** Reading the lines of the written entries gives back the entries with a value. */
  lemma {:induction false} ParseEnvLines(e: Env)
    requires DistinctKeys(e)
    requires forall i :: 0 <= i < |e| ==> Writable(e[i].0, e[i].1)
    ensures ParseLines(EnvLines(e)) == NonEmpty(e)
    decreases |e|
  {
    if |e| > 0 {
      var init := e[..|e| - 1];
      var (k, v) := e[|e| - 1];
      assert Keys(init) == Keys(e)[..|e| - 1];
      ParseEnvLines(init);
      if v != "" {
        assert EnvLines(e) == EnvLines(init) + [k + "=" + v];
        assert EnvLines(e)[..|EnvLines(e)| - 1] == EnvLines(init);
        ParseLineWritten(k, v);
        NonEmptyKeys(init, k);
      } else {
        assert EnvLines(e) == EnvLines(init);
      }
    }
  }

  /** A key absent from the entries is absent from those with a value. */
  lemma NonEmptyKeys(e: Env, k: string)
    requires k !in Keys(e)
    ensures k !in Keys(NonEmpty(e))
  {
  }

  /** A written line has no line break in it. */
  lemma EnvLinesUnbroken(e: Env)
    requires forall i :: 0 <= i < |e| ==> Writable(e[i].0, e[i].1)
    ensures forall m :: 0 <= m < |EnvLines(e)| ==> forall j :: 0 <= j < |EnvLines(e)[m]| ==> !IsLineBreak(EnvLines(e)[m][j])
    decreases |e|
  {
    if |e| > 0 {
      EnvLinesUnbroken(e[..|e| - 1]);
    }
  }

  /** Round trip: loading the text `_write_env` writes gives back every entry with a non-empty
      value, in order, provided keys are distinct and keys and values are writable. */
  lemma LoadWriteEnv(e: Env)
    requires DistinctKeys(e)
    requires forall i :: 0 <= i < |e| ==> Writable(e[i].0, e[i].1)
    ensures LoadEnv(Some(WriteEnv(e))) == NonEmpty(e)
  {
    ReadBack(e);
    ParseEnvLines(e);
  }

  /** The written text reads back as the written lines. */
  lemma ReadBack(e: Env)
    requires forall i :: 0 <= i < |e| ==> Writable(e[i].0, e[i].1)
    ensures ParseLines(SplitLines(WriteEnv(e))) == ParseLines(EnvLines(e))
  {
    if |EnvLines(e)| == 0 {
      EmptyEnvFile();
    } else {
      EnvLinesUnbroken(e);
      SplitLinesJoin(EnvLines(e));
    }
  }

  /** A file holding a single newline has no entries. */
  lemma EmptyEnvFile()
    ensures ParseLines(SplitLines(Join([], '\n') + "\n")) == []
  {
    assert Join([], '\n') + "\n" == "\n";
    assert SplitLines("\n") == [""];
    assert ParseLines([""]) == ParseLines([]);
  }

  /** Skipped lines: a comment, an empty line or a line without `=` leaves the entries as they are. */
  lemma SkippedLine(lines: seq<string>, line: string)
    requires line == "" || line[0] == '#' || '=' !in line
    ensures ParseLines(lines + [line]) == ParseLines(lines)
  {
    assert (lines + [line])[..|lines|] == lines;
  }

  /** Last one wins: after a line with an entry, that entry's key holds that line's value and
      every other key keeps its value. */
  lemma LaterLineOverrides(lines: seq<string>, line: string)
    requires ParseLine(line).Some?
    ensures var (k, v) := ParseLine(line).value;
      Lookup(ParseLines(lines + [line]), k) == Some(v)
      && forall k' :: k' != k ==> Lookup(ParseLines(lines + [line]), k') == Lookup(ParseLines(lines), k')
  {
    assert (lines + [line])[..|lines|] == lines;
    var (k, v) := ParseLine(line).value;
    PutLookup(ParseLines(lines), k, v);
    forall k' | k' != k
      ensures Lookup(ParseLines(lines + [line]), k') == Lookup(ParseLines(lines), k')
    {
      PutLookupOther(ParseLines(lines), k, v, k');
    }
  }

  /** `_settings_to_config`: the settings dump without the two API credentials. */
  function SettingsToConfig<V>(payload: map<string, V>): (r: map<string, V>)
    ensures "binance_api_key" !in r && "binance_api_secret" !in r
    ensures forall k :: k in r <==> k in payload && k != "binance_api_key" && k != "binance_api_secret"
    ensures forall k :: k in r ==> r[k] == payload[k]
  {
    payload - {"binance_api_key", "binance_api_secret"}
  }

  /** A percentage field is shown multiplied by 100 ... */
  function ShowPercent(fraction: real): (shown: real)
    ensures shown / 100.0 == fraction
  {
    fraction * 100.0
  }

  /** ... and saved divided by 100. */
  function SavePercent(shown: real): (fraction: real)
    ensures fraction * 100.0 == shown
  {
    shown / 100.0
  }

  /** An unedited percentage field saves the value it was loaded with, and a saved entry is shown
      as it was typed. */
  lemma PercentRoundTrip(fraction: real, shown: real)
    ensures SavePercent(ShowPercent(fraction)) == fraction
    ensures ShowPercent(SavePercent(shown)) == shown
  {
  }

  /** The manual override is shown as its symbols joined by commas ... */
  function ShowOverride(symbols: seq<string>): string {
    Join(symbols, ',')
  }

  /** ... and saved as the stripped non-empty items, an empty list included. */
  function SaveOverride(text: string): (symbols: seq<string>)
    ensures forall i :: 0 <= i < |symbols| ==> IsStripped(symbols[i]) && symbols[i] != "" && FreeOf(symbols[i], {','})
  {
    CsvItems(text)
  }

  /** An unedited override field saves the list it was loaded with, when its symbols are clean. */
  lemma OverrideRoundTrip(symbols: seq<string>)
    requires forall i :: 0 <= i < |symbols| ==> IsStripped(symbols[i]) && symbols[i] != "" && FreeOf(symbols[i], {','})
    ensures SaveOverride(ShowOverride(symbols)) == symbols
  {
    CsvRoundTrip(symbols);
  }

  /** The live form's symbols: the same items, but no item at all means "no list" (`or None`). */
  function LiveSymbols(text: string): (r: Option<seq<string>>)
    ensures r == None <==> SaveOverride(text) == []
    ensures r.Some? ==> r.value == SaveOverride(text)
  {
    var items := CsvItems(text);
    if items == [] then None else Some(items)
  }
}

=== FILE: indicators.dfy ===
/** The indicators computed in-house (`strategy/indicators.py`): the exponential moving
    average with pandas' `adjust=False` recurrence, the Donchian channel (rolling max of highs,
    rolling min of lows) and the Bollinger band width. RSI, ATR, ADX and the Bollinger bands
    themselves come from the `ta` library and are inputs elsewhere in the model. */
module Indicators {
  import opened Common

  /** Smoothing factor of `ewm(span=period)`: 2 / (period + 1). */
  function Alpha(period: int): (a: real)
    requires period >= 1
    ensures 0.0 < a <= 1.0
  {
    2.0 / (period as real + 1.0)
  }

  /** The `adjust=False` EMA series of `xs`, built one row at a time. */
  function EmaSeq(xs: seq<real>, alpha: real): (r: seq<real>)
    ensures |r| == |xs|
  {
    if |xs| == 0 then []
    else
      var p := EmaSeq(xs[..|xs| - 1], alpha);
      p + [EmaNext(p, xs[|xs| - 1], alpha)]
  }

  /** The next EMA value after the values `p`: the input itself at the first row, otherwise
      the blend of the input and the previous value. */
  function EmaNext(p: seq<real>, x: real, alpha: real): real {
    if |p| == 0 then x else Blend(alpha, x, p[|p| - 1])
  }

  /** `alpha * x + (1 - alpha) * previous`. */
  function Blend(alpha: real, x: real, prev: real): real {
    alpha * x + (1.0 - alpha) * prev
  }

  /** `series.ewm(span=period, adjust=False).mean()` */
  function Ema(xs: seq<real>, period: int): (r: seq<real>)
    requires period >= 1
    ensures |r| == |xs|
  {
    EmaSeq(xs, Alpha(period))
  }

  /** The recurrence the EMA series satisfies: it starts at the first input and every later
      value blends the new input with the value before it. */
  lemma {:induction false} EmaRecurrence(xs: seq<real>, alpha: real)
    ensures |xs| > 0 ==> EmaSeq(xs, alpha)[0] == xs[0]
    ensures forall t :: 1 <= t < |xs| ==> EmaSeq(xs, alpha)[t] == Blend(alpha, xs[t], EmaSeq(xs, alpha)[t - 1])
    decreases |xs|
  {
    if |xs| > 0 {
      var init := xs[..|xs| - 1];
      EmaRecurrence(init, alpha);
      var p := EmaSeq(init, alpha);
      var e := EmaSeq(xs, alpha);
      assert e == p + [EmaNext(p, xs[|xs| - 1], alpha)];
      forall t | 1 <= t < |xs|
        ensures e[t] == Blend(alpha, xs[t], e[t - 1])
      {
        if t < |xs| - 1 {
          assert e[t] == p[t] && e[t - 1] == p[t - 1] && init[t] == xs[t];
        }
      }
    }
  }

  /** The EMA computed by a single pass over the series: the first value is the first input,
      and each later value blends the new input with the previous value. */
  method EmaPass(xs: seq<real>, period: int) returns (out: seq<real>)
    requires period >= 1
    ensures |out| == |xs|
    ensures |xs| > 0 ==> out[0] == xs[0]
    ensures forall t :: 1 <= t < |xs| ==> out[t] == Blend(Alpha(period), xs[t], out[t - 1])
    ensures out == Ema(xs, period)
  {
    var alpha := Alpha(period);
    out := [];
    var i := 0;
    while i < |xs|
      invariant 0 <= i <= |xs|
      invariant out == EmaSeq(xs[..i], alpha)
    {
      assert xs[..i + 1][..i] == xs[..i];
      out := out + [EmaNext(out, xs[i], alpha)];
      i := i + 1;
    }
    assert xs[..|xs|] == xs;
    EmaRecurrence(xs, alpha);
  }

  /** EMA values depend only on the rows up to them: the EMA of a prefix is a prefix of the EMA. */
  lemma {:induction false} EmaPrefix(xs: seq<real>, alpha: real, k: nat)
    requires k <= |xs|
    ensures EmaSeq(xs[..k], alpha) == EmaSeq(xs, alpha)[..k]
    decreases |xs|
  {
    if k < |xs| {
      var init := xs[..|xs| - 1];
      EmaPrefix(init, alpha, k);
      assert init[..k] == xs[..k];
    } else {
      assert xs[..k] == xs;
    }
  }

  /** Each EMA value lies within any bounds that hold for every input seen so far. */
  lemma {:induction false} EmaWithinRange(xs: seq<real>, alpha: real, t: int, lo: real, hi: real)
    requires 0.0 <= alpha <= 1.0
    requires 0 <= t < |xs|
    requires forall j :: 0 <= j <= t ==> lo <= xs[j] <= hi
    ensures lo <= EmaSeq(xs, alpha)[t] <= hi
    decreases |xs|
  {
    if t < |xs| - 1 {
      var init := xs[..|xs| - 1];
      EmaWithinRange(init, alpha, t, lo, hi);
    } else if t > 0 {
      var init := xs[..|xs| - 1];
      EmaWithinRange(init, alpha, t - 1, lo, hi);
      var prev := EmaSeq(init, alpha)[t - 1];
      ConvexBetween(alpha, xs[t], prev, lo, hi);
    }
  }

  lemma ConvexBetween(alpha: real, x: real, y: real, lo: real, hi: real)
    requires 0.0 <= alpha <= 1.0
    requires lo <= x <= hi && lo <= y <= hi
    ensures lo <= Blend(alpha, x, y) <= hi
  {
    ConvexGap(alpha, x, y, lo, hi);
    MulNonNeg(alpha, hi - x);
    MulNonNeg(1.0 - alpha, hi - y);
    MulNonNeg(alpha, x - lo);
    MulNonNeg(1.0 - alpha, y - lo);
  }

  /** How far a blend sits above a lower bound and below an upper bound. */
  lemma ConvexGap(alpha: real, x: real, y: real, lo: real, hi: real)
    ensures Blend(alpha, x, y) - lo == Mul(alpha, x - lo) + Mul(1.0 - alpha, y - lo)
    ensures hi - Blend(alpha, x, y) == Mul(alpha, hi - x) + Mul(1.0 - alpha, hi - y)
  {
  }

  /** Each row is at least the row before it. */
  predicate NonDecreasing(xs: seq<real>) {
    forall i :: 0 < i < |xs| ==> xs[i - 1] <= xs[i]
  }

  /** On a non-decreasing series a faster EMA (larger alpha) is never behind a slower one and
      neither is above the latest input; a strict rise at the last row puts the faster one strictly ahead. */
  lemma {:induction false} FasterEmaLeads(xs: seq<real>, a: real, b: real)
    requires 0.0 < b < a <= 1.0
    requires |xs| >= 1 && NonDecreasing(xs)
    ensures EmaSeq(xs, a)[|xs| - 1] >= EmaSeq(xs, b)[|xs| - 1]
    ensures EmaSeq(xs, b)[|xs| - 1] <= xs[|xs| - 1]
    ensures |xs| >= 2 && xs[|xs| - 2] < xs[|xs| - 1] ==> EmaSeq(xs, a)[|xs| - 1] > EmaSeq(xs, b)[|xs| - 1]
    decreases |xs|
  {
    if |xs| >= 2 {
      var n := |xs|;
      var init := xs[..n - 1];
      assert NonDecreasing(init);
      FasterEmaLeads(init, a, b);
      var pa, pb := EmaSeq(init, a), EmaSeq(init, b);
      var x, prev := xs[n - 1], xs[n - 2];
      assert init[n - 2] == prev;
      assert EmaSeq(xs, a)[n - 1] == Blend(a, x, pa[n - 2]);
      assert EmaSeq(xs, b)[n - 1] == Blend(b, x, pb[n - 2]);
      LeadStep(a, b, prev, x, pa[n - 2], pb[n - 2]);
    }
  }

  /** One EMA step of a faster and a slower average on a non-decreasing input. */
  lemma LeadStep(a: real, b: real, prev: real, x: real, ea: real, eb: real)
    requires 0.0 < b < a <= 1.0
    requires eb <= prev <= x && eb <= ea
    ensures Blend(a, x, ea) >= Blend(b, x, eb)
    ensures Blend(b, x, eb) <= x
    ensures prev < x ==> Blend(a, x, ea) > Blend(b, x, eb)
  {
    LeadGap(a, b, x, ea, eb);
    MulNonNeg(a - b, x - eb);
    MulNonNeg(1.0 - a, ea - eb);
    ConvexBetween(b, x, eb, eb, x);
    if prev < x {
      MulPos(a - b, x - eb);
    }
  }

  /** The lead of the faster average over the slower one after a step, split into the part the
      new input contributes and the part carried over. */
  lemma LeadGap(a: real, b: real, x: real, ea: real, eb: real)
    ensures Blend(a, x, ea) - Blend(b, x, eb) == Mul(a - b, x - eb) + Mul(1.0 - a, ea - eb)
  {
  }

  lemma MulNonNeg(x: real, y: real)
    requires x >= 0.0 && y >= 0.0
    ensures Mul(x, y) >= 0.0
  {
  }

  lemma MulPos(x: real, y: real)
    requires x > 0.0 && y > 0.0
    ensures Mul(x, y) > 0.0
  {
  }

  /** On a series that rises at its last step (and never falls), EMA(9) ends above EMA(21). */
  lemma Ema9AboveEma21(xs: seq<real>)
    requires |xs| >= 2 && NonDecreasing(xs) && xs[|xs| - 2] < xs[|xs| - 1]
    ensures Ema(xs, 9)[|xs| - 1] > Ema(xs, 21)[|xs| - 1]
  {
    FasterEmaLeads(xs, Alpha(9), Alpha(21));
  }

  /** With alpha below 1, the EMA of a series that never falls and rises at its last row ends
      strictly below the last input. */
  lemma EmaBelowRisingClose(xs: seq<real>, b: real)
    requires 0.0 < b < 1.0
    requires |xs| >= 2 && NonDecreasing(xs) && xs[|xs| - 2] < xs[|xs| - 1]
    ensures EmaSeq(xs, b)[|xs| - 1] < xs[|xs| - 1]
  {
    FasterEmaLeads(xs, 1.0, b);
    var p := EmaSeq(xs[..|xs| - 1], 1.0);
    assert EmaSeq(xs, 1.0) == p + [EmaNext(p, xs[|xs| - 1], 1.0)];
  }

  function SeqMax(s: seq<real>): (m: real)
    requires |s| > 0
    ensures forall i :: 0 <= i < |s| ==> s[i] <= m
    ensures exists i :: 0 <= i < |s| && s[i] == m
  {
    if |s| == 1 then s[0]
    else
      var m := SeqMax(s[..|s| - 1]);
      if s[|s| - 1] > m then s[|s| - 1] else m
  }

  function SeqMin(s: seq<real>): (m: real)
    requires |s| > 0
    ensures forall i :: 0 <= i < |s| ==> m <= s[i]
    ensures exists i :: 0 <= i < |s| && s[i] == m
  {
    if |s| == 1 then s[0]
    else
      var m := SeqMin(s[..|s| - 1]);
      if s[|s| - 1] < m then s[|s| - 1] else m
  }

  function Highs(c: seq<Candle>): (r: seq<real>)
    ensures |r| == |c| && forall i :: 0 <= i < |c| ==> r[i] == c[i].high
  {
    seq(|c|, i requires 0 <= i < |c| => c[i].high)
  }

  function Lows(c: seq<Candle>): (r: seq<real>)
    ensures |r| == |c| && forall i :: 0 <= i < |c| ==> r[i] == c[i].low
  {
    seq(|c|, i requires 0 <= i < |c| => c[i].low)
  }

  function Closes(c: seq<Candle>): (r: seq<real>)
    ensures |r| == |c| && forall i :: 0 <= i < |c| ==> r[i] == c[i].close
  {
    seq(|c|, i requires 0 <= i < |c| => c[i].close)
  }

  datatype Channel = Channel(high: real, low: real)

  /** Row `i` of `donchian(df, period)`: the highest high and lowest low over the `period` rows
      ending at row `i` (inclusive), undefined (NaN) while fewer than `period` rows exist. */
  function DonchianAt(candles: seq<Candle>, period: int, i: int): (ch: Option<Channel>)
    requires period >= 1 && 0 <= i < |candles|
    ensures ch.None? <==> i < period - 1
    ensures ch.Some? ==> forall j :: i - period < j <= i ==> ch.value.low <= candles[j].low && candles[j].high <= ch.value.high
    ensures ch.Some? ==> exists j :: i - period < j <= i && candles[j].high == ch.value.high
    ensures ch.Some? ==> exists j :: i - period < j <= i && candles[j].low == ch.value.low
  {
    if i < period - 1 then None
    else
      var w := candles[i - period + 1..i + 1];
      var hi := SeqMax(Highs(w));
      var lo := SeqMin(Lows(w));
      assert forall j :: i - period < j <= i ==> candles[j] == w[j - (i - period + 1)];
      Some(Channel(hi, lo))
  }

  /** The whole Donchian frame, one optional channel per row. */
  function Donchian(candles: seq<Candle>, period: int): (r: seq<Option<Channel>>)
    requires period >= 1
    ensures |r| == |candles|
    ensures forall i :: 0 <= i < |candles| ==> r[i] == DonchianAt(candles, period, i)
  {
    seq(|candles|, i requires 0 <= i < |candles| => DonchianAt(candles, period, i))
  }

  /** The window includes the current row, so the channel always spans that row's own high and low;
      and when every candle has high >= low, the channel's high is at least its low. */
  lemma DonchianSpansCurrent(candles: seq<Candle>, period: int, i: int)
    requires period >= 1 && period - 1 <= i < |candles|
    ensures DonchianAt(candles, period, i).Some?
    ensures DonchianAt(candles, period, i).value.high >= candles[i].high
    ensures DonchianAt(candles, period, i).value.low <= candles[i].low
    ensures (forall j :: 0 <= j < |candles| ==> candles[j].low <= candles[j].high) ==>
              DonchianAt(candles, period, i).value.low <= DonchianAt(candles, period, i).value.high
  {
  }

  /** Relative change of the 50-period EMA over its last four steps, `(e[-1] - e[-5]) / e[-5]`:
      the slope both the regime and the BTC state rules use. */
  function EmaSlope(closes: seq<real>): (s: real)
    requires |closes| >= 5
    requires Ema(closes, 50)[|closes| - 5] != 0.0
    ensures var e := Ema(closes, 50);
      s * e[|closes| - 5] == e[|closes| - 1] - e[|closes| - 5]
    ensures var e := Ema(closes, 50);
      e[|closes| - 5] > 0.0 ==> (s > 0.0 <==> e[|closes| - 1] > e[|closes| - 5])
  {
    var e := Ema(closes, 50);
    (e[|closes| - 1] - e[|closes| - 5]) / e[|closes| - 5]
  }

  /** ATR as a fraction of the latest close: `atr / close`. */
  function AtrPct(atr: real, close: real): (p: real)
    requires close != 0.0
    ensures p * close == atr
    ensures close > 0.0 ==> (p >= 0.0 <==> atr >= 0.0)
  {
    atr / close
  }

  /** `(upper - lower) / middle` of the Bollinger bands. */
  function BbWidth(upper: real, lower: real, middle: real): (w: real)
    requires middle != 0.0
    ensures w * middle == upper - lower
    ensures middle > 0.0 ==> (w >= 0.0 <==> upper >= lower)
  {
    (upper - lower) / middle
  }
}

=== FILE: mean_reversion_bb.dfy ===
/** Bollinger mean-reversion strategy (`strategy/mean_reversion_bb.py`): a close crossing back
    inside a band. The bands are foreign indicator values and are inputs. */
module MeanReversionBb {
  import opened StrategyBase

  /** The previous close was below the lower band and the latest close is back above it. */
  predicate ReentersFromBelow(prev: real, close: real, lower: real) {
    prev < lower && close > lower
  }

  /** The previous close was above the upper band and the latest close is back below it. */
  predicate ReentersFromAbove(prev: real, close: real, upper: real) {
    prev > upper && close < upper
  }

  /** `MeanReversionBBStrategy.generate` with the latest `lower` and `upper` bands. */
  function Generate(symbol: string, closes: seq<real>, lower: real, upper: real): (sig: Signal)
    requires |closes| >= 2
    ensures var prev, close := closes[|closes| - 2], closes[|closes| - 1];
      && sig.symbol == symbol && sig.price == close
      && (sig.direction == Long <==> ReentersFromBelow(prev, close, lower))
      && (sig.direction == Short <==> !ReentersFromBelow(prev, close, lower) && ReentersFromAbove(prev, close, upper))
      && sig.confidence == if sig.direction == NoneDir then 0.0 else 1.0
  {
    var prev, close := closes[|closes| - 2], closes[|closes| - 1];
    Decide(symbol, close, ReentersFromBelow(prev, close, lower), ReentersFromAbove(prev, close, upper))
  }

  /** With the lower band not above the upper band the two re-entries exclude each other. */
  lemma ReentriesExclusive(prev: real, close: real, lower: real, upper: real)
    requires lower <= upper
    ensures !(ReentersFromBelow(prev, close, lower) && ReentersFromAbove(prev, close, upper))
  {
  }

  /** The comparisons are strict: a latest close exactly on the lower band is never LONG, and one
      exactly on the upper band is never SHORT (a close on the lower band can still be SHORT when it
      came down from above the upper band). */
  lemma CloseOnBandDoesNotTrigger(symbol: string, closes: seq<real>, lower: real, upper: real)
    requires |closes| >= 2
    ensures closes[|closes| - 1] == lower ==> Generate(symbol, closes, lower, upper).direction != Long
    ensures closes[|closes| - 1] == upper ==> Generate(symbol, closes, lower, upper).direction != Short
  {
  }
}

=== FILE: metrics.dfy ===
/** Basic performance metrics (`observability/metrics.py`), without the Sharpe ratio. */
module Metrics {
  import opened Common
  import opened Stats
  import Scoring

  datatype PerformanceMetrics = PerformanceMetrics(winrate: real, expectancy: real, maxDrawdown: real)

  /** Winrate is the share of wins among all PnLs, expectancy the mean PnL, and the drawdown the
      deepest fall of the cumulative PnL below its running peak; an empty list gives all zeros. */
  function ComputeMetrics(pnls: seq<real>): (r: PerformanceMetrics)
    ensures |pnls| == 0 ==> r == PerformanceMetrics(0.0, 0.0, 0.0)
    ensures 0.0 <= r.winrate <= 1.0
    ensures r.maxDrawdown <= 0.0
  {
    if |pnls| == 0 then PerformanceMetrics(0.0, 0.0, 0.0)
    else
      DrawdownNonPositive(pnls);
      PerformanceMetrics(WinShare(pnls), MeanOf(pnls), Drawdown(pnls))
  }

  /** Over a non-empty list the winrate scales back to the number of wins and the expectancy to
      the total PnL. */
  lemma MetricsRates(pnls: seq<real>)
    requires |pnls| > 0
    ensures Mul(ComputeMetrics(pnls).winrate, |pnls| as real) == |Wins(pnls)| as real
    ensures Mul(ComputeMetrics(pnls).expectancy, |pnls| as real) == Sum(pnls)
  {
    WinsLossesSizes(pnls);
    var r := ComputeMetrics(pnls);
    assert r == PerformanceMetrics(WinShare(pnls), MeanOf(pnls), Drawdown(pnls));
  }

  /** The reported drawdown is the deepest fall of the cumulative PnL below its running peak:
      no trade's fall is deeper, and some trade's fall is exactly that deep. */
  lemma MetricsDrawdown(pnls: seq<real>)
    requires |pnls| > 0
    ensures forall i :: 0 <= i < |pnls| ==> ComputeMetrics(pnls).maxDrawdown <= Cum(pnls, i) - Peak(pnls, i)
    ensures exists i :: 0 <= i < |pnls| && ComputeMetrics(pnls).maxDrawdown == Cum(pnls, i) - Peak(pnls, i)
  {
    DrawdownIsMin(pnls);
  }

  /** The metrics report and the strategy scorer agree on winrate, expectancy and drawdown. */
  lemma MetricsAgreeWithScoring(pnls: seq<real>)
    ensures ComputeMetrics(pnls).winrate == Scoring.ComputePerformance(pnls).winrate
    ensures ComputeMetrics(pnls).expectancy == Scoring.ComputePerformance(pnls).expectancy
    ensures ComputeMetrics(pnls).maxDrawdown == Scoring.ComputePerformance(pnls).maxDrawdown
  {
    WinsLossesSizes(pnls);
  }
}

=== FILE: paper.dfy ===
/** Paper execution (`execution/paper.py`): one candle decides whether a simulated trade hits its
    stop, its take-profit, both or neither. */
module Paper {
  import opened Common
  import opened StrategyBase

  datatype Status = Open | StopHit | TakeHit

  /** `PaperTradeResult`; the always-empty `meta` dict is not carried. */
  datatype PaperTradeResult = PaperTradeResult(status: Status, exitPrice: Option<real>, pnlPct: Option<real>, fees: real)

  /** A LONG is stopped by a low at or below the stop; every other direction by a high at or above it. */
  predicate HitsStop(dir: Direction, stop: real, high: real, low: real) {
    if dir == Long then low <= stop else high >= stop
  }

  /** A LONG takes profit on a high at or above the take; every other direction on a low at or below it. */
  predicate HitsTake(dir: Direction, take: real, high: real, low: real) {
    if dir == Long then high >= take else low <= take
  }

  /** The return of a fill at `exit`, measured from `entry`; only SHORT flips its sign. */
  function PnlPct(dir: Direction, entry: real, exit: real): (p: real)
    requires entry != 0.0
    ensures p * entry == (if dir == Short then entry - exit else exit - entry)
  {
    var raw := (exit - entry) / entry;
    if dir == Short then -raw else raw
  }

  /** `simulate_trade`. */
  function SimulateTrade(dir: Direction, entry: real, stop: real, take: real, high: real, low: real,
                         feeRate: real, worstCase: bool): (r: PaperTradeResult)
    requires entry != 0.0
    ensures r.fees == 2.0 * feeRate
    ensures r.status == Open <==> !HitsStop(dir, stop, high, low) && !HitsTake(dir, take, high, low)
    ensures r.status == StopHit <==> HitsStop(dir, stop, high, low) && (worstCase || !HitsTake(dir, take, high, low))
    ensures r.status == TakeHit <==> HitsTake(dir, take, high, low) && (!worstCase || !HitsStop(dir, stop, high, low))
    ensures r.status == Open <==> r.exitPrice == None
    ensures r.exitPrice == None <==> r.pnlPct == None
    ensures r.status == StopHit ==> r.exitPrice == Some(stop)
    ensures r.status == TakeHit ==> r.exitPrice == Some(take)
    ensures r.exitPrice.Some? ==>
      r.pnlPct.Some? && r.pnlPct.value * entry == (if dir == Short then entry - r.exitPrice.value else r.exitPrice.value - entry)
  {
    var hitStop := HitsStop(dir, stop, high, low);
    var hitTake := HitsTake(dir, take, high, low);
    var (status, exit) :=
      if hitStop && hitTake then
        (if worstCase then (StopHit, Some(stop)) else (TakeHit, Some(take)))
      else if hitStop then (StopHit, Some(stop))
      else if hitTake then (TakeHit, Some(take))
      else (Open, None);
    var pnl := if exit.Some? then Some(PnlPct(dir, entry, exit.value)) else None;
    PaperTradeResult(status, exit, pnl, feeRate * 2.0)
  }

  /** With a positive entry bracketed by its levels (stop below and take above for LONG, the
      other way round for SHORT), a stop fill loses and a take fill wins. */
  lemma StopLosesTakeWins(dir: Direction, entry: real, stop: real, take: real, high: real, low: real,
                          feeRate: real, worstCase: bool)
    requires dir != NoneDir && entry > 0.0
    requires if dir == Long then stop < entry < take else take < entry < stop
    ensures var r := SimulateTrade(dir, entry, stop, take, high, low, feeRate, worstCase);
      (r.status == StopHit ==> r.pnlPct.value < 0.0) && (r.status == TakeHit ==> r.pnlPct.value > 0.0)
  {
    var r := SimulateTrade(dir, entry, stop, take, high, low, feeRate, worstCase);
    if r.status == StopHit {
      SignOfFactor(r.pnlPct.value, entry);
    } else if r.status == TakeHit {
      SignOfFactor(r.pnlPct.value, entry);
    }
  }

  /** Dividing by a positive entry keeps the sign of a price difference. */
  lemma SignOfFactor(p: real, e: real)
    requires e > 0.0
    ensures p * e < 0.0 ==> p < 0.0
    ensures p * e > 0.0 ==> p > 0.0
  {
  }

  /** The two scenarios of the paper-execution tests: a LONG whose candle spans both levels is
      stopped under the worst-case rule, and a SHORT whose candle reaches only the take takes profit. */
  lemma PaperExamples()
    ensures SimulateTrade(Long, 100.0, 95.0, 105.0, 106.0, 94.0, 0.0004, true).status == StopHit
    ensures SimulateTrade(Short, 100.0, 105.0, 95.0, 103.0, 94.0, 0.0004, true).status == TakeHit
  {
  }
}

=== FILE: precision.dfy ===
/** Exchange precision (`exchange/precision.py`): prices and quantities are rounded down to the
    symbol's tick and step sizes, and orders below the minimum quantity or notional are refused. */
module Precision {
  import opened Common

  datatype SymbolPrecision = SymbolPrecision(tickSize: real, stepSize: real, minQty: real, minNotional: real)

  /** The `k`-th point of the grid spanned by `step`. */
  function Multiple(k: int, step: real): real {
    Mul(k as real, step)
  }

  /** `v` is a whole number of `step`s. */
  ghost predicate OnGrid(v: real, step: real) {
    exists k: int :: v == Multiple(k, step)
  }

  /** `_round_step`: `floor(value / step) * step`, and the value itself for a zero step. The
      result is the grid point at or below the value for a positive step, and at or above it
      for a negative one. */
  function RoundStep(value: real, step: real): (r: real)
    ensures step == 0.0 ==> r == value
    ensures step > 0.0 ==> r <= value < r + step
    ensures step < 0.0 ==> r + step < value <= r
  {
    if step == 0.0 then value
    else
      FloorBracket(value, step);
      Mul((value / step).Floor as real, step)
  }

  /** `floor(value / step) * step` lies within one step of `value`. */
  lemma FloorBracket(value: real, step: real)
    requires step != 0.0
    ensures step > 0.0 ==> Mul((value / step).Floor as real, step) <= value < Mul((value / step).Floor as real, step) + step
    ensures step < 0.0 ==> Mul((value / step).Floor as real, step) + step < value <= Mul((value / step).Floor as real, step)
  {
    var q := value / step;
    var f := q.Floor as real;
    DivMul(value, step);
    if step > 0.0 {
      MulMono(f, q, step);
      MulStrict(q, f + 1.0, step);
      AddOne(f, step);
    } else {
      MulMono(f, q, -step);
      MulStrict(q, f + 1.0, -step);
      AddOne(f, -step);
      NegRight(f, step);
      NegRight(q, step);
      NegRight(f + 1.0, step);
    }
  }

  lemma AddOne(a: real, c: real)
    ensures Mul(a + 1.0, c) == Mul(a, c) + c
  {
  }

  lemma DivMul(a: real, b: real)
    requires b != 0.0
    ensures Mul(a / b, b) == a
  {
  }

  lemma NegRight(a: real, c: real)
    ensures Mul(a, -c) == -Mul(a, c)
  {
  }

  lemma MulMono(a: real, b: real, c: real)
    requires a <= b && c > 0.0
    ensures Mul(a, c) <= Mul(b, c)
  {
  }

  lemma MulStrict(a: real, b: real, c: real)
    requires a < b && c > 0.0
    ensures Mul(a, c) < Mul(b, c)
  {
  }

  /** A non-zero step puts the result on the grid of its multiples. */
  lemma RoundStepOnGrid(value: real, step: real)
    requires step != 0.0
    ensures OnGrid(RoundStep(value, step), step)
  {
    var k := (value / step).Floor;
    assert RoundStep(value, step) == Multiple(k, step);
  }

  /** A value already on the grid is left where it is. */
  lemma RoundStepKeepsGrid(k: int, step: real)
    ensures RoundStep(Mul(k as real, step), step) == Mul(k as real, step)
  {
    if step != 0.0 {
      var v := Mul(k as real, step);
      var d := v / step;
      DivMul(v, step);
      assert Mul(d, step) == Mul(k as real, step);
      assert (d - k as real) * step == 0.0;
      assert d == k as real;
      assert (k as real).Floor == k;
    }
  }

  /** Rounding twice is rounding once, whatever the sign of the step. */
  lemma RoundStepIdempotent(value: real, step: real)
    ensures RoundStep(RoundStep(value, step), step) == RoundStep(value, step)
  {
    if step != 0.0 {
      var k := (value / step).Floor;
      assert RoundStep(value, step) == Mul(k as real, step);
      RoundStepKeepsGrid(k, step);
    }
  }

  /** `normalize_price`: rounding to the tick size. */
  function NormalizePrice(price: real, p: SymbolPrecision): (r: real)
    ensures p.tickSize > 0.0 ==> r <= price < r + p.tickSize
    ensures p.tickSize == 0.0 ==> r == price
  {
    RoundStep(price, p.tickSize)
  }

  /** `normalize_qty`: rounding to the step size. */
  function NormalizeQty(qty: real, p: SymbolPrecision): (r: real)
    ensures p.stepSize > 0.0 ==> r <= qty < r + p.stepSize
    ensures p.stepSize == 0.0 ==> r == qty
  {
    RoundStep(qty, p.stepSize)
  }

  /** Normalising a normalised price or quantity changes nothing. */
  lemma NormalizeIdempotent(price: real, qty: real, p: SymbolPrecision)
    ensures NormalizePrice(NormalizePrice(price, p), p) == NormalizePrice(price, p)
    ensures NormalizeQty(NormalizeQty(qty, p), p) == NormalizeQty(qty, p)
  {
    RoundStepIdempotent(price, p.tickSize);
    RoundStepIdempotent(qty, p.stepSize);
  }

  /** The error strings `"min_qty"` and `"min_notional"`. */
  datatype Violation = MinQty | MinNotional

  /** `validate_order`: the violated minimums, quantity first. */
  function ValidateOrder(price: real, qty: real, p: SymbolPrecision): (errors: seq<Violation>)
    ensures MinQty in errors <==> qty < p.minQty
    ensures MinNotional in errors <==> price * qty < p.minNotional
    ensures |errors| == 0 <==> qty >= p.minQty && price * qty >= p.minNotional
    ensures |errors| <= 2 && (|errors| == 2 ==> errors == [MinQty, MinNotional])
  {
    (if qty < p.minQty then [MinQty] else []) + (if price * qty < p.minNotional then [MinNotional] else [])
  }
}

=== FILE: quality.dfy ===
/** Market quality score (`market/quality.py`): 100 minus penalties plus bonuses, clamped to
    [0, 100]. ATR and ADX are inputs; the wick ratio is computed from the candles. */
module Quality {
  import opened Common
  import Stats

  datatype QualitySettings = QualitySettings(
    minTradeScore: int, reducedRiskScore: int,
    spreadPenalty: int, atrLowPenalty: int, adxLowPenalty: int, wickPenalty: int,
    liquidityBonus: int, directionBonus: int)

  /** The configured defaults. */
  const Defaults := QualitySettings(70, 50, 20, 15, 10, 10, 15, 10)

  /** Wick length relative to body length of one candle; a zero body counts as 1. */
  function WickToBody(c: Candle): real {
    var body := Abs(c.close - c.open);
    var wicks := (c.high - Max(c.close, c.open)) + (Min(c.close, c.open) - c.low);
    wicks / (if body == 0.0 then 1.0 else body)
  }

  function SumWicks(cs: seq<Candle>): real {
    if |cs| == 0 then 0.0 else SumWicks(cs[..|cs| - 1]) + WickToBody(cs[|cs| - 1])
  }

  /** The last (at most) 20 candles. */
  function Tail20(cs: seq<Candle>): (t: seq<Candle>)
    ensures |t| == if |cs| < 20 then |cs| else 20
    ensures t == cs[|cs| - |t|..]
  {
    if |cs| <= 20 then cs else cs[|cs| - 20..]
  }

  /** Mean wick-to-body ratio over the last 20 candles; NaN (`None`) for an empty frame. */
  function WickRatio(cs: seq<Candle>): (w: Option<real>)
    ensures w.None? <==> |cs| == 0
    ensures w.Some? ==> w.value * |Tail20(cs)| as real == SumWicks(Tail20(cs))
  {
    var t := Tail20(cs);
    if |t| == 0 then None else Some(Stats.Mean(SumWicks(t), |t|))
  }

  /** A well-formed candle (low below both open and close, high above both) has a non-negative ratio. */
  lemma WickToBodyNonNegative(c: Candle)
    requires c.low <= c.open <= c.high && c.low <= c.close <= c.high
    ensures WickToBody(c) >= 0.0
  {
  }

  predicate AdxPenalised(adx: real) { adx < 18.0 }
  predicate DirectionRewarded(adx: real) { adx > 25.0 }

  /** The score before clamping: 100, minus each penalty whose strict test holds, plus each bonus
      whose strict test holds. A NaN wick ratio fails its test. */
  function RawScore(spread: real, atrPct: real, adx: real, wick: Option<real>, liquidity: real,
                    s: QualitySettings): int
  {
    100
    - (if spread > 0.002 then s.spreadPenalty else 0)
    - (if atrPct < 0.003 then s.atrLowPenalty else 0)
    - (if AdxPenalised(adx) then s.adxLowPenalty else 0)
    - (if wick.Some? && wick.value > 2.5 then s.wickPenalty else 0)
    + (if liquidity > 10000000.0 then s.liquidityBonus else 0)
    + (if DirectionRewarded(adx) then s.directionBonus else 0)
  }

  /** `market_quality_score`: the raw score clamped into [0, 100]. */
  function MarketQualityScore(spread: real, atrPct: real, adx: real, wick: Option<real>,
                              liquidity: real, s: QualitySettings): (score: int)
    ensures 0 <= score <= 100
    ensures var raw := RawScore(spread, atrPct, adx, wick, liquidity, s);
      (0 <= raw <= 100 ==> score == raw) && (raw < 0 ==> score == 0) && (raw > 100 ==> score == 100)
  {
    var score := 100;
    var score := if spread > 0.002 then score - s.spreadPenalty else score;
    var score := if atrPct < 0.003 then score - s.atrLowPenalty else score;
    var score := if adx < 18.0 then score - s.adxLowPenalty else score;
    var score := if wick.Some? && wick.value > 2.5 then score - s.wickPenalty else score;
    var score := if liquidity > 10000000.0 then score + s.liquidityBonus else score;
    var score := if adx > 25.0 then score + s.directionBonus else score;
    if score > 100 then 100 else if score < 0 then 0 else score
  }

  /** The low-ADX penalty and the direction bonus are never applied together. */
  lemma AdxPenaltyExcludesBonus(adx: real)
    ensures !(AdxPenalised(adx) && DirectionRewarded(adx))
  {
  }

  /** With the defaults, every penalty applied and no bonus the score bottoms out at 45; with
      no penalty and both bonuses it is clamped to 100. */
  lemma DefaultScoreRange(spread: real, atrPct: real, adx: real, wick: Option<real>, liquidity: real)
    ensures 45 <= RawScore(spread, atrPct, adx, wick, liquidity, Defaults) <= 125
    ensures MarketQualityScore(spread, atrPct, adx, wick, liquidity, Defaults) >= 45
  {
  }
}

=== FILE: rate_limit.dfy ===
/** Retry guard for exchange calls (`exchange/rate_limit.py`): a circuit breaker that opens after
    a run of failures and closes again after a cooldown, and a retry loop with exponential
    backoff in front of it. The wall clock is a parameter (`now`, and the time at which each
    attempt fails); the sleeps are recorded rather than taken. */
module RateLimit {
  import opened Common

  /** `CircuitBreaker`; `openedAt == None` is the closed breaker. */
  datatype CircuitBreaker = CircuitBreaker(maxFailures: int, cooldownSeconds: int, failures: int, openedAt: Option<real>)

  /** The dataclass defaults: five failures open the breaker for thirty seconds. */
  function DefaultBreaker(): (b: CircuitBreaker)
    ensures b.maxFailures == 5 && b.cooldownSeconds == 30
    ensures b.failures == 0 && b.openedAt == None
  {
    CircuitBreaker(5, 30, 0, None)
  }

  /** `can_execute` at time `now`: the verdict and the breaker afterwards. A closed breaker
      allows; an open one allows, and resets itself, only once strictly more than the cooldown
      has passed since it opened. */
  function CanExecute(b: CircuitBreaker, now: real): (r: (bool, CircuitBreaker))
    ensures r.0 <==> b.openedAt == None || now - b.openedAt.value > b.cooldownSeconds as real
    ensures !r.0 ==> r.1 == b
    ensures r.0 && b.openedAt == None ==> r.1 == b
    ensures r.0 && b.openedAt.Some? ==> r.1 == b.(failures := 0, openedAt := None)
  {
    match b.openedAt
    case None => (true, b)
    case Some(t) =>
      if now - t > b.cooldownSeconds as real then (true, b.(failures := 0, openedAt := None))
      else (false, b)
  }

  /** `record_failure` at time `now`: one more failure, and the breaker (re)opens at `now`
      whenever the count has reached the maximum. */
  function RecordFailure(b: CircuitBreaker, now: real): (r: CircuitBreaker)
    ensures r.failures == b.failures + 1
    ensures r.maxFailures == b.maxFailures && r.cooldownSeconds == b.cooldownSeconds
    ensures r.failures >= b.maxFailures ==> r.openedAt == Some(now)
    ensures r.failures < b.maxFailures ==> r.openedAt == b.openedAt
  {
    var failures := b.failures + 1;
    if failures >= b.maxFailures then b.(failures := failures, openedAt := Some(now))
    else b.(failures := failures)
  }

  /** `record_success`: the breaker closes and forgets its failures. */
  function RecordSuccess(b: CircuitBreaker): (r: CircuitBreaker)
    ensures r.failures == 0 && r.openedAt == None
    ensures r.maxFailures == b.maxFailures && r.cooldownSeconds == b.cooldownSeconds
  {
    b.(failures := 0, openedAt := None)
  }

  /** A fresh breaker allows the call and stays as it is. */
  lemma FreshBreakerAllows(now: real)
    ensures CanExecute(DefaultBreaker(), now) == (true, DefaultBreaker())
  {
  }

  /** From a closed breaker with no failures, `maxFailures` consecutive failures open it at the
      time of the last one, and one fewer leaves it closed. */
  lemma {:induction false} FailuresOpen(b: CircuitBreaker, times: seq<real>)
    requires b.failures == 0 && b.openedAt == None
    requires |times| >= 1 && b.maxFailures >= 1
    ensures var r := FailAll(b, times);
      r.failures == |times|
      && (|times| < b.maxFailures ==> r.openedAt == None)
      && (|times| >= b.maxFailures ==> r.openedAt == Some(times[|times| - 1]))
    decreases |times|
  {
    if |times| > 1 {
      FailuresOpen(b, times[..|times| - 1]);
    }
  }

  /** The breaker after a failure at each of `times`, in order. */
  function FailAll(b: CircuitBreaker, times: seq<real>): (r: CircuitBreaker)
    ensures r.maxFailures == b.maxFailures && r.cooldownSeconds == b.cooldownSeconds
    ensures r.failures == b.failures + |times|
    decreases |times|
  {
    if |times| == 0 then b else RecordFailure(FailAll(b, times[..|times| - 1]), times[|times| - 1])
  }

  /** An open breaker refuses at the very cooldown boundary and allows just after it. */
  lemma CooldownBoundary(b: CircuitBreaker, t: real)
    requires b.openedAt == Some(t)
    ensures !CanExecute(b, t + b.cooldownSeconds as real).0
    ensures CanExecute(b, t + b.cooldownSeconds as real + 1.0).0
  {
  }

  /** What the wrapped call does on its `i`-th attempt and the clock reading when it returns. */
  datatype Outcome<T, E> = Ok(value: T) | Err(error: E)
  datatype Attempt<T, E> = Attempt(outcome: Outcome<T, E>, at: real)

  /** `RateLimitGuard`; the default retry budget is four attempts. */
  datatype Guard = Guard(breaker: CircuitBreaker, maxRetries: int)

  /** How `run` ends: refused by the breaker (`RuntimeError`), with the call's value, with the
      last attempt's exception re-raised, or falling off an empty retry loop (returning `None`). */
  datatype RunResult<T, E> = BreakerOpen | Returned(value: T) | Raised(error: E) | NoAttempts

  /** The end of `run`: its result, the breaker afterwards, how many times the wrapped call ran
      and the backoff sleeps taken, in seconds. */
  datatype RunOutcome<T, E> = RunOutcome(result: RunResult<T, E>, breaker: CircuitBreaker, calls: nat, sleeps: seq<real>)

  function Pow2(k: nat): (r: real)
    ensures r >= 1.0
  {
    if k == 0 then 1.0 else 2.0 * Pow2(k - 1)
  }

  /** Attempts `i + 1 .. maxRetries` of the retry loop. The delay starts at one second and
      doubles after every sleep, so the sleep after attempt `i + 1` is `2^i` seconds. */
  function Retry<T, E>(b: CircuitBreaker, maxRetries: int, respond: nat -> Attempt<T, E>, i: nat): (r: RunOutcome<T, E>)
    ensures i >= maxRetries ==> r == RunOutcome(NoAttempts, b, i, [])
    ensures i < maxRetries ==> i < r.calls <= maxRetries && (r.result.Returned? || r.result.Raised?)
    ensures i < maxRetries ==> |r.sleeps| == r.calls - i - 1
    ensures forall k :: 0 <= k < |r.sleeps| ==> r.sleeps[k] == Pow2(i + k)
    decreases maxRetries - i
  {
    if i >= maxRetries then RunOutcome(NoAttempts, b, i, [])
    else
      var a := respond(i);
      match a.outcome
      case Ok(v) => RunOutcome(Returned(v), RecordSuccess(b), i + 1, [])
      case Err(e) =>
        var failed := RecordFailure(b, a.at);
        if i + 1 == maxRetries then RunOutcome(Raised(e), failed, i + 1, [])
        else
          var rest := Retry(failed, maxRetries, respond, i + 1);
          RunOutcome(rest.result, rest.breaker, rest.calls, [Pow2(i)] + rest.sleeps)
  }

  /** `RateLimitGuard.run` at time `now`. */
  function Run<T, E>(g: Guard, respond: nat -> Attempt<T, E>, now: real): (r: RunOutcome<T, E>)
    ensures r.result == BreakerOpen <==> !CanExecute(g.breaker, now).0
    ensures r.result == BreakerOpen ==> r.calls == 0 && r.sleeps == [] && r.breaker == g.breaker
    ensures r.result == NoAttempts <==> CanExecute(g.breaker, now).0 && g.maxRetries <= 0
    ensures r.calls <= if g.maxRetries > 0 then g.maxRetries else 0
    ensures r.calls > 0 ==> |r.sleeps| == r.calls - 1
    ensures forall k :: 0 <= k < |r.sleeps| ==> r.sleeps[k] == Pow2(k)
  {
    var (ok, b) := CanExecute(g.breaker, now);
    if !ok then RunOutcome(BreakerOpen, b, 0, [])
    else Retry(b, g.maxRetries, respond, 0)
  }

  /** No attempt before `n` succeeded. */
  predicate FailedBefore<T, E>(respond: nat -> Attempt<T, E>, n: nat) {
    forall k: nat :: k < n ==> respond(k).outcome.Err?
  }

  /** The retry loop returns the first success among the attempts it is allowed, re-raises the
      last failure when all of them fail, and makes no further call after a success. */
  lemma {:induction false} RetryResult<T, E>(b: CircuitBreaker, maxRetries: int, respond: nat -> Attempt<T, E>, i: nat)
    requires i < maxRetries && FailedBefore(respond, i)
    ensures var r := Retry(b, maxRetries, respond, i);
      FailedBefore(respond, r.calls - 1)
      && (r.result.Returned? <==> respond(r.calls - 1).outcome.Ok?)
      && (r.result.Returned? ==> r.result.value == respond(r.calls - 1).outcome.value && r.breaker.failures == 0 && r.breaker.openedAt == None)
      && (r.result.Raised? <==> r.calls == maxRetries && respond(maxRetries - 1).outcome.Err?)
      && (r.result.Raised? ==> r.result.error == respond(maxRetries - 1).outcome.error)
      && !r.result.BreakerOpen? && !r.result.NoAttempts?
    decreases maxRetries - i
  {
    var a := respond(i);
    if a.outcome.Err? && i + 1 < maxRetries {
      var failed := RecordFailure(b, a.at);
      RetryResult(failed, maxRetries, respond, i + 1);
    }
  }

  /** `run` past an allowing breaker: the first success wins, otherwise every one of the
      `maxRetries` attempts is made and the last error is raised. */
  lemma RunResultLemma<T, E>(g: Guard, respond: nat -> Attempt<T, E>, now: real)
    requires CanExecute(g.breaker, now).0 && g.maxRetries > 0
    ensures var r := Run(g, respond, now);
      r.calls >= 1 && FailedBefore(respond, r.calls - 1)
      && (r.result.Returned? <==> respond(r.calls - 1).outcome.Ok?)
      && (r.result.Returned? ==> r.result.value == respond(r.calls - 1).outcome.value)
      && (r.result.Raised? <==> FailedBefore(respond, g.maxRetries))
      && (r.result.Raised? ==> r.calls == g.maxRetries && r.result.error == respond(g.maxRetries - 1).outcome.error)
  {
    var b := CanExecute(g.breaker, now).1;
    RetryResult(b, g.maxRetries, respond, 0);
    var r := Run(g, respond, now);
    if r.result.Raised? {
      assert FailedBefore(respond, g.maxRetries) by {
        forall k: nat | k < g.maxRetries
          ensures respond(k).outcome.Err?
        {
          if k < g.maxRetries - 1 {
            assert FailedBefore(respond, r.calls - 1);
          }
        }
      }
    }
    if FailedBefore(respond, g.maxRetries) {
      assert respond(r.calls - 1).outcome.Err?;
    }
  }

  /** Every attempt failing with a breaker that opens after the first failure: the breaker is
      only consulted on entry, so all four attempts are still made and three backoff sleeps
      (1, 2 and 4 seconds) taken. */
  lemma BreakerNotRecheckedMidRun(respond: nat -> Attempt<int, int>, now: real)
    requires forall k: nat :: respond(k) == Attempt(Err(k), now + k as real)
    ensures var r := Run(Guard(CircuitBreaker(1, 30, 0, None), 4), respond, now);
      r.calls == 4 && r.sleeps == [1.0, 2.0, 4.0] && r.result == Raised(3)
      && r.breaker.failures == 4 && r.breaker.openedAt == Some(now + 3.0)
  {
    var r := Run(Guard(CircuitBreaker(1, 30, 0, None), 4), respond, now);
    assert respond(0) == Attempt(Err(0), now);
    assert respond(1) == Attempt(Err(1), now + 1.0);
    assert respond(2) == Attempt(Err(2), now + 2.0);
    assert respond(3) == Attempt(Err(3), now + 3.0);
    assert Pow2(1) == 2.0 && Pow2(2) == 4.0;
  }
}

=== FILE: real_executor.dfy ===
/** Real execution (`execution/real.py`): the gate in front of the exchange. An order reaches the
    exchange only when real trading is enabled, the normalised order passes the exchange
    minimums and the call is not a dry run. The exchange call is recorded as an effect: the
    result carries the list of `create_order` requests made, and the exchange's response is not
    modelled. */
module RealExecutor {
  import opened StrategyBase
  import opened Precision

  datatype Side = Buy | Sell

  /** One `exchange.create_order(symbol, side, qty, price)` call. */
  datatype OrderRequest = OrderRequest(symbol: string, side: Side, qty: real, price: real)

  /** The `status` of a `RealExecutionResult` together with the details that matter. */
  datatype Status =
    | Disabled
    | Rejected(errors: seq<Violation>)
    | DryRun(symbol: string, qty: real, price: real)
    | Submitted

  datatype Execution = Execution(status: Status, calls: seq<OrderRequest>)

  /** `"buy" if direction == "LONG" else "sell"`. */
  function SideOf(dir: Direction): (s: Side)
    ensures s == Buy <==> dir == Long
  {
    if dir == Long then Buy else Sell
  }

  /** `execute_trade`. */
  function ExecuteTrade(symbol: string, dir: Direction, qty: real, price: real, p: SymbolPrecision,
                        enabled: bool, dryRun: bool): (r: Execution)
    ensures !enabled ==> r == Execution(Disabled, [])
    ensures enabled ==>
      (r.status.Rejected? <==> ValidateOrder(NormalizePrice(price, p), NormalizeQty(qty, p), p) != [])
    ensures r.status.Rejected? ==>
      r.status.errors == ValidateOrder(NormalizePrice(price, p), NormalizeQty(qty, p), p)
    ensures r.status.DryRun? <==>
      enabled && dryRun && ValidateOrder(NormalizePrice(price, p), NormalizeQty(qty, p), p) == []
    ensures r.status.DryRun? ==>
      r.status == DryRun(symbol, NormalizeQty(qty, p), NormalizePrice(price, p))
    ensures |r.calls| <= 1
    ensures |r.calls| == 1 <==> r.status == Submitted
    ensures r.status == Submitted <==>
      enabled && !dryRun && ValidateOrder(NormalizePrice(price, p), NormalizeQty(qty, p), p) == []
    ensures |r.calls| == 1 ==>
      r.calls[0] == OrderRequest(symbol, SideOf(dir), NormalizeQty(qty, p), NormalizePrice(price, p))
  {
    if !enabled then Execution(Disabled, [])
    else
      var normPrice := NormalizePrice(price, p);
      var normQty := NormalizeQty(qty, p);
      var errors := ValidateOrder(normPrice, normQty, p);
      if errors != [] then Execution(Rejected(errors), [])
      else if dryRun then Execution(DryRun(symbol, normQty, normPrice), [])
      else Execution(Submitted, [OrderRequest(symbol, SideOf(dir), normQty, normPrice)])
  }

  /** Every order that reaches the exchange meets both minimums, never asks for more than the
      caller offered (price and quantity are rounded down on positive grids), and lies on the
      symbol's grids. */
  lemma SubmittedOrderValid(symbol: string, dir: Direction, qty: real, price: real, p: SymbolPrecision,
                            enabled: bool, dryRun: bool)
    requires p.tickSize > 0.0 && p.stepSize > 0.0
    ensures var r := ExecuteTrade(symbol, dir, qty, price, p, enabled, dryRun);
      forall o :: o in r.calls ==>
        o.qty >= p.minQty && o.price * o.qty >= p.minNotional
        && o.qty <= qty && o.price <= price
        && OnGrid(o.qty, p.stepSize) && OnGrid(o.price, p.tickSize)
        && (o.side == Buy <==> dir == Long)
  {
    RoundStepOnGrid(qty, p.stepSize);
    RoundStepOnGrid(price, p.tickSize);
  }

  /** Executing an order that is already on the grids sends exactly what was asked for:
      normalisation is idempotent, so a second pass through the gate changes nothing. */
  lemma ResubmitUnchanged(symbol: string, dir: Direction, qty: real, price: real, p: SymbolPrecision)
    requires ExecuteTrade(symbol, dir, qty, price, p, true, false).status == Submitted
    ensures var o := ExecuteTrade(symbol, dir, qty, price, p, true, false).calls[0];
      ExecuteTrade(symbol, dir, o.qty, o.price, p, true, false).calls == [o]
  {
    NormalizeIdempotent(price, qty, p);
  }

  /** A dry run reports exactly the order a live run would send, and sends nothing. */
  lemma DryRunMirrorsSubmit(symbol: string, dir: Direction, qty: real, price: real, p: SymbolPrecision)
    ensures var d := ExecuteTrade(symbol, dir, qty, price, p, true, true);
      var s := ExecuteTrade(symbol, dir, qty, price, p, true, false);
      d.calls == [] && (d.status.DryRun? <==> s.status == Submitted)
      && (d.status.DryRun? ==> s.calls == [OrderRequest(symbol, SideOf(dir), d.status.qty, d.status.price)])
  {
  }
}

=== FILE: regime.dfy ===
/** Market regime detection (`market/regime.py`): a symbol is labelled from its ADX, the slope of
    its 50-period EMA, its Bollinger width and the z-score of its latest ATR. ADX, the bands and
    the ATR z-score come from foreign numerics and are inputs; a NaN z-score is `None`. */
module Regime {
  import opened Common
  import Indicators

  datatype Label = TrendClean | Range | Chaotic | Transition

  predicate Trending(adx: real, slope: real) {
    adx >= 25.0 && Abs(slope) > 0.002
  }

  predicate Flat(width: real, slope: real) {
    width < 0.05 && Abs(slope) <= 0.002
  }

  /** A NaN z-score, or one beyond 2.5 in either direction. */
  predicate Erratic(atrZ: Option<real>) {
    atrZ.None? || Abs(atrZ.value) > 2.5
  }

  /** The rules are tried in order: a clean trend first, then a tight flat range, then an
      erratic ATR; anything else is a transition. */
  function DetectRegime(adx: real, slope: real, width: real, atrZ: Option<real>): (r: Label)
    ensures r == TrendClean <==> Trending(adx, slope)
    ensures r == Range <==> !Trending(adx, slope) && Flat(width, slope)
    ensures r == Chaotic <==> !Trending(adx, slope) && !Flat(width, slope) && Erratic(atrZ)
    ensures r == Transition <==> !Trending(adx, slope) && !Flat(width, slope) && !Erratic(atrZ)
  {
    if adx >= 25.0 && Abs(slope) > 0.002 then TrendClean
    else if width < 0.05 && Abs(slope) <= 0.002 then Range
    else if atrZ.None? || Abs(atrZ.value) > 2.5 then Chaotic
    else Transition
  }

  /** A flat market is never trending, whatever its ADX: RANGE needs only the width and slope tests. */
  lemma FlatIsRange(adx: real, slope: real, width: real, atrZ: Option<real>)
    requires Flat(width, slope)
    ensures DetectRegime(adx, slope, width, atrZ) == Range
  {
  }

  /** A NaN ATR z-score can never yield TRANSITION. */
  lemma NaNNeverTransition(adx: real, slope: real, width: real)
    ensures DetectRegime(adx, slope, width, None) != Transition
  {
  }

  /** `detect_regime` on a frame: the slope is taken from the closes; ADX, the Bollinger width and
      the ATR z-score are the foreign indicator values of the same frame. */
  function DetectRegimeOf(closes: seq<real>, adx: real, width: real, atrZ: Option<real>): (r: Label)
    requires |closes| >= 5
    requires Indicators.Ema(closes, 50)[|closes| - 5] != 0.0
    ensures r == TrendClean <==> Trending(adx, Indicators.EmaSlope(closes))
    ensures var slope := Indicators.EmaSlope(closes);
      && (r == Range <==> !Trending(adx, slope) && Flat(width, slope))
      && (r == Chaotic <==> !Trending(adx, slope) && !Flat(width, slope) && Erratic(atrZ))
      && (r == Transition <==> !Trending(adx, slope) && !Flat(width, slope) && !Erratic(atrZ))
    ensures Erratic(atrZ) ==> r != Transition
  {
    DetectRegime(adx, Indicators.EmaSlope(closes), width, atrZ)
  }
}

=== FILE: risk_adaptive.dfy ===
/** Adaptive risk scaling (`risk/adaptive.py`): a losing streak halves the risk and a weekly or
    monthly drawdown switches on defensive mode, which cuts it to 30 %. */
module RiskAdaptive {

  datatype AdaptiveState = AdaptiveState(
    losingStreak: int, weeklyDrawdown: real, monthlyDrawdown: real, defensiveMode: bool)

  const Initial := AdaptiveState(0, 0.0, 0.0, false)

  predicate OnStreak(st: AdaptiveState) { st.losingStreak >= 3 }

  predicate InDrawdown(st: AdaptiveState) { st.weeklyDrawdown >= 0.1 || st.monthlyDrawdown >= 0.2 }

  /** The factor applied to the base risk. */
  function RiskFactor(st: AdaptiveState): (f: real)
    ensures f == 1.0 || f == 0.5 || f == 0.3 || f == 0.15
    ensures f == 1.0 <==> !OnStreak(st) && !InDrawdown(st)
    ensures OnStreak(st) ==> f <= 0.5
    ensures InDrawdown(st) ==> f <= 0.3
  {
    (if OnStreak(st) then 0.5 else 1.0) * (if InDrawdown(st) then 0.3 else 1.0)
  }

  /** `adjust_risk`: the scaled risk, and the state with defensive mode switched on by a drawdown.
      Defensive mode is never switched off and nothing else in the state changes. */
  function AdjustRisk(base: real, st: AdaptiveState): (r: (real, AdaptiveState))
    ensures r.0 == base * RiskFactor(st)
    ensures base >= 0.0 ==> 0.0 <= r.0 <= base
    ensures base > 0.0 && (OnStreak(st) || InDrawdown(st)) ==> r.0 < base
    ensures r.1.defensiveMode <==> st.defensiveMode || InDrawdown(st)
    ensures r.1 == st.(defensiveMode := r.1.defensiveMode)
  {
    var risk := if OnStreak(st) then base * 0.5 else base;
    if InDrawdown(st) then (risk * 0.3, st.(defensiveMode := true)) else (risk, st)
  }

  /** `update_streak`: a loss extends the streak, anything else resets it. */
  function UpdateStreak(st: AdaptiveState, pnl: real): (st': AdaptiveState)
    ensures st'.losingStreak == if pnl < 0.0 then st.losingStreak + 1 else 0
    ensures st' == st.(losingStreak := st'.losingStreak)
  {
    if pnl < 0.0 then st.(losingStreak := st.losingStreak + 1) else st.(losingStreak := 0)
  }

  /** Three losses in a row reduce the risk; a weekly drawdown of 0.2 on top reduces it further
      and switches on defensive mode. */
  lemma ReductionScenario()
    ensures var st := UpdateStreak(UpdateStreak(UpdateStreak(Initial, -1.0), -1.0), -1.0);
      var reduced := AdjustRisk(0.01, st);
      var defensive := AdjustRisk(0.01, reduced.1.(weeklyDrawdown := 0.2));
      && reduced.0 < 0.01
      && defensive.0 < reduced.0
      && defensive.1.defensiveMode
  {
  }
}

=== FILE: risk_rules.dfy ===
/** Hard risk limits (`risk/rules.py`): a daily loss budget in R units with a kill switch, a cap on
    open positions and per-symbol cooldowns counted in candles. The mutable Python object is a
    record passed state-in, state-out. */
module RiskRules {
  import opened Common

  datatype RiskRules = RiskRules(
    maxDailyLossR: real, maxPositions: int, cooldownCandles: int,
    dailyLossR: real, positionsOpen: int, cooldowns: map<string, int>, killSwitch: bool)

  /** A freshly constructed object: no loss, no position, no cooldown, kill switch off. */
  function Fresh(maxDailyLossR: real, maxPositions: int, cooldownCandles: int): (r: RiskRules)
    ensures r.dailyLossR == 0.0 && r.positionsOpen == 0 && r.cooldowns == map[] && !r.killSwitch
  {
    RiskRules(maxDailyLossR, maxPositions, cooldownCandles, 0.0, 0, map[], false)
  }

  /** `cooldowns.get(symbol, 0)` */
  function CooldownOf(r: RiskRules, symbol: string): int {
    if symbol in r.cooldowns then r.cooldowns[symbol] else 0
  }

  /** `register_trade_result`: only losses are added to the daily loss, and once its magnitude
      reaches the limit the kill switch is set. */
  function RegisterTradeResult(r: RiskRules, pnlR: real): (r': RiskRules)
    ensures r'.dailyLossR <= r.dailyLossR
    ensures pnlR >= 0.0 ==> r'.dailyLossR == r.dailyLossR
    ensures pnlR < 0.0 ==> r'.dailyLossR == r.dailyLossR + pnlR
    ensures r'.killSwitch <==> r.killSwitch || Abs(r'.dailyLossR) >= r.maxDailyLossR
    ensures r' == r.(dailyLossR := r'.dailyLossR, killSwitch := r'.killSwitch)
  {
    var loss := r.dailyLossR + Min(0.0, pnlR);
    r.(dailyLossR := loss, killSwitch := r.killSwitch || Abs(loss) >= r.maxDailyLossR)
  }

  /** `can_open`: refused by the kill switch, by a full book, or by a running cooldown. */
  function CanOpen(r: RiskRules, symbol: string): (ok: bool)
    ensures ok <==> !r.killSwitch && r.positionsOpen < r.maxPositions && CooldownOf(r, symbol) <= 0
    ensures r.killSwitch ==> !ok
  {
    if r.killSwitch then false
    else if r.positionsOpen >= r.maxPositions then false
    else if CooldownOf(r, symbol) > 0 then false
    else true
  }

  function MaxInt(a: int, b: int): (m: int)
    ensures m >= a && m >= b && (m == a || m == b)
  {
    if a >= b then a else b
  }

  /** `tick`: one candle passes; every cooldown counts down by one and stops at zero. */
  function Tick(r: RiskRules): (r': RiskRules)
    ensures r'.cooldowns.Keys == r.cooldowns.Keys
    ensures forall s :: s in r.cooldowns ==> r'.cooldowns[s] == MaxInt(0, r.cooldowns[s] - 1)
    ensures forall s :: s in r.cooldowns ==> 0 <= r'.cooldowns[s] && (r.cooldowns[s] > 0 ==> r'.cooldowns[s] < r.cooldowns[s])
    ensures r' == r.(cooldowns := r'.cooldowns)
  {
    r.(cooldowns := map s | s in r.cooldowns :: MaxInt(0, r.cooldowns[s] - 1))
  }

  /** `apply_cooldown`: the symbol's cooldown restarts at `cooldown_candles`. */
  function ApplyCooldown(r: RiskRules, symbol: string): (r': RiskRules)
    ensures CooldownOf(r', symbol) == r.cooldownCandles
    ensures r'.cooldowns.Keys == r.cooldowns.Keys + {symbol}
    ensures forall s :: s != symbol ==> CooldownOf(r', s) == CooldownOf(r, s)
    ensures r' == r.(cooldowns := r'.cooldowns)
  {
    r.(cooldowns := r.cooldowns[symbol := r.cooldownCandles])
  }

  function TickN(r: RiskRules, k: nat): RiskRules {
    if k == 0 then r else Tick(TickN(r, k - 1))
  }

  /** After `k >= 1` ticks a cooldown `c` has become `max(0, c - k)` (a negative one is floored at
      the first tick); symbols without one stay without. */
  lemma {:induction false} TickNCountsDown(r: RiskRules, k: nat, symbol: string)
    ensures TickN(r, k).cooldowns.Keys == r.cooldowns.Keys
    ensures TickN(r, k) == r.(cooldowns := TickN(r, k).cooldowns)
    ensures symbol in r.cooldowns ==>
      TickN(r, k).cooldowns[symbol] == if k == 0 then r.cooldowns[symbol] else MaxInt(0, r.cooldowns[symbol] - k)
  {
    if k > 0 {
      TickNCountsDown(r, k - 1, symbol);
      var prev := TickN(r, k - 1);
      if symbol in r.cooldowns {
        var c := r.cooldowns[symbol];
        assert TickN(r, k).cooldowns[symbol] == MaxInt(0, prev.cooldowns[symbol] - 1);
      }
    }
  }

  /** After `apply_cooldown`, the symbol stays blocked for exactly `cooldown_candles` ticks. */
  lemma CooldownLastsExactly(r: RiskRules, symbol: string, k: nat)
    requires r.cooldownCandles >= 0
    ensures CooldownOf(TickN(ApplyCooldown(r, symbol), k), symbol) == 0 <==> k >= r.cooldownCandles
  {
    TickNCountsDown(ApplyCooldown(r, symbol), k, symbol);
  }

  /** The operations that change the rules. */
  datatype Event = TradeResult(pnlR: real) | TickEvent | Cooldown(symbol: string)

  function Step(r: RiskRules, e: Event): RiskRules {
    match e
    case TradeResult(p) => RegisterTradeResult(r, p)
    case TickEvent => Tick(r)
    case Cooldown(s) => ApplyCooldown(r, s)
  }

  function Run(r: RiskRules, events: seq<Event>): RiskRules {
    if |events| == 0 then r else Step(Run(r, events[..|events| - 1]), events[|events| - 1])
  }

  /** The kill switch is sticky and the daily loss only grows in magnitude: no sequence of events
      clears the one or raises the other, and once tripped no symbol can be opened. */
  lemma {:induction false} KillSwitchSticky(r: RiskRules, events: seq<Event>, symbol: string)
    ensures Run(r, events).dailyLossR <= r.dailyLossR
    ensures r.killSwitch ==> Run(r, events).killSwitch && !CanOpen(Run(r, events), symbol)
    ensures Run(r, events).maxDailyLossR == r.maxDailyLossR
  {
    if |events| > 0 {
      KillSwitchSticky(r, events[..|events| - 1], symbol);
    }
  }
}

=== FILE: risk_sizing.dfy ===
/** Position sizing from the risk per trade (`risk/sizing.py`): the quantity that loses exactly
    the risk amount if the stop is hit. */
module RiskSizing {
  import opened Common

  datatype PositionSize = PositionSize(qty: real, riskAmount: real)

  /** `position_size` */
  function Size(equity: real, riskPct: real, entry: real, stop: real): (r: PositionSize)
    ensures r.riskAmount == equity * riskPct
    ensures entry == stop ==> r.qty == 0.0
    ensures entry != stop ==> r.qty * Abs(entry - stop) == r.riskAmount
    ensures equity >= 0.0 && riskPct >= 0.0 ==> r.qty >= 0.0
  {
    var riskAmount := equity * riskPct;
    var perUnit := Abs(entry - stop);
    if perUnit == 0.0 then PositionSize(0.0, riskAmount) else PositionSize(riskAmount / perUnit, riskAmount)
  }

  /** Only the distance between entry and stop matters, not which side the stop is on. */
  lemma SizeSymmetric(equity: real, riskPct: real, entry: real, stop: real)
    ensures Size(equity, riskPct, entry, stop) == Size(equity, riskPct, stop, entry)
  {
    assert Abs(entry - stop) == Abs(stop - entry);
  }
}

=== FILE: risk_stops.dfy ===
/** ATR-based stop-loss and take-profit levels (`risk/stops.py`). Any direction other than LONG
    gets the short-side levels. */
module RiskStops {
  import opened Common
  import opened StrategyBase

  datatype Stops = Stops(stop: real, take: real)

  /** `atr_stops` */
  function AtrStops(entry: real, atr: real, dir: Direction, stopMult: real, takeMult: real): (r: Stops)
    ensures dir == Long ==> entry - r.stop == atr * stopMult && r.take - entry == atr * takeMult
    ensures dir != Long ==> r.stop - entry == atr * stopMult && entry - r.take == atr * takeMult
  {
    if dir == Long then Stops(entry - atr * stopMult, entry + atr * takeMult)
    else Stops(entry + atr * stopMult, entry - atr * takeMult)
  }

  /** With a positive ATR and positive multipliers the entry lies strictly between the levels:
      below the take and above the stop for LONG, the other way round otherwise. */
  lemma StopsBracketEntry(entry: real, atr: real, dir: Direction, stopMult: real, takeMult: real)
    requires atr > 0.0 && stopMult > 0.0 && takeMult > 0.0
    ensures var r := AtrStops(entry, atr, dir, stopMult, takeMult);
      if dir == Long then r.stop < entry < r.take else r.take < entry < r.stop
  {
    assert atr * stopMult > 0.0 && atr * takeMult > 0.0;
  }

  /** For non-negative inputs the distances to the levels are the ATR multiples, whatever the direction. */
  lemma StopDistances(entry: real, atr: real, dir: Direction, stopMult: real, takeMult: real)
    requires atr >= 0.0 && stopMult >= 0.0 && takeMult >= 0.0
    ensures var r := AtrStops(entry, atr, dir, stopMult, takeMult);
      Abs(entry - r.stop) == atr * stopMult && Abs(r.take - entry) == atr * takeMult
  {
    assert atr * stopMult >= 0.0 && atr * takeMult >= 0.0;
  }
}

=== FILE: runner.dfy ===
/** One pass of the trading runner over a symbol (`runner.py`, `TradingRunner.run_once`): regime,
    BTC state and market quality feed the ensemble of the three strategies; a directional
    decision that the risk rules allow gets ATR stops, a position size on a fixed 1000 equity and
    a paper fill against the last candle. The risk rules are only read: the pass returns no new
    rules, only the adaptive state that `adjust_risk` may have switched to defensive mode. */
module Runner {
  import opened Common
  import opened StrategyBase
  import Indicators
  import Regime
  import BtcState
  import Quality
  import TrendEma
  import BreakoutDonchian
  import MeanReversionBb
  import Ensemble
  import RiskRules
  import RiskAdaptive
  import RiskStops
  import RiskSizing
  import Paper

  /** The symbol's frame and the values the `ta` library computes on it: RSI(14), ATR(14),
      ADX(14), the Bollinger bands and width, and the ATR z-score (NaN as `None`). */
  datatype Frame = Frame(candles: seq<Candle>, rsi: real, atr: real, adx: real,
                         bbLower: real, bbUpper: real, bbWidth: real, atrZ: Option<real>)

  /** The BTC frame's closes with its ATR(14) and Bollinger width. */
  datatype BtcFrame = BtcFrame(closes: seq<real>, atr: real, bbWidth: real)

  datatype Settings = Settings(trend: TrendEma.TrendSettings, breakout: BreakoutDonchian.BreakoutSettings,
                               btcState: BtcState.BtcStateSettings, quality: Quality.QualitySettings,
                               stopAtrMult: real, takeAtrMult: real, riskPerTradePct: real,
                               feeRate: real, worstCaseSameCandle: bool)

  /** How the pass ends: no signal, blocked by the risk rules, or a simulated trade. */
  datatype Step =
    | NoSignal(decision: Ensemble.Decision)
    | RiskBlocked(decision: Ensemble.Decision)
    | PaperTraded(decision: Ensemble.Decision, fill: Fill)

  /** The stops, the position size and the paper fill of a traded signal. */
  datatype Fill = Fill(stops: RiskStops.Stops, size: RiskSizing.PositionSize, trade: Paper.PaperTradeResult)

  datatype RunOnceResult = RunOnceResult(step: Step, adaptive: RiskAdaptive.AdaptiveState)

  const Equity := 1000.0
  const Spread := 0.001
  const Liquidity := 100000000.0

  /** What every component needs of the frames: enough rows for the 5-row EMA slope and the
      previous close, non-zero divisors (the last close, the EMA-50 four rows back) and a
      positive Donchian period. */
  predicate Usable(f: Frame, btc: BtcFrame, s: Settings) {
    && |f.candles| >= 5 && f.candles[|f.candles| - 1].close != 0.0
    && Indicators.Ema(Indicators.Closes(f.candles), 50)[|f.candles| - 5] != 0.0
    && |btc.closes| >= 5 && btc.closes[|btc.closes| - 1] != 0.0 && Indicators.Ema(btc.closes, 50)[|btc.closes| - 5] != 0.0
    && s.breakout.donchianPeriod >= 1
  }

  /** The strategies in their fixed order, each with its verdict on the frame. */
  function Strategies(symbol: string, f: Frame, s: Settings): (strats: seq<Ensemble.Strategy>)
    requires |f.candles| >= 2 && f.candles[|f.candles| - 1].close != 0.0 && s.breakout.donchianPeriod >= 1
    ensures |strats| == 3
    ensures strats[0].name == "trend_ema" && strats[1].name == "breakout_donchian" && strats[2].name == "mean_reversion_bb"
    ensures var closes := Indicators.Closes(f.candles);
      && strats[0].verdict == TrendEma.Generate(symbol, closes, f.rsi, f.atr, s.trend).direction
      && strats[1].verdict == BreakoutDonchian.Generate(symbol, f.candles, f.rsi, f.atrZ, s.breakout).direction
      && strats[2].verdict == MeanReversionBb.Generate(symbol, closes, f.bbLower, f.bbUpper).direction
  {
    var closes := Indicators.Closes(f.candles);
    [ Ensemble.Strategy("trend_ema", TrendEma.Generate(symbol, closes, f.rsi, f.atr, s.trend).direction),
      Ensemble.Strategy("breakout_donchian", BreakoutDonchian.Generate(symbol, f.candles, f.rsi, f.atrZ, s.breakout).direction),
      Ensemble.Strategy("mean_reversion_bb", MeanReversionBb.Generate(symbol, closes, f.bbLower, f.bbUpper).direction) ]
  }

  /** The frame's regime. */
  function RegimeOf(f: Frame, btc: BtcFrame, s: Settings): Regime.Label
    requires Usable(f, btc, s)
  {
    Regime.DetectRegimeOf(Indicators.Closes(f.candles), f.adx, f.bbWidth, f.atrZ)
  }

  /** The BTC frame's state. */
  function StateOf(f: Frame, btc: BtcFrame, s: Settings): BtcState.State
    requires Usable(f, btc, s)
  {
    BtcState.DetectBtcStateOf(btc.closes, btc.atr, btc.bbWidth, s.btcState)
  }

  /** The frame's market quality score at the fixed spread and liquidity. */
  function QualityOf(f: Frame, btc: BtcFrame, s: Settings): int
    requires Usable(f, btc, s)
  {
    var closes := Indicators.Closes(f.candles);
    var atrPct := Indicators.AtrPct(f.atr, closes[|closes| - 1]);
    Quality.MarketQualityScore(Spread, atrPct, f.adx, Quality.WickRatio(f.candles), Liquidity, s.quality)
  }

  /** The ensemble's decision on the frame. */
  function Decide(symbol: string, f: Frame, btc: BtcFrame, s: Settings): (d: Ensemble.Decision)
    requires Usable(f, btc, s)
    ensures d.signal.price == f.candles[|f.candles| - 1].close && d.signal.symbol == symbol
  {
    Ensemble.Ensemble(symbol, Indicators.Closes(f.candles), Strategies(symbol, f, s), RegimeOf(f, btc, s), StateOf(f, btc, s),
                      QualityOf(f, btc, s), s.quality.minTradeScore)
  }

  /** The vote a strategy named `name` with verdict `verdict` casts: none in a blocked market or
      when it is not eligible, its verdict otherwise. */
  function VoteOf(name: string, verdict: Direction, regime: Regime.Label, state: BtcState.State, mqs: int)
    : Option<Direction>
  {
    if !Ensemble.Blocked(regime, mqs) && Ensemble.Eligible(name, regime, state) then Some(verdict) else None
  }

  /** The ensemble's votes on the frame: a low-quality or chaotic market casts none and gives
      NONE at confidence 0; otherwise each of the three strategies votes its own `generate`
      verdict (as `Strategies` states it) exactly when it is eligible under the frame's regime and the BTC state, and the
      tally of those votes is the decision. */
  lemma DecideVotes(symbol: string, f: Frame, btc: BtcFrame, s: Settings)
    requires Usable(f, btc, s)
    ensures var regime, state, mqs := RegimeOf(f, btc, s), StateOf(f, btc, s), QualityOf(f, btc, s);
      var strats := Strategies(symbol, f, s);
      var d := Decide(symbol, f, btc, s);
      && (Ensemble.Blocked(regime, mqs) ==> d.votes == [] && d.signal.direction == NoneDir && d.signal.confidence == 0.0)
      && Ensemble.Lookup(d.votes, "trend_ema") == VoteOf("trend_ema", strats[0].verdict, regime, state, mqs)
      && Ensemble.Lookup(d.votes, "breakout_donchian") == VoteOf("breakout_donchian", strats[1].verdict, regime, state, mqs)
      && Ensemble.Lookup(d.votes, "mean_reversion_bb") == VoteOf("mean_reversion_bb", strats[2].verdict, regime, state, mqs)
      && (|d.votes| == 0 ==> d.signal.direction == NoneDir && d.signal.confidence == 0.0)
      && (|d.votes| > 0 ==> (d.signal.direction, d.signal.confidence) == Ensemble.Tally(d.votes, mqs, s.quality.minTradeScore))
  {
    var regime, state, mqs := RegimeOf(f, btc, s), StateOf(f, btc, s), QualityOf(f, btc, s);
    var strats := Strategies(symbol, f, s);
    StrategyVerdicts(symbol, f, s);
    Ensemble.FilteredVerdict(strats, "trend_ema", regime, state, mqs);
    Ensemble.FilteredVerdict(strats, "breakout_donchian", regime, state, mqs);
    Ensemble.FilteredVerdict(strats, "mean_reversion_bb", regime, state, mqs);
  }

  /** Each strategy's last verdict in the fixed list is its own `generate` verdict. */
  lemma StrategyVerdicts(symbol: string, f: Frame, s: Settings)
    requires |f.candles| >= 2 && f.candles[|f.candles| - 1].close != 0.0 && s.breakout.donchianPeriod >= 1
    ensures var strats := Strategies(symbol, f, s);
      && Ensemble.LastVerdict(strats, "trend_ema") == Some(strats[0].verdict)
      && Ensemble.LastVerdict(strats, "breakout_donchian") == Some(strats[1].verdict)
      && Ensemble.LastVerdict(strats, "mean_reversion_bb") == Some(strats[2].verdict)
  {
    var strats := Strategies(symbol, f, s);
    assert "trend_ema" != "breakout_donchian" && "trend_ema" != "mean_reversion_bb"
      && "breakout_donchian" != "mean_reversion_bb";
    assert strats[..2][..1] == strats[..1];
  }

  /** The steps after the risk check: ATR stops around the signal price, the position size on
      1000 of equity at the adaptively adjusted risk, and the paper fill against the last candle. */
  function Execute(sig: Signal, atr: real, last: Candle, adaptive: RiskAdaptive.AdaptiveState, s: Settings)
    : (r: (Fill, RiskAdaptive.AdaptiveState))
    requires sig.price != 0.0
    ensures var (riskPct, adaptive') := RiskAdaptive.AdjustRisk(s.riskPerTradePct, adaptive);
      && r.0.stops == RiskStops.AtrStops(sig.price, atr, sig.direction, s.stopAtrMult, s.takeAtrMult)
      && r.0.size.riskAmount == Equity * riskPct
      && (sig.price != r.0.stops.stop ==> r.0.size.qty * Abs(sig.price - r.0.stops.stop) == r.0.size.riskAmount)
      && r.0.trade == Paper.SimulateTrade(sig.direction, sig.price, r.0.stops.stop, r.0.stops.take,
                                          last.high, last.low, s.feeRate, s.worstCaseSameCandle)
      && r.1 == adaptive'
  {
    var stops := RiskStops.AtrStops(sig.price, atr, sig.direction, s.stopAtrMult, s.takeAtrMult);
    var (riskPct, adaptive') := RiskAdaptive.AdjustRisk(s.riskPerTradePct, adaptive);
    var size := RiskSizing.Size(Equity, riskPct, sig.price, stops.stop);
    var trade := Paper.SimulateTrade(sig.direction, sig.price, stops.stop, stops.take, last.high, last.low,
                                     s.feeRate, s.worstCaseSameCandle);
    (Fill(stops, size, trade), adaptive')
  }

  /** `run_once`: a NONE decision returns before the risk rules are consulted, a blocked symbol
      returns before anything is sized, and only a traded signal can change the adaptive state. */
  function RunOnce(symbol: string, f: Frame, btc: BtcFrame, rules: RiskRules.RiskRules,
                   adaptive: RiskAdaptive.AdaptiveState, s: Settings): (r: RunOnceResult)
    requires Usable(f, btc, s)
    ensures var d := Decide(symbol, f, btc, s);
      (r.step.NoSignal? <==> d.signal.direction == NoneDir)
      && (r.step.RiskBlocked? <==> d.signal.direction != NoneDir && !RiskRules.CanOpen(rules, symbol))
      && (r.step.PaperTraded? <==> d.signal.direction != NoneDir && RiskRules.CanOpen(rules, symbol))
      && r.step.decision == d
    ensures !r.step.PaperTraded? ==> r.adaptive == adaptive
    ensures r.step.PaperTraded? ==>
      (r.step.fill, r.adaptive) == Execute(r.step.decision.signal, f.atr, f.candles[|f.candles| - 1], adaptive, s)
  {
    var d := Decide(symbol, f, btc, s);
    if d.signal.direction == NoneDir then RunOnceResult(NoSignal(d), adaptive)
    else if !RiskRules.CanOpen(rules, symbol) then RunOnceResult(RiskBlocked(d), adaptive)
    else
      var (fill, adaptive') := Execute(d.signal, f.atr, f.candles[|f.candles| - 1], adaptive, s);
      RunOnceResult(PaperTraded(d, fill), adaptive')
  }

  /** The position is sized so that a fill at the stop loses exactly the risk budget: with a
      positive ATR and multipliers, a non-negative base risk and a positive directional signal
      price, the quantity times the stop distance is the adjusted risk on 1000 of equity, which
      never exceeds the base risk on it, and a stop fill has a negative PnL and a take fill a
      positive one. */
  lemma StopLossIsRiskBudget(sig: Signal, atr: real, last: Candle, adaptive: RiskAdaptive.AdaptiveState, s: Settings)
    requires sig.price > 0.0 && sig.direction != NoneDir
    requires atr > 0.0 && s.stopAtrMult > 0.0 && s.takeAtrMult > 0.0 && s.riskPerTradePct >= 0.0
    ensures var fill := Execute(sig, atr, last, adaptive, s).0;
      && fill.size.qty * Abs(sig.price - fill.stops.stop) == fill.size.riskAmount
      && 0.0 <= fill.size.riskAmount <= Equity * s.riskPerTradePct
      && (fill.trade.status == Paper.StopHit ==> fill.trade.pnlPct.value < 0.0)
      && (fill.trade.status == Paper.TakeHit ==> fill.trade.pnlPct.value > 0.0)
  {
    var fill := Execute(sig, atr, last, adaptive, s).0;
    RiskStops.StopsBracketEntry(sig.price, atr, sig.direction, s.stopAtrMult, s.takeAtrMult);
    var riskPct := RiskAdaptive.AdjustRisk(s.riskPerTradePct, adaptive).0;
    BudgetBound(riskPct, s.riskPerTradePct);
    Paper.StopLosesTakeWins(sig.direction, sig.price, fill.stops.stop, fill.stops.take, last.high, last.low,
                            s.feeRate, s.worstCaseSameCandle);
  }

  lemma BudgetBound(riskPct: real, base: real)
    requires 0.0 <= riskPct <= base
    ensures 0.0 <= Equity * riskPct <= Equity * base
  {
  }

  /** A pass never trades against the risk rules: with the kill switch on, no symbol trades and
      the adaptive state is left alone. */
  lemma KillSwitchBlocks(symbol: string, f: Frame, btc: BtcFrame, rules: RiskRules.RiskRules,
                         adaptive: RiskAdaptive.AdaptiveState, s: Settings)
    requires Usable(f, btc, s) && rules.killSwitch
    ensures var r := RunOnce(symbol, f, btc, rules, adaptive, s);
      !r.step.PaperTraded? && r.adaptive == adaptive
  {
  }
}

=== FILE: scoring.dfy ===
/** Per-strategy performance scoring and pruning (`strategy/scoring.py`). */
module Scoring {
  import opened Common
  import opened Stats

  datatype StrategyPerformance = StrategyPerformance(expectancy: real, winrate: real, maxDrawdown: real)

  /** Expectancy is the mean PnL, winrate the share of strictly positive PnLs, and the drawdown
      the deepest fall of the cumulative PnL below its running peak (never positive, and zero
      without losses); an empty list gives all zeros. */
  function ComputePerformance(pnls: seq<real>): (r: StrategyPerformance)
    ensures |pnls| == 0 ==> r == StrategyPerformance(0.0, 0.0, 0.0)
    ensures 0.0 <= r.winrate <= 1.0
    ensures |pnls| > 0 ==> Mul(r.winrate, |pnls| as real) == CountPos(pnls) as real
    ensures |pnls| > 0 ==> Mul(r.expectancy, |pnls| as real) == Sum(pnls)
    ensures r.maxDrawdown <= 0.0
    ensures (forall i :: 0 <= i < |pnls| ==> pnls[i] >= 0.0) ==> r.maxDrawdown == 0.0
  {
    if |pnls| == 0 then StrategyPerformance(0.0, 0.0, 0.0)
    else
      DrawdownNonPositive(pnls);
      NoLossNoDrawdownIf(pnls);
      StrategyPerformance(MeanOf(pnls), WinShare(pnls), Drawdown(pnls))
  }

  /** The drawdown is the deepest fall of the cumulative PnL below its running peak: no trade's
      fall is deeper, and some trade's fall is exactly that deep. */
  lemma PerformanceDrawdown(pnls: seq<real>)
    requires |pnls| > 0
    ensures forall i :: 0 <= i < |pnls| ==> ComputePerformance(pnls).maxDrawdown <= Cum(pnls, i) - Peak(pnls, i)
    ensures exists i :: 0 <= i < |pnls| && ComputePerformance(pnls).maxDrawdown == Cum(pnls, i) - Peak(pnls, i)
  {
    DrawdownIsMin(pnls);
  }

  lemma NoLossNoDrawdownIf(s: seq<real>)
    ensures (forall i :: 0 <= i < |s| ==> s[i] >= 0.0) ==> Drawdown(s) == 0.0
  {
    if forall i :: 0 <= i < |s| ==> s[i] >= 0.0 {
      NoLossNoDrawdown(s);
    }
  }

  /** A strategy is pruned once it has enough trades and a negative expectancy. */
  predicate ShouldDisable(expectancy: real, trades: int, minTrades: int) {
    trades >= minTrades && expectancy < 0.0
  }

  /** Pruning never hits a strategy whose expectancy is non-negative, and more trades
      with the same expectancy never un-prune one. */
  lemma PruningMonotone(expectancy: real, trades: int, minTrades: int)
    ensures expectancy >= 0.0 ==> !ShouldDisable(expectancy, trades, minTrades)
    ensures ShouldDisable(expectancy, trades, minTrades) ==> ShouldDisable(expectancy, trades + 1, minTrades)
  {
  }

  /** A scored strategy is pruned exactly when it has at least `minTrades` PnLs and they add up
      to a loss: the expectancy has the sign of the total. */
  lemma PruneOnScore(pnls: seq<real>, minTrades: int)
    ensures ShouldDisable(ComputePerformance(pnls).expectancy, |pnls|, minTrades)
      <==> |pnls| >= minTrades && Sum(pnls) < 0.0
  {
    if |pnls| > 0 {
      NegativeScaled(ComputePerformance(pnls).expectancy, |pnls| as real);
    }
  }

  /** Scaling by a positive count keeps the sign. */
  lemma NegativeScaled(a: real, n: real)
    requires n > 0.0
    ensures a < 0.0 <==> Mul(a, n) < 0.0
  {
    if a < 0.0 {
      assert Mul(a, n) == -((-a) * n);
    }
  }

  /** The pruning test cases: -0.1 over 30 trades with a 30-trade minimum prunes, +0.1 does not;
      and the scored PnLs [1, -0.5, 0.2, -0.3, 0.4] have an expectancy of 0.16 and a winrate
      of 0.6. */
  lemma PruningExamples()
    ensures ShouldDisable(-0.1, 30, 30) && !ShouldDisable(0.1, 30, 30)
    ensures ComputePerformance([1.0, -0.5, 0.2, -0.3, 0.4]).expectancy == 0.16
    ensures ComputePerformance([1.0, -0.5, 0.2, -0.3, 0.4]).winrate == 0.6
  {
    ExampleTotals();
    var r := ComputePerformance([1.0, -0.5, 0.2, -0.3, 0.4]);
    assert r.expectancy * 5.0 == 0.8;
    assert r.winrate * 5.0 == 3.0;
  }

  /** The example's PnLs sum to 0.8, three of them positive. */
  lemma ExampleTotals()
    ensures Sum([1.0, -0.5, 0.2, -0.3, 0.4]) == 0.8
    ensures CountPos([1.0, -0.5, 0.2, -0.3, 0.4]) == 3
  {
    assert [1.0] == [] + [1.0];
    assert [1.0, -0.5] == [1.0] + [-0.5];
    assert [1.0, -0.5, 0.2] == [1.0, -0.5] + [0.2];
    assert [1.0, -0.5, 0.2, -0.3] == [1.0, -0.5, 0.2] + [-0.3];
    assert [1.0, -0.5, 0.2, -0.3, 0.4] == [1.0, -0.5, 0.2, -0.3] + [0.4];
    SumSnoc([], 1.0);
    CountSnoc([], 1.0);
    SumSnoc([1.0], -0.5);
    CountSnoc([1.0], -0.5);
    SumSnoc([1.0, -0.5], 0.2);
    CountSnoc([1.0, -0.5], 0.2);
    SumSnoc([1.0, -0.5, 0.2], -0.3);
    CountSnoc([1.0, -0.5, 0.2], -0.3);
    SumSnoc([1.0, -0.5, 0.2, -0.3], 0.4);
    CountSnoc([1.0, -0.5, 0.2, -0.3], 0.4);
  }
}

=== FILE: stats.dfy ===
/** Reference definitions for the performance statistics computed over a list of trade PnLs:
    sums, means, win counts and the drawdown of the cumulative-PnL curve measured from its
    running peak. These are the specifications the numpy and loop implementations are checked against. */
module Stats {
  import opened Common

  function Sum(s: seq<real>): real {
    if |s| == 0 then 0.0 else Sum(s[..|s| - 1]) + s[|s| - 1]
  }

  /** Number of strictly positive entries: Python's `len([p for p in s if p > 0])`. */
  function CountPos(s: seq<real>): (n: nat)
    ensures n <= |s|
  {
    if |s| == 0 then 0 else CountPos(s[..|s| - 1]) + (if s[|s| - 1] > 0.0 then 1 else 0)
  }

  /** `[p for p in s if p > 0]` */
  function Wins(s: seq<real>): (w: seq<real>)
    ensures forall x :: x in w ==> x > 0.0
  {
    if |s| == 0 then [] else Wins(s[..|s| - 1]) + (if s[|s| - 1] > 0.0 then [s[|s| - 1]] else [])
  }

  /** `[p for p in s if p <= 0]` */
  function Losses(s: seq<real>): (l: seq<real>)
    ensures forall x :: x in l ==> x <= 0.0
  {
    if |s| == 0 then [] else Losses(s[..|s| - 1]) + (if s[|s| - 1] <= 0.0 then [s[|s| - 1]] else [])
  }

  /** Wins and losses split the PnLs: together they hold every entry exactly once. */
  lemma {:induction false} WinsLossesPartition(s: seq<real>)
    ensures multiset(Wins(s)) + multiset(Losses(s)) == multiset(s)
  {
    if |s| > 0 {
      var init, last := s[..|s| - 1], s[|s| - 1];
      var w, l := Wins(init), Losses(init);
      WinsLossesPartition(init);
      if last > 0.0 {
        assert Wins(s) == w + [last] && Losses(s) == l;
        SnocMultiset(w, last);
      } else {
        assert Wins(s) == w && Losses(s) == l + [last];
        SnocMultiset(l, last);
      }
      LastMultiset(s);
    }
  }

  /** There are as many wins as strictly positive entries, and the rest are losses. */
  lemma {:induction false} WinsLossesSizes(s: seq<real>)
    ensures |Wins(s)| == CountPos(s) && |Losses(s)| == |s| - CountPos(s)
  {
    if |s| > 0 {
      WinsLossesSizes(s[..|s| - 1]);
    }
  }

  lemma SnocMultiset<T>(xs: seq<T>, x: T)
    ensures multiset(xs + [x]) == multiset(xs) + multiset{x}
  {
  }

  lemma LastMultiset<T>(xs: seq<T>)
    requires |xs| > 0
    ensures multiset(xs) == multiset(xs[..|xs| - 1]) + multiset{xs[|xs| - 1]}
  {
    assert xs == xs[..|xs| - 1] + [xs[|xs| - 1]];
  }

  lemma CountSnoc(init: seq<real>, last: real)
    ensures CountPos(init + [last]) == CountPos(init) + (if last > 0.0 then 1 else 0)
  {
    assert (init + [last])[..|init|] == init;
  }

  lemma SumSnoc(init: seq<real>, last: real)
    ensures Sum(init + [last]) == Sum(init) + last
  {
    assert (init + [last])[..|init|] == init;
  }

  /** A count over a positive total gives a ratio in [0, 1] that scales back to the count. */
  lemma Ratio(k: nat, n: nat)
    requires 0 < n && k <= n
    ensures 0.0 <= k as real / n as real <= 1.0
    ensures (k as real / n as real) * n as real == k as real
  {
  }

  /** The share of strictly positive entries, 0 for none. */
  function WinShare(s: seq<real>): (w: real)
    ensures 0.0 <= w <= 1.0
    ensures |s| == 0 ==> w == 0.0
    ensures |s| > 0 ==> Mul(w, |s| as real) == CountPos(s) as real
  {
    if |s| == 0 then 0.0 else Share(CountPos(s), |s|)
  }

  /** The mean entry, 0 for none. */
  function MeanOf(s: seq<real>): (m: real)
    ensures |s| == 0 ==> m == 0.0
    ensures |s| > 0 ==> Mul(m, |s| as real) == Sum(s)
  {
    if |s| == 0 then 0.0 else Mean(Sum(s), |s|)
  }

  /** `k / n`, the share of `n` entries that `k` of them make up. */
  function Share(k: nat, n: nat): (r: real)
    requires 0 < n && k <= n
    ensures 0.0 <= r <= 1.0
    ensures Mul(r, n as real) == k as real
  {
    Ratio(k, n);
    k as real / n as real
  }

  /** `total / n`, the mean of `n` values summing to `total`. */
  function Mean(total: real, n: nat): (m: real)
    requires n > 0
    ensures Mul(m, n as real) == total
  {
    MeanScales(total, n);
    total / n as real
  }

  lemma MeanScales(x: real, n: nat)
    requires 0 < n
    ensures (x / n as real) * n as real == x
  {
  }

  /** Cumulative PnL after trade `i` (`np.cumsum(s)[i]`). */
  function Cum(s: seq<real>, i: int): real
    requires 0 <= i < |s|
  {
    Sum(s[..i + 1])
  }

  lemma CumStep(s: seq<real>, i: int)
    requires 0 <= i < |s| - 1
    ensures Cum(s, i + 1) == Cum(s, i) + s[i + 1]
  {
    assert s[..i + 2][..i + 1] == s[..i + 1];
  }

  /** Running peak of the cumulative curve up to trade `i` (`np.maximum.accumulate`); the curve
      starts at the first cumulative value, not at zero. */
  function Peak(s: seq<real>, i: int): real
    requires 0 <= i < |s|
  {
    if i == 0 then Cum(s, 0) else Max(Peak(s, i - 1), Cum(s, i))
  }

  /** Smallest value of `cum[j] - peak[j]` for `j <= i`. */
  function DrawdownTo(s: seq<real>, i: int): real
    requires 0 <= i < |s|
  {
    if i == 0 then Cum(s, 0) - Peak(s, 0) else Min(DrawdownTo(s, i - 1), Cum(s, i) - Peak(s, i))
  }

  /** `np.min(cumulative - peak)`, and 0 for no trades. */
  function Drawdown(s: seq<real>): real {
    if |s| == 0 then 0.0 else DrawdownTo(s, |s| - 1)
  }

  /** The running peak dominates every earlier cumulative value and is one of them. */
  lemma {:induction false} PeakIsMax(s: seq<real>, i: int)
    requires 0 <= i < |s|
    ensures forall j :: 0 <= j <= i ==> Cum(s, j) <= Peak(s, i)
    ensures exists j :: 0 <= j <= i && Cum(s, j) == Peak(s, i)
  {
    if i > 0 {
      PeakIsMax(s, i - 1);
      if Peak(s, i - 1) < Cum(s, i) {
        assert Cum(s, i) == Peak(s, i);
      } else {
        var j :| 0 <= j <= i - 1 && Cum(s, j) == Peak(s, i - 1);
        assert Cum(s, j) == Peak(s, i);
      }
    } else {
      assert Cum(s, 0) == Peak(s, 0);
    }
  }

  /** The drawdown is the minimum of `cum[i] - peak[i]` over all trades, and it is never positive. */
  lemma {:induction false} DrawdownIsMin(s: seq<real>)
    requires |s| > 0
    ensures Drawdown(s) <= 0.0
    ensures forall i :: 0 <= i < |s| ==> Drawdown(s) <= Cum(s, i) - Peak(s, i)
    ensures exists i :: 0 <= i < |s| && Drawdown(s) == Cum(s, i) - Peak(s, i)
  {
    DrawdownToIsMin(s, |s| - 1);
  }

  lemma DrawdownNonPositive(s: seq<real>)
    ensures Drawdown(s) <= 0.0
  {
    if |s| > 0 {
      DrawdownIsMin(s);
    }
  }

  lemma {:induction false} DrawdownToIsMin(s: seq<real>, i: int)
    requires 0 <= i < |s|
    ensures DrawdownTo(s, i) <= 0.0
    ensures forall j :: 0 <= j <= i ==> DrawdownTo(s, i) <= Cum(s, j) - Peak(s, j)
    ensures exists j :: 0 <= j <= i && DrawdownTo(s, i) == Cum(s, j) - Peak(s, j)
  {
    PeakIsMax(s, i);
    if i > 0 {
      DrawdownToIsMin(s, i - 1);
    }
  }

  /** With no losing trade the cumulative curve never falls, so it is always at its peak. */
  lemma {:induction false} NoLossNoDrawdown(s: seq<real>)
    requires forall i :: 0 <= i < |s| ==> s[i] >= 0.0
    ensures Drawdown(s) == 0.0
  {
    if |s| > 0 {
      NoLossAtPeak(s, |s| - 1);
    }
  }

  lemma {:induction false} NoLossAtPeak(s: seq<real>, i: int)
    requires 0 <= i < |s|
    requires forall k :: 0 <= k < |s| ==> s[k] >= 0.0
    ensures Peak(s, i) == Cum(s, i) && DrawdownTo(s, i) == 0.0
  {
    if i > 0 {
      NoLossAtPeak(s, i - 1);
      CumStep(s, i - 1);
    }
  }

  /** The curve's starting level of zero is not a peak: one losing trade alone shows no drawdown. */
  lemma FirstLossNotCounted(x: real)
    requires x < 0.0
    ensures Drawdown([x]) == 0.0
  {
    assert [x][..1] == [x];
  }

}

=== FILE: strategy_base.dfy ===
/** The `Signal` record every strategy returns (`strategy/base.py`). The free-form `reasons`
    dictionary is diagnostic output and is not modelled. */
module StrategyBase {

  /** `"LONG"`, `"SHORT"` or `"NONE"`. */
  datatype Direction = Long | Short | NoneDir

  datatype Signal = Signal(symbol: string, direction: Direction, price: real, confidence: real)

  /** The signal of a single strategy: LONG when its long setup holds, else SHORT when its short
      setup holds, else NONE; a direction carries confidence 1 and NONE carries 0, and the price
      is always the given close. */
  function Decide(symbol: string, close: real, longSetup: bool, shortSetup: bool): (sig: Signal)
    ensures sig.symbol == symbol && sig.price == close
    ensures sig.direction == Long <==> longSetup
    ensures sig.direction == Short <==> !longSetup && shortSetup
    ensures sig.confidence == if sig.direction == NoneDir then 0.0 else 1.0
  {
    if longSetup then Signal(symbol, Long, close, 1.0)
    else if shortSetup then Signal(symbol, Short, close, 1.0)
    else Signal(symbol, NoneDir, close, 0.0)
  }
}

=== FILE: text.dfy ===
/** Python string helpers the pipeline relies on: `str.strip()`, `str.split(sep)`,
    `sep.join(...)` and the line splitting of `str.splitlines()`. */
module Text {
  import opened Common

  /** Characters for which Python's `str.isspace()` holds. */
  predicate IsSpace(c: char) {
    ('\t' <= c <= '\r') || ('\U{1C}' <= c <= ' ') || c == '\U{85}' || c == '\U{A0}'
    || c == '\U{1680}' || ('\U{2000}' <= c <= '\U{200A}') || c == '\U{2028}' || c == '\U{2029}'
    || c == '\U{202F}' || c == '\U{205F}' || c == '\U{3000}'
  }

  /** Characters at which Python's `str.splitlines()` breaks a line. */
  predicate IsLineBreak(c: char) {
    ('\n' <= c <= '\r') || ('\U{1C}' <= c <= '\U{1E}') || c == '\U{85}' || c == '\U{2028}' || c == '\U{2029}'
  }

  /** No leading and no trailing whitespace. */
  predicate IsStripped(s: string) {
    |s| == 0 || (!IsSpace(s[0]) && !IsSpace(s[|s| - 1]))
  }

  /** The first position from `lo` on that does not hold whitespace, or `|s|`. */
  function SkipSpace(s: string, lo: nat): (i: nat)
    requires lo <= |s|
    ensures lo <= i <= |s|
    ensures forall k :: lo <= k < i ==> IsSpace(s[k])
    ensures i < |s| ==> !IsSpace(s[i])
    decreases |s| - lo
  {
    if lo < |s| && IsSpace(s[lo]) then SkipSpace(s, lo + 1) else lo
  }

  /** The end of `s[lo..hi]` once its trailing whitespace is dropped. */
  function DropSpace(s: string, lo: nat, hi: nat): (j: nat)
    requires lo <= hi <= |s|
    ensures lo <= j <= hi
    ensures forall k :: j <= k < hi ==> IsSpace(s[k])
    ensures j > lo ==> !IsSpace(s[j - 1])
    decreases hi - lo
  {
    if hi > lo && IsSpace(s[hi - 1]) then DropSpace(s, lo, hi - 1) else hi
  }

  /** Python's `s.strip()`: the longest infix of `s` that neither starts nor ends with whitespace. */
  function Strip(s: string): (r: string)
    ensures IsStripped(r)
    ensures |r| <= |s|
    ensures forall c :: c in r ==> c in s
    ensures exists i, j :: 0 <= i <= j <= |s| && r == s[i..j] && SpaceOutside(s, i, j)
  {
    var i := SkipSpace(s, 0);
    var j := DropSpace(s, i, |s|);
    assert SpaceOutside(s, i, j);
    s[i..j]
  }

  /** Every character of `s` before position `i` or from position `j` on is whitespace. */
  predicate SpaceOutside(s: string, i: int, j: int)
    requires 0 <= i <= j <= |s|
  {
    (forall k :: 0 <= k < i ==> IsSpace(s[k])) && (forall k :: j <= k < |s| ==> IsSpace(s[k]))
  }

  lemma StripStripped(s: string)
    requires IsStripped(s)
    ensures Strip(s) == s
  {
  }

  /** Stripping a string made only of whitespace gives the empty string. */
  lemma StripAllSpace(s: string)
    requires forall i :: 0 <= i < |s| ==> IsSpace(s[i])
    ensures Strip(s) == ""
  {
  }

  /** Python's `s.split(sep)`, generalised to a set of separator characters: the maximal
      separator-free pieces between separators, always at least one (`"".split(",") == [""]`). */
  function Split(s: string, seps: set<char>): (r: seq<string>)
    ensures |r| >= 1
    ensures forall i :: 0 <= i < |r| ==> forall j :: 0 <= j < |r[i]| ==> r[i][j] !in seps
  {
    if |s| == 0 then [""]
    else if s[0] in seps then
      [""] + Split(s[1..], seps)
    else
      var rest := Split(s[1..], seps);
      [[s[0]] + rest[0]] + rest[1..]
  }

  /** Python's `sep.join(xs)`. */
  function Join(xs: seq<string>, sep: char): string {
    if |xs| == 0 then ""
    else if |xs| == 1 then xs[0]
    else xs[0] + [sep] + Join(xs[1..], sep)
  }

  predicate FreeOf(s: string, seps: set<char>) {
    forall j :: 0 <= j < |s| ==> s[j] !in seps
  }

  /** Splitting a separator-free string gives it back whole, and a leading piece can be peeled off. */
  lemma {:induction false} SplitPrefix(x: string, sep: char, rest: string)
    requires FreeOf(x, {sep})
    ensures Split(x + [sep] + rest, {sep}) == [x] + Split(rest, {sep})
    decreases |x|
  {
    if |x| == 0 {
      assert x + [sep] + rest == [sep] + rest;
      assert ([sep] + rest)[1..] == rest;
    } else {
      var s := x + [sep] + rest;
      assert s[0] == x[0];
      assert s[1..] == x[1..] + [sep] + rest;
      SplitPrefix(x[1..], sep, rest);
      assert [x[0]] + x[1..] == x;
    }
  }

  lemma {:induction false} SplitFree(x: string, seps: set<char>)
    requires FreeOf(x, seps)
    ensures Split(x, seps) == [x]
    decreases |x|
  {
    if |x| > 0 {
      SplitFree(x[1..], seps);
      assert [x[0]] + x[1..] == x;
    }
  }

  /** Round trip: splitting a join at the same separator recovers the pieces. */
  lemma {:induction false} SplitJoin(xs: seq<string>, sep: char)
    requires |xs| >= 1
    requires forall i :: 0 <= i < |xs| ==> FreeOf(xs[i], {sep})
    ensures Split(Join(xs, sep), {sep}) == xs
    decreases |xs|
  {
    if |xs| == 1 {
      SplitFree(xs[0], {sep});
    } else {
      SplitJoin(xs[1..], sep);
      SplitPrefix(xs[0], sep, Join(xs[1..], sep));
      assert [xs[0]] + xs[1..] == xs;
    }
  }

  /** Round trip: joining the pieces of a split with the separator gives the string back, so
      `Split` cuts `s` at every separator and nowhere else. */
  lemma {:induction false} JoinSplit(s: string, sep: char)
    ensures Join(Split(s, {sep}), sep) == s
    decreases |s|
  {
    if |s| > 0 {
      JoinSplit(s[1..], sep);
      var rest := Split(s[1..], {sep});
      if s[0] == sep {
        assert Split(s, {sep}) == [""] + rest;
        assert ([""] + rest)[1..] == rest;
        assert [s[0]] + s[1..] == s;
      } else {
        var first := [s[0]] + rest[0];
        assert Split(s, {sep}) == [first] + rest[1..];
        assert ([first] + rest[1..])[1..] == rest[1..];
        assert [s[0]] + s[1..] == s;
        if |rest| > 1 {
          assert Join(rest, sep) == rest[0] + [sep] + Join(rest[1..], sep);
        }
      }
    }
  }

  /** `r` lists the pieces at the ascending positions `idx`, stripped; those are all the pieces
      that do not strip to the empty string. */
  ghost predicate CleanedAt(pieces: seq<string>, r: seq<string>, idx: seq<nat>) {
    && |idx| == |r| && Ascending(idx, 0, |pieces|)
    && (forall k :: 0 <= k < |idx| ==> r[k] == Strip(pieces[idx[k]]))
    && (forall i :: 0 <= i < |pieces| && Strip(pieces[i]) != "" ==> i in idx)
  }

  /** `Clean` strips every piece and keeps the non-empty results, in order, each once. */
  lemma {:induction false} CleanInOrder(pieces: seq<string>)
    ensures exists idx :: CleanedAt(pieces, Clean(pieces), idx)
    decreases |pieces|
  {
    if |pieces| == 0 {
      var none: seq<nat> := [];
      assert Clean(pieces) == [];
      assert CleanedAt(pieces, [], none);
    } else {
      var init, last := pieces[..|pieces| - 1], pieces[|pieces| - 1];
      CleanInOrder(init);
      var prev := Clean(init);
      var idx: seq<nat> :| CleanedAt(init, prev, idx);
      var r := prev + (if Strip(last) != "" then [Strip(last)] else []);
      assert Clean(pieces) == r;
      var idx' := CleanStep(pieces, prev, r, idx);
    }
  }

  /** One more piece extends the selection of the pieces before it. */
  lemma CleanStep(pieces: seq<string>, prev: seq<string>, r: seq<string>, idx: seq<nat>) returns (idx': seq<nat>)
    requires |pieces| > 0 && CleanedAt(pieces[..|pieces| - 1], prev, idx)
    requires var last := pieces[|pieces| - 1];
      r == prev + (if Strip(last) != "" then [Strip(last)] else [])
    ensures CleanedAt(pieces, r, idx')
  {
    var n := |pieces| - 1;
    var kept := Strip(pieces[n]) != "";
    idx' := if kept then idx + [n] else idx;
    if kept {
      AscendingSnoc(idx, 0, n);
      assert r == prev + [Strip(pieces[n])];
    } else {
      assert r == prev;
    }
    CleanStepAt(pieces, prev, r, idx, idx');
    assert |idx'| == |r| && Ascending(idx', 0, |pieces|);
  }

  lemma CleanStepAt(pieces: seq<string>, prev: seq<string>, r: seq<string>, idx: seq<nat>, idx': seq<nat>)
    requires |pieces| > 0 && CleanedAt(pieces[..|pieces| - 1], prev, idx)
    requires var last := pieces[|pieces| - 1];
      if Strip(last) != "" then r == prev + [Strip(last)] && idx' == idx + [|pieces| - 1]
      else r == prev && idx' == idx
    ensures |idx'| == |r|
    ensures forall k :: 0 <= k < |idx'| ==> r[k] == Strip(pieces[idx'[k]])
    ensures forall i :: 0 <= i < |pieces| && Strip(pieces[i]) != "" ==> i in idx'
  {
    CleanStepPositions(pieces, prev, r, idx, idx');
    CleanStepCovers(pieces, idx, idx');
  }

  lemma CleanStepPositions(pieces: seq<string>, prev: seq<string>, r: seq<string>, idx: seq<nat>, idx': seq<nat>)
    requires |pieces| > 0 && |idx| == |prev| && Ascending(idx, 0, |pieces| - 1)
    requires forall k :: 0 <= k < |idx| ==> prev[k] == Strip(pieces[..|pieces| - 1][idx[k]])
    requires var last := pieces[|pieces| - 1];
      if Strip(last) != "" then r == prev + [Strip(last)] && idx' == idx + [|pieces| - 1]
      else r == prev && idx' == idx
    ensures |idx'| == |r|
    ensures forall k :: 0 <= k < |idx'| ==> r[k] == Strip(pieces[idx'[k]])
  {
    forall k | 0 <= k < |idx'|
      ensures r[k] == Strip(pieces[idx'[k]])
    {
      if k < |idx| {
        assert idx'[k] == idx[k] && r[k] == prev[k];
      }
    }
  }

  lemma CleanStepCovers(pieces: seq<string>, idx: seq<nat>, idx': seq<nat>)
    requires |pieces| > 0
    requires forall i :: 0 <= i < |pieces| - 1 && Strip(pieces[..|pieces| - 1][i]) != "" ==> i in idx
    requires var last := pieces[|pieces| - 1];
      if Strip(last) != "" then idx' == idx + [|pieces| - 1] else idx' == idx
    ensures forall i :: 0 <= i < |pieces| && Strip(pieces[i]) != "" ==> i in idx'
  {
    forall i | 0 <= i < |pieces| && Strip(pieces[i]) != ""
      ensures i in idx'
    {
      if i < |pieces| - 1 {
        assert pieces[..|pieces| - 1][i] == pieces[i];
      }
    }
  }

  /** The items of a comma-separated field: `[x.strip() for x in raw.split(",") if x.strip()]`. */
  function CsvItems(raw: string): (r: seq<string>)
    ensures forall i :: 0 <= i < |r| ==> IsStripped(r[i]) && r[i] != "" && FreeOf(r[i], {','})
  {
    CleanFreeOf(Split(raw, {','}), {','});
    Clean(Split(raw, {','}))
  }

  /** Each piece stripped, the empty results dropped, in order. */
  function Clean(pieces: seq<string>): (r: seq<string>)
    ensures |r| <= |pieces|
    ensures forall i :: 0 <= i < |r| ==> IsStripped(r[i]) && r[i] != ""
  {
    if |pieces| == 0 then []
    else
      var last := Strip(pieces[|pieces| - 1]);
      Clean(pieces[..|pieces| - 1]) + (if last != "" then [last] else [])
  }

  lemma StripFreeOf(s: string, cs: set<char>)
    requires FreeOf(s, cs)
    ensures FreeOf(Strip(s), cs)
  {
    var r := Strip(s);
    forall j | 0 <= j < |r|
      ensures r[j] !in cs
    {
      assert r[j] in r;
    }
  }

  /** Stripping adds no character, so pieces free of some characters stay free of them. */
  lemma {:induction false} CleanFreeOf(pieces: seq<string>, cs: set<char>)
    requires forall i :: 0 <= i < |pieces| ==> FreeOf(pieces[i], cs)
    ensures forall i :: 0 <= i < |Clean(pieces)| ==> FreeOf(Clean(pieces)[i], cs)
  {
    if |pieces| > 0 {
      var init, last := pieces[..|pieces| - 1], pieces[|pieces| - 1];
      CleanFreeOf(init, cs);
      StripFreeOf(last, cs);
      assert Clean(pieces) == Clean(init) + (if Strip(last) != "" then [Strip(last)] else []);
    }
  }

  /** Pieces that are already stripped and non-empty pass through `Clean` unchanged. */
  lemma {:induction false} CleanClean(pieces: seq<string>)
    requires forall i :: 0 <= i < |pieces| ==> IsStripped(pieces[i]) && pieces[i] != ""
    ensures Clean(pieces) == pieces
  {
    if |pieces| > 0 {
      var init, last := pieces[..|pieces| - 1], pieces[|pieces| - 1];
      CleanClean(init);
      StripStripped(last);
      assert Clean(pieces) == Clean(init) + [last];
      assert init + [last] == pieces;
    }
  }

  /** Round trip: the items of `",".join(xs)` are `xs`, for stripped, non-empty, comma-free
      items (and for no items at all, as `"".split(",")` is `[""]`). */
  lemma CsvRoundTrip(xs: seq<string>)
    requires forall i :: 0 <= i < |xs| ==> IsStripped(xs[i]) && xs[i] != "" && FreeOf(xs[i], {','})
    ensures CsvItems(Join(xs, ',')) == xs
  {
    if |xs| == 0 {
      CleanBlank();
    } else {
      SplitJoin(xs, ',');
      CleanClean(xs);
    }
  }

  lemma CleanBlank()
    ensures Clean(Split("", {','})) == []
  {
    assert Split("", {','}) == [""];
    assert Strip("") == "";
  }

  /** Index of the first line break of `s`, or `|s|` if there is none. */
  function FirstBreak(s: string): (i: nat)
    ensures i <= |s|
    ensures forall j :: 0 <= j < i ==> !IsLineBreak(s[j])
    ensures i < |s| ==> IsLineBreak(s[i])
  {
    if |s| == 0 then 0
    else if IsLineBreak(s[0]) then 0
    else 1 + FirstBreak(s[1..])
  }

  /** No line break anywhere in `s`. */
  predicate Unbroken(s: string) {
    forall j :: 0 <= j < |s| ==> !IsLineBreak(s[j])
  }

  /** Python's `s.splitlines()`: the lines without their terminators, where `"\r\n"` is one
      terminator and a final terminator does not start another line. */
  function SplitLines(s: string): (r: seq<string>)
    ensures forall k :: 0 <= k < |r| ==> Unbroken(r[k])
    decreases |s|
  {
    if |s| == 0 then []
    else
      var i := FirstBreak(s);
      if i == |s| then [s]
      else
        var skip := if s[i] == '\r' && i + 1 < |s| && s[i + 1] == '\n' then 2 else 1;
        [s[..i]] + SplitLines(s[i + skip..])
  }

  /** A break-free line ended by a newline is split off whole. */
  lemma SplitLinesCons(x: string, rest: string)
    requires Unbroken(x)
    ensures SplitLines(x + "\n" + rest) == [x] + SplitLines(rest)
  {
    var s := x + "\n" + rest;
    assert s == x + ("\n" + rest);
    FirstBreakAt(x, "\n" + rest);
    assert s[|x|] == '\n';
    assert s[..|x|] == x;
    assert s[|x| + 1..] == rest;
  }

  /** Round trip: the lines of `"\n".join(ls) + "\n"` are `ls`, for lines free of line breaks. */
  lemma {:induction false} SplitLinesJoin(ls: seq<string>)
    requires |ls| >= 1
    requires forall k :: 0 <= k < |ls| ==> Unbroken(ls[k])
    ensures SplitLines(Join(ls, '\n') + "\n") == ls
    decreases |ls|
  {
    if |ls| == 1 {
      SplitLinesCons(ls[0], "");
      assert ls[0] + "\n" + "" == Join(ls, '\n') + "\n";
    } else {
      var rest := Join(ls[1..], '\n') + "\n";
      assert Join(ls, '\n') + "\n" == ls[0] + "\n" + rest;
      SplitLinesCons(ls[0], rest);
      SplitLinesJoin(ls[1..]);
      assert [ls[0]] + ls[1..] == ls;
    }
  }

  /** A break-free prefix followed by a line break: the first break is right after the prefix. */
  lemma {:induction false} FirstBreakAt(x: string, rest: string)
    requires Unbroken(x)
    requires |rest| > 0 && IsLineBreak(rest[0])
    ensures FirstBreak(x + rest) == |x|
    decreases |x|
  {
    if |x| > 0 {
      assert (x + rest)[0] == x[0];
      assert (x + rest)[1..] == x[1..] + rest;
      FirstBreakAt(x[1..], rest);
    } else {
      assert x + rest == rest;
    }
  }

  /** Index of the first `c` in `s`, or `|s|` if there is none. */
  function IndexOf(s: string, c: char): (i: nat)
    ensures i <= |s|
    ensures forall j :: 0 <= j < i ==> s[j] != c
    ensures i < |s| ==> s[i] == c
  {
    if |s| == 0 then 0
    else if s[0] == c then 0
    else 1 + IndexOf(s[1..], c)
  }
}

=== FILE: trend_ema.dfy ===
/** Trend-following EMA strategy (`strategy/trend_ema.py`): EMA(9) against EMA(21), RSI,
    the last two closes and the ATR as a fraction of price. RSI and ATR are inputs. */
module TrendEma {
  import opened StrategyBase
  import Indicators

  datatype TrendSettings = TrendSettings(minAtrPct: real)

  /** The configured default. */
  const Defaults := TrendSettings(0.004)

  predicate LongSetup(ema9: real, ema21: real, rsi: real, close: real, prev: real, atrPct: real, s: TrendSettings) {
    ema9 > ema21 && rsi >= 52.0 && close > prev && close > ema9 && atrPct >= s.minAtrPct
  }

  predicate ShortSetup(ema9: real, ema21: real, rsi: real, close: real, prev: real, atrPct: real, s: TrendSettings) {
    ema9 < ema21 && rsi <= 48.0 && close < prev && close < ema9 && atrPct >= s.minAtrPct
  }

  /** `TrendEmaStrategy.generate` on a frame whose closes are `closes` and whose latest RSI and
      ATR are `rsi` and `atr`. The frame needs two rows; the ATR fraction divides by the last close. */
  function Generate(symbol: string, closes: seq<real>, rsi: real, atr: real, s: TrendSettings): (sig: Signal)
    requires |closes| >= 2 && closes[|closes| - 1] != 0.0
    ensures var n := |closes|;
      var e9, e21 := Indicators.Ema(closes, 9)[n - 1], Indicators.Ema(closes, 21)[n - 1];
      var atrPct := Indicators.AtrPct(atr, closes[n - 1]);
      && sig.symbol == symbol && sig.price == closes[n - 1]
      && (sig.direction == Long <==> LongSetup(e9, e21, rsi, closes[n - 1], closes[n - 2], atrPct, s))
      && (sig.direction == Short <==> ShortSetup(e9, e21, rsi, closes[n - 1], closes[n - 2], atrPct, s))
      && (sig.direction != NoneDir ==> atrPct >= s.minAtrPct)
      && sig.confidence == if sig.direction == NoneDir then 0.0 else 1.0
  {
    var n := |closes|;
    var e9, e21 := Indicators.Ema(closes, 9)[n - 1], Indicators.Ema(closes, 21)[n - 1];
    var atrPct := Indicators.AtrPct(atr, closes[n - 1]);
    Decide(symbol, closes[n - 1],
      LongSetup(e9, e21, rsi, closes[n - 1], closes[n - 2], atrPct, s),
      ShortSetup(e9, e21, rsi, closes[n - 1], closes[n - 2], atrPct, s))
  }

  /** The long and short setups can never both hold. */
  lemma SetupsExclusive(ema9: real, ema21: real, rsi: real, close: real, prev: real, atrPct: real, s: TrendSettings)
    ensures !(LongSetup(ema9, ema21, rsi, close, prev, atrPct, s) && ShortSetup(ema9, ema21, rsi, close, prev, atrPct, s))
  {
  }

  /** On a close series that never falls and rises at its last row, with RSI at least 52 and
      enough volatility, the strategy goes LONG. */
  lemma RisingSeriesGoesLong(symbol: string, closes: seq<real>, rsi: real, atr: real, s: TrendSettings)
    requires |closes| >= 2 && closes[|closes| - 1] != 0.0
    requires Indicators.NonDecreasing(closes) && closes[|closes| - 2] < closes[|closes| - 1]
    requires rsi >= 52.0 && Indicators.AtrPct(atr, closes[|closes| - 1]) >= s.minAtrPct
    ensures Generate(symbol, closes, rsi, atr, s).direction == Long
  {
    Indicators.Ema9AboveEma21(closes);
    Indicators.EmaBelowRisingClose(closes, Indicators.Alpha(9));
  }
}

=== FILE: universe.dfy ===
/** Daily symbol selection (`data/universe.py`, `UniverseBuilder.build`): a manual override wins
    outright; otherwise the candidates are filtered on volume, ATR%, beta and correlation to BTC,
    scored by a weighted sum of min-max normalised columns, and the best `max_symbols` kept. The
    per-symbol statistics (ATR%, beta, correlation, quote volume) and the volume quantile are
    computed by pandas and numpy and enter as inputs. */
module Universe {
  import opened Common

  /** One row of the candidate frame. */
  datatype Record = Record(symbol: string, volume: real, atrPct: real, beta: real, corr: real)

  datatype Weights = Weights(volume: real, atrPct: real, beta: real)

  datatype UniverseSettings = UniverseSettings(volumePercentile: real, minAtrPct: real, minBetaBtc: real,
                                               minCorrBtc: real, maxSymbols: int, weights: Weights,
                                               manualOverride: seq<string>)

  /** The `meta` dict of a result: the override flag, one of the two empty reasons, or the
      number of candidates that passed the filters and whether volume was unavailable. */
  datatype Meta = Override | NoData | FilteredEmpty | Ranked(candidates: nat, volumeUnavailable: bool)

  /** `UniverseResult`; the score dict is an association list in rank order. */
  datatype UniverseResult = UniverseResult(symbols: seq<string>, scores: seq<(string, real)>, meta: Meta)

  /** The defaults of `UniverseWeights` and `UniverseSettings`. */
  function DefaultSettings(): (s: UniverseSettings)
    ensures s.weights.volume + s.weights.atrPct + s.weights.beta == 1.0
    ensures s.maxSymbols == 15 && s.manualOverride == []
  {
    UniverseSettings(0.30, 0.004, 1.2, 0.5, 15, Weights(0.45, 0.35, 0.20), [])
  }

  function MaxOf(xs: seq<real>): (m: real)
    requires |xs| > 0
    ensures m in xs && forall i :: 0 <= i < |xs| ==> xs[i] <= m
  {
    if |xs| == 1 then xs[0] else Max(MaxOf(xs[..|xs| - 1]), xs[|xs| - 1])
  }

  function MinOf(xs: seq<real>): (m: real)
    requires |xs| > 0
    ensures m in xs && forall i :: 0 <= i < |xs| ==> m <= xs[i]
  {
    if |xs| == 1 then xs[0] else Min(MinOf(xs[..|xs| - 1]), xs[|xs| - 1])
  }

  ghost predicate Constant(xs: seq<real>) {
    forall i, j :: 0 <= i < |xs| && 0 <= j < |xs| ==> xs[i] == xs[j]
  }

  /** `_normalize`: all ones for a constant column, otherwise min-max scaling; every value
      lands in [0, 1] (see `NormalizeShape` for the rest). */
  function Normalize(xs: seq<real>): (r: seq<real>)
    ensures |r| == |xs|
    ensures forall i :: 0 <= i < |r| ==> 0.0 <= r[i] <= 1.0
  {
    if |xs| == 0 then []
    else
      var hi := MaxOf(xs);
      var lo := MinOf(xs);
      if hi == lo then seq(|xs|, _ => 1.0)
      else
        var r := seq(|xs|, i requires 0 <= i < |xs| => (xs[i] - lo) / (hi - lo));
        NormalizeFacts(xs, lo, hi, r);
        r
  }

  /** A constant column becomes all ones; any other is scaled so that its minimum goes to 0,
      its maximum to 1, and the order of the values is kept. */
  lemma NormalizeShape(xs: seq<real>)
    ensures Constant(xs) ==> forall i :: 0 <= i < |xs| ==> Normalize(xs)[i] == 1.0
    ensures !Constant(xs) ==> (exists i :: 0 <= i < |xs| && Normalize(xs)[i] == 0.0)
                              && (exists i :: 0 <= i < |xs| && Normalize(xs)[i] == 1.0)
    ensures !Constant(xs) ==> forall i, j :: 0 <= i < |xs| && 0 <= j < |xs| && xs[i] <= xs[j] ==> Normalize(xs)[i] <= Normalize(xs)[j]
  {
    if |xs| > 0 {
      var hi := MaxOf(xs);
      var lo := MinOf(xs);
      if hi == lo {
        assert Constant(xs);
      } else {
        NormalizeFacts(xs, lo, hi, Normalize(xs));
      }
    }
  }

  lemma NormalizeFacts(xs: seq<real>, lo: real, hi: real, r: seq<real>)
    requires |xs| > 0 && lo < hi && lo in xs && hi in xs
    requires forall i :: 0 <= i < |xs| ==> lo <= xs[i] <= hi
    requires |r| == |xs| && forall i :: 0 <= i < |xs| ==> r[i] == (xs[i] - lo) / (hi - lo)
    ensures forall i :: 0 <= i < |r| ==> 0.0 <= r[i] <= 1.0
    ensures (exists i :: 0 <= i < |r| && r[i] == 0.0) && (exists i :: 0 <= i < |r| && r[i] == 1.0)
    ensures forall i, j :: 0 <= i < |xs| && 0 <= j < |xs| && xs[i] <= xs[j] ==> r[i] <= r[j]
    ensures !Constant(xs)
  {
    forall i | 0 <= i < |r|
      ensures 0.0 <= r[i] <= 1.0
    {
      DivBetween(xs[i] - lo, hi - lo);
    }
    var a :| 0 <= a < |xs| && xs[a] == lo;
    var b :| 0 <= b < |xs| && xs[b] == hi;
    assert r[a] == 0.0 / (hi - lo);
    assert r[b] == (hi - lo) / (hi - lo);
    DivSelf(hi - lo);
    assert r[a] == 0.0 && r[b] == 1.0;
    forall i, j | 0 <= i < |xs| && 0 <= j < |xs| && xs[i] <= xs[j]
      ensures r[i] <= r[j]
    {
      DivMono(xs[i] - lo, xs[j] - lo, hi - lo);
    }
  }

  lemma DivSelf(d: real)
    requires d != 0.0
    ensures d / d == 1.0 && 0.0 / d == 0.0
  {
  }

  lemma DivBetween(a: real, d: real)
    requires 0.0 <= a <= d && d > 0.0
    ensures 0.0 <= a / d <= 1.0
  {
  }

  lemma DivMono(a: real, b: real, d: real)
    requires a <= b && d > 0.0
    ensures a / d <= b / d
  {
  }

  /** The candidate filters; with volume unavailable the volume test is skipped. All tests are
      inclusive. */
  predicate Passes(r: Record, s: UniverseSettings, volumeUnavailable: bool, threshold: real) {
    && (volumeUnavailable || r.volume >= threshold)
    && r.atrPct >= s.minAtrPct && r.beta >= s.minBetaBtc && r.corr >= s.minCorrBtc
  }

  /** The rows that pass, in frame order. */
  function Filter(rs: seq<Record>, s: UniverseSettings, volumeUnavailable: bool, threshold: real): (f: seq<Record>)
    ensures |f| <= |rs|
    ensures forall i :: 0 <= i < |f| ==> Passes(f[i], s, volumeUnavailable, threshold)
  {
    if |rs| == 0 then []
    else
      Filter(rs[..|rs| - 1], s, volumeUnavailable, threshold)
      + (if Passes(rs[|rs| - 1], s, volumeUnavailable, threshold) then [rs[|rs| - 1]] else [])
  }

  /** A row is kept exactly when it is a candidate that passes. */
  lemma {:induction false} FilterMembers(rs: seq<Record>, s: UniverseSettings, volumeUnavailable: bool, threshold: real)
    ensures forall r :: r in Filter(rs, s, volumeUnavailable, threshold) ==> r in rs
    ensures forall r :: r in rs && Passes(r, s, volumeUnavailable, threshold) ==> r in Filter(rs, s, volumeUnavailable, threshold)
    decreases |rs|
  {
    if |rs| > 0 {
      var init := rs[..|rs| - 1];
      FilterMembers(init, s, volumeUnavailable, threshold);
      assert rs == init + [rs[|rs| - 1]];
    }
  }

  function TotalVolume(rs: seq<Record>): real {
    if |rs| == 0 then 0.0 else TotalVolume(rs[..|rs| - 1]) + rs[|rs| - 1].volume
  }

  /** `volume_unavailable`: the quote volumes sum to zero. */
  predicate VolumeUnavailable(rs: seq<Record>) {
    TotalVolume(rs) == 0.0
  }

  function Volumes(rs: seq<Record>): (c: seq<real>)
    ensures |c| == |rs| && forall i :: 0 <= i < |rs| ==> c[i] == rs[i].volume
  {
    seq(|rs|, i requires 0 <= i < |rs| => rs[i].volume)
  }

  function AtrPcts(rs: seq<Record>): (c: seq<real>)
    ensures |c| == |rs| && forall i :: 0 <= i < |rs| ==> c[i] == rs[i].atrPct
  {
    seq(|rs|, i requires 0 <= i < |rs| => rs[i].atrPct)
  }

  function Betas(rs: seq<Record>): (c: seq<real>)
    ensures |c| == |rs| && forall i :: 0 <= i < |rs| ==> c[i] == rs[i].beta
  {
    seq(|rs|, i requires 0 <= i < |rs| => rs[i].beta)
  }

  /** Each passing row with its score: the weighted normalised volume (zero when volume is
      unavailable), ATR% and beta. */
  function Scored(f: seq<Record>, w: Weights, volumeUnavailable: bool): (sc: seq<(Record, real)>)
    ensures |sc| == |f|
    ensures forall i :: 0 <= i < |f| ==> sc[i].0 == f[i]
    ensures forall i :: 0 <= i < |f| ==>
      sc[i].1 == Score(w, if volumeUnavailable then 0.0 else Normalize(Volumes(f))[i],
                       Normalize(AtrPcts(f))[i], Normalize(Betas(f))[i])
  {
    var nv := Normalize(Volumes(f));
    var na := Normalize(AtrPcts(f));
    var nb := Normalize(Betas(f));
    seq(|f|, i requires 0 <= i < |f| => (f[i], Score(w, if volumeUnavailable then 0.0 else nv[i], na[i], nb[i])))
  }

  /** The weighted sum of the three normalised terms. */
  function Score(w: Weights, volume: real, atrPct: real, beta: real): real {
    Mul(w.volume, volume) + Mul(w.atrPct, atrPct) + Mul(w.beta, beta)
  }

  /** Scores never decrease towards the front. */
  predicate SortedDesc(xs: seq<(Record, real)>) {
    forall i, j :: 0 <= i < j < |xs| ==> xs[i].1 >= xs[j].1
  }

  /** `x` placed before the first entry that does not outscore it. */
  function Insert(x: (Record, real), s: seq<(Record, real)>): (r: seq<(Record, real)>)
    ensures |r| == |s| + 1
    ensures |s| == 0 ==> r == [x]
    ensures |s| > 0 ==> r[0] == x || r[0] == s[0]
  {
    if |s| == 0 || x.1 >= s[0].1 then [x] + s
    else [s[0]] + Insert(x, s[1..])
  }

  /** Insertion adds `x` and nothing else. */
  lemma {:induction false} InsertPerm(x: (Record, real), s: seq<(Record, real)>)
    ensures multiset(Insert(x, s)) == multiset(s) + multiset{x}
    decreases |s|
  {
    if |s| > 0 && x.1 < s[0].1 {
      InsertPerm(x, s[1..]);
      ConsMultiset(s);
    }
  }

  /** Insertion keeps a sorted sequence sorted. */
  lemma {:induction false} InsertSorted(x: (Record, real), s: seq<(Record, real)>)
    requires SortedDesc(s)
    ensures SortedDesc(Insert(x, s))
    decreases |s|
  {
    if |s| > 0 && x.1 < s[0].1 {
      var rest := Insert(x, s[1..]);
      InsertSorted(x, s[1..]);
      assert rest[0].1 <= s[0].1;
      var r := [s[0]] + rest;
      forall i, j | 0 <= i < j < |r|
        ensures r[i].1 >= r[j].1
      {
        if i == 0 {
          assert r[j] == rest[j - 1];
          assert rest[0].1 >= rest[j - 1].1;
        } else {
          assert r[i] == rest[i - 1] && r[j] == rest[j - 1];
        }
      }
    }
  }

  /** `sort_values(ascending=False)`: the scored rows in non-increasing score order (see
      `SortDescSorted`), a permutation of the input (see `SortDescPerm`). */
  function SortDesc(xs: seq<(Record, real)>): (r: seq<(Record, real)>)
    ensures |r| == |xs|
  {
    if |xs| == 0 then [] else Insert(xs[0], SortDesc(xs[1..]))
  }

  /** The sorted rows never increase in score. */
  lemma {:induction false} SortDescSorted(xs: seq<(Record, real)>)
    ensures SortedDesc(SortDesc(xs))
    decreases |xs|
  {
    if |xs| > 0 {
      SortDescSorted(xs[1..]);
      InsertSorted(xs[0], SortDesc(xs[1..]));
    }
  }

  /** Sorting rearranges the entries: the result is a permutation of the input. */
  lemma {:induction false} SortDescPerm(xs: seq<(Record, real)>)
    ensures multiset(SortDesc(xs)) == multiset(xs)
    decreases |xs|
  {
    if |xs| > 0 {
      var rest := SortDesc(xs[1..]);
      SortDescPerm(xs[1..]);
      InsertPerm(xs[0], rest);
      assert SortDesc(xs) == Insert(xs[0], rest);
      ConsMultiset(xs);
    }
  }

  lemma ConsMultiset<T>(xs: seq<T>)
    requires |xs| > 0
    ensures multiset(xs) == multiset{xs[0]} + multiset(xs[1..])
  {
    assert xs == [xs[0]] + xs[1..];
  }

  /** pandas `head(n)`: the first `n` entries, and for a negative `n` all but the last `-n`. */
  function Head<T>(xs: seq<T>, n: int): (r: seq<T>)
    ensures n >= 0 ==> |r| == if n < |xs| then n else |xs|
    ensures n < 0 ==> |r| == if |xs| + n > 0 then |xs| + n else 0
    ensures r == xs[..|r|]
  {
    if n >= 0 then (if n < |xs| then xs[..n] else xs)
    else if |xs| + n > 0 then xs[..|xs| + n] else []
  }

  /** The passing rows of a non-empty frame, and their scored, sorted and truncated form. */
  function Passing(rs: seq<Record>, threshold: real, s: UniverseSettings): seq<Record> {
    Filter(rs, s, VolumeUnavailable(rs), threshold)
  }

  function Selected(rs: seq<Record>, threshold: real, s: UniverseSettings): seq<(Record, real)> {
    var f := Passing(rs, threshold, s);
    Head(SortDesc(Scored(f, s.weights, VolumeUnavailable(rs))), s.maxSymbols)
  }

  /** The selection is sorted, holds at most `max_symbols` rows, and at least one when a row
      passes and there is room for one. */
  lemma SelectedShape(rs: seq<Record>, threshold: real, s: UniverseSettings)
    ensures SortedDesc(Selected(rs, threshold, s))
    ensures s.maxSymbols >= 0 ==> |Selected(rs, threshold, s)| <= s.maxSymbols
    ensures s.maxSymbols >= 1 && Passing(rs, threshold, s) != [] ==> |Selected(rs, threshold, s)| >= 1
  {
    var f := Passing(rs, threshold, s);
    var sc := Scored(f, s.weights, VolumeUnavailable(rs));
    var sorted := SortDesc(sc);
    var sel := Selected(rs, threshold, s);
    assert sel == Head(sorted, s.maxSymbols);
    assert |sorted| == |f|;
    SortDescSorted(sc);
    PrefixSorted(sorted, |sel|);
  }

  lemma PrefixSorted(xs: seq<(Record, real)>, m: nat)
    requires SortedDesc(xs) && m <= |xs|
    ensures SortedDesc(xs[..m])
  {
    var p := xs[..m];
    forall i, j | 0 <= i < j < |p|
      ensures p[i].1 >= p[j].1
    {
      assert p[i] == xs[i] && p[j] == xs[j];
    }
  }

  /** The filter-score-rank part of `build`, for a frame with at least one row. */
  function Rank(rs: seq<Record>, threshold: real, s: UniverseSettings): (r: UniverseResult)
    requires |rs| > 0
    ensures r.meta == FilteredEmpty || r.meta.Ranked?
    ensures r.meta == FilteredEmpty <==> Passing(rs, threshold, s) == []
    ensures r.meta == FilteredEmpty ==> r.symbols == [] && r.scores == []
  {
    if Passing(rs, threshold, s) == [] then UniverseResult([], [], FilteredEmpty)
    else
      var sel := Selected(rs, threshold, s);
      UniverseResult(Symbols(sel), Pairs(sel), Ranked(|Passing(rs, threshold, s)|, VolumeUnavailable(rs)))
  }

  function Symbols(sel: seq<(Record, real)>): (syms: seq<string>)
    ensures |syms| == |sel| && forall i :: 0 <= i < |sel| ==> syms[i] == sel[i].0.symbol
  {
    seq(|sel|, i requires 0 <= i < |sel| => sel[i].0.symbol)
  }

  function Pairs(sel: seq<(Record, real)>): (ps: seq<(string, real)>)
    ensures |ps| == |sel| && forall i :: 0 <= i < |sel| ==> ps[i] == (sel[i].0.symbol, sel[i].1)
  {
    seq(|sel|, i requires 0 <= i < |sel| => (sel[i].0.symbol, sel[i].1))
  }

  /** `build`, with the no-candidate case returning the `no_data` result its guard is written
      for (see `BuildAsWritten`). */
  function Build(rs: seq<Record>, threshold: real, s: UniverseSettings): (r: UniverseResult)
    ensures s.manualOverride != [] ==> r == UniverseResult(s.manualOverride, [], Override)
    ensures s.manualOverride == [] && rs == [] ==> r == UniverseResult([], [], NoData)
    ensures s.manualOverride == [] && rs != [] ==> r == Rank(rs, threshold, s)
  {
    if s.manualOverride != [] then UniverseResult(s.manualOverride, [], Override)
    else if rs == [] then UniverseResult([], [], NoData)
    else Rank(rs, threshold, s)
  }

  /** A ranked result of `build` pairs each symbol with its score, in non-increasing score
      order, with at least one and at most `max_symbols` symbols; a filtered-empty one is
      empty. */
  lemma BuildRanked(rs: seq<Record>, threshold: real, s: UniverseSettings)
    ensures var r := Build(rs, threshold, s);
      && (r.meta == FilteredEmpty ==> r.symbols == [] && r.scores == [])
      && (r.meta.Ranked? ==>
        && |r.symbols| == |r.scores|
        && (s.maxSymbols >= 0 ==> |r.symbols| <= s.maxSymbols)
        && (s.maxSymbols >= 1 ==> |r.symbols| >= 1)
        && (forall i :: 0 <= i < |r.symbols| ==> r.scores[i].0 == r.symbols[i])
        && (forall i, j :: 0 <= i < j < |r.scores| ==> r.scores[i].1 >= r.scores[j].1))
  {
    var r := Build(rs, threshold, s);
    if s.manualOverride == [] && rs != [] {
      assert r == Rank(rs, threshold, s);
      if Passing(rs, threshold, s) != [] {
        RankShape(rs, threshold, s);
      } else {
        assert r.meta == FilteredEmpty;
      }
    }
  }

  lemma RankShape(rs: seq<Record>, threshold: real, s: UniverseSettings)
    requires |rs| > 0 && Passing(rs, threshold, s) != []
    ensures var r := Rank(rs, threshold, s);
      && |r.symbols| == |r.scores|
      && (s.maxSymbols >= 0 ==> |r.symbols| <= s.maxSymbols)
      && (s.maxSymbols >= 1 ==> |r.symbols| >= 1)
      && (forall i :: 0 <= i < |r.symbols| ==> r.scores[i].0 == r.symbols[i])
      && (forall i, j :: 0 <= i < j < |r.scores| ==> r.scores[i].1 >= r.scores[j].1)
  {
    var r := Rank(rs, threshold, s);
    var sel := Selected(rs, threshold, s);
    RankIsSelected(rs, threshold, s);
    SelectedShape(rs, threshold, s);
    assert |r.symbols| == |sel| && |r.scores| == |sel|;
    forall i, j | 0 <= i < j < |r.scores|
      ensures r.scores[i].1 >= r.scores[j].1
    {
      assert r.scores[i].1 == sel[i].1 && r.scores[j].1 == sel[j].1;
    }
  }

  /** The ranked result lists exactly the selected rows, symbol and score, in order. */
  lemma RankIsSelected(rs: seq<Record>, threshold: real, s: UniverseSettings)
    requires |rs| > 0 && Passing(rs, threshold, s) != []
    ensures var r := Rank(rs, threshold, s);
      var sel := Selected(rs, threshold, s);
      r.meta == Ranked(|Passing(rs, threshold, s)|, VolumeUnavailable(rs))
      && |r.symbols| == |sel| && |r.scores| == |sel|
      && forall i :: 0 <= i < |sel| ==> r.symbols[i] == sel[i].0.symbol && r.scores[i] == (sel[i].0.symbol, sel[i].1)
  {
  }

  /** `filtered_empty` is returned exactly when there are candidates and none passes. */
  lemma FilteredEmptyIff(rs: seq<Record>, threshold: real, s: UniverseSettings)
    requires s.manualOverride == []
    ensures Build(rs, threshold, s).meta == FilteredEmpty <==>
      rs != [] && forall r :: r in rs ==> !Passes(r, s, VolumeUnavailable(rs), threshold)
  {
    FilterMembers(rs, s, VolumeUnavailable(rs), threshold);
    if rs != [] && Passing(rs, threshold, s) != [] {
      assert Passing(rs, threshold, s)[0] in Passing(rs, threshold, s);
    }
  }

  /** Every selected row is a candidate that passed the filters: ATR%, beta and correlation at
      least their minimums, and, unless volume is unavailable, volume at least the threshold. */
  lemma SelectedPass(rs: seq<Record>, threshold: real, s: UniverseSettings)
    requires |rs| > 0
    ensures forall p :: p in Selected(rs, threshold, s) ==> p.0 in rs && Passes(p.0, s, VolumeUnavailable(rs), threshold)
  {
    var u := VolumeUnavailable(rs);
    var f := Passing(rs, threshold, s);
    var sc := Scored(f, s.weights, u);
    FilterMembers(rs, s, u, threshold);
    ScoredRows(f, s.weights, u);
    HeadOfSorted(sc, s.maxSymbols);
  }

  /** Every scored entry carries one of the rows it was computed from. */
  lemma ScoredRows(f: seq<Record>, w: Weights, volumeUnavailable: bool)
    ensures forall p :: p in Scored(f, w, volumeUnavailable) ==> p.0 in f
  {
    var sc := Scored(f, w, volumeUnavailable);
    forall p | p in sc
      ensures p.0 in f
    {
      var i :| 0 <= i < |sc| && sc[i] == p;
      assert f[i] == p.0;
    }
  }

  /** Sorting and truncating introduce no entry. */
  lemma HeadOfSorted(xs: seq<(Record, real)>, n: int)
    ensures forall p :: p in Head(SortDesc(xs), n) ==> p in xs
  {
    SortDescMembers(xs);
  }

  /** Sorting keeps exactly the entries it was given. */
  lemma SortDescMembers(xs: seq<(Record, real)>)
    ensures forall c :: c in SortDesc(xs) <==> c in xs
  {
    var sorted := SortDesc(xs);
    SortDescPerm(xs);
    forall c
      ensures c in sorted <==> c in xs
    {
      assert c in sorted <==> c in multiset(sorted);
      assert c in xs <==> c in multiset(xs);
    }
  }

  /** Every returned symbol names a candidate that passed the filters. */
  lemma BuildPasses(rs: seq<Record>, threshold: real, s: UniverseSettings)
    requires s.manualOverride == []
    ensures var r := Build(rs, threshold, s);
      forall k :: 0 <= k < |r.symbols| ==>
        NamesPassing(r.symbols[k], rs, s, VolumeUnavailable(rs), threshold)
  {
    var r := Build(rs, threshold, s);
    if rs != [] {
      assert r == Rank(rs, threshold, s);
      RankPasses(rs, threshold, s);
    } else {
      assert r.symbols == [];
    }
  }

  lemma RankPasses(rs: seq<Record>, threshold: real, s: UniverseSettings)
    requires rs != []
    ensures var r := Rank(rs, threshold, s);
      forall k :: 0 <= k < |r.symbols| ==>
        NamesPassing(r.symbols[k], rs, s, VolumeUnavailable(rs), threshold)
  {
    var r := Rank(rs, threshold, s);
    if Passing(rs, threshold, s) != [] {
      var sel := Selected(rs, threshold, s);
      RankIsSelected(rs, threshold, s);
      SelectedPass(rs, threshold, s);
      NamesPass(rs, s, VolumeUnavailable(rs), threshold, sel, r.symbols);
    } else {
      assert r.symbols == [];
    }
  }

  /** Some candidate with this symbol passes the filters. */
  ghost predicate NamesPassing(sym: string, rs: seq<Record>, s: UniverseSettings, u: bool, threshold: real) {
    exists rec :: rec in rs && rec.symbol == sym && Passes(rec, s, u, threshold)
  }

  /** Symbols read off passing rows name passing rows. */
  lemma NamesPass(rs: seq<Record>, s: UniverseSettings, u: bool, threshold: real,
                  sel: seq<(Record, real)>, syms: seq<string>)
    requires |syms| == |sel| && forall i :: 0 <= i < |sel| ==> syms[i] == sel[i].0.symbol
    requires forall p :: p in sel ==> p.0 in rs && Passes(p.0, s, u, threshold)
    ensures forall k :: 0 <= k < |syms| ==> NamesPassing(syms[k], rs, s, u, threshold)
  {
    forall k | 0 <= k < |syms|
      ensures NamesPassing(syms[k], rs, s, u, threshold)
    {
      assert sel[k] in sel;
      var rec := sel[k].0;
      assert rec in rs && rec.symbol == syms[k] && Passes(rec, s, u, threshold);
    }
  }

  /** The kept rows are the best: a passing row that is left out scores no more than any row
      that is kept. */
  lemma SelectedAreTop(rs: seq<Record>, threshold: real, s: UniverseSettings)
    requires |rs| > 0
    ensures var sc := Scored(Passing(rs, threshold, s), s.weights, VolumeUnavailable(rs));
      var sel := Selected(rs, threshold, s);
      forall c, k :: c in sc && c !in sel && 0 <= k < |sel| ==> sel[k].1 >= c.1
  {
    var sc := Scored(Passing(rs, threshold, s), s.weights, VolumeUnavailable(rs));
    var sel := Selected(rs, threshold, s);
    assert sel == Head(SortDesc(sc), s.maxSymbols);
    HeadIsTop(sc, s.maxSymbols);
    forall c, k | c in sc && c !in sel && 0 <= k < |sel|
      ensures sel[k].1 >= c.1
    {
      var h := Head(SortDesc(sc), s.maxSymbols);
      assert c in sc;
      assert c !in h;
      assert 0 <= k < |h|;
      assert h[k].1 >= c.1;
    }
  }

  /** Whatever the sort leaves out of the first `n` scores no more than anything it keeps. */
  lemma HeadIsTop(xs: seq<(Record, real)>, n: int)
    ensures var sel := Head(SortDesc(xs), n);
      forall c, k :: c in xs && c !in sel && 0 <= k < |sel| ==> sel[k].1 >= c.1
  {
    var sorted := SortDesc(xs);
    var sel := Head(sorted, n);
    SortDescSorted(xs);
    PrefixIsTop(sorted, |sel|);
    SortDescMembers(xs);
  }

  /** In a sorted sequence, an entry outside a prefix scores no more than any entry inside it. */
  lemma PrefixIsTop(sorted: seq<(Record, real)>, m: nat)
    requires SortedDesc(sorted) && m <= |sorted|
    ensures forall c, k :: c in sorted && c !in sorted[..m] && 0 <= k < m ==> sorted[k].1 >= c.1
  {
    forall c, k | c in sorted && c !in sorted[..m] && 0 <= k < m
      ensures sorted[k].1 >= c.1
    {
      var j :| 0 <= j < |sorted| && sorted[j] == c;
    }
  }

  lemma MulUnit(w: real, x: real)
    requires w >= 0.0 && 0.0 <= x <= 1.0
    ensures 0.0 <= Mul(w, x) <= w
  {
  }

  /** With non-negative weights and normalised terms the score lies between 0 and the sum of
      the weights, and a zero volume term drops the volume weight from that bound. */
  lemma ScoreBounds(w: Weights, v: real, a: real, b: real)
    requires w.volume >= 0.0 && w.atrPct >= 0.0 && w.beta >= 0.0
    requires 0.0 <= v <= 1.0 && 0.0 <= a <= 1.0 && 0.0 <= b <= 1.0
    ensures 0.0 <= Score(w, v, a, b) <= w.volume + w.atrPct + w.beta
    ensures v == 0.0 ==> Score(w, v, a, b) <= w.atrPct + w.beta
  {
    MulUnit(w.volume, v);
    MulUnit(w.atrPct, a);
    MulUnit(w.beta, b);
  }

  /** Every selected score lies in [0, sum of weights]; with volume unavailable the volume term
      is zero and the bound drops to the ATR and beta weights. */
  lemma SelectedScoreBounds(rs: seq<Record>, threshold: real, s: UniverseSettings)
    requires |rs| > 0
    requires s.weights.volume >= 0.0 && s.weights.atrPct >= 0.0 && s.weights.beta >= 0.0
    ensures forall p :: p in Selected(rs, threshold, s) ==>
      0.0 <= p.1 <= s.weights.volume + s.weights.atrPct + s.weights.beta
      && (VolumeUnavailable(rs) ==> p.1 <= s.weights.atrPct + s.weights.beta)
  {
    var u := VolumeUnavailable(rs);
    var sc := Scored(Passing(rs, threshold, s), s.weights, u);
    ScoredBounds(Passing(rs, threshold, s), s.weights, u);
    HeadOfSorted(sc, s.maxSymbols);
  }

  /** With non-negative weights every score lies in [0, sum of weights], and in [0, ATR and
      beta weights] when the volume term is switched off. */
  lemma ScoredBounds(f: seq<Record>, w: Weights, volumeUnavailable: bool)
    requires w.volume >= 0.0 && w.atrPct >= 0.0 && w.beta >= 0.0
    ensures forall p :: p in Scored(f, w, volumeUnavailable) ==>
      0.0 <= p.1 <= w.volume + w.atrPct + w.beta
      && (volumeUnavailable ==> p.1 <= w.atrPct + w.beta)
  {
    var sc := Scored(f, w, volumeUnavailable);
    forall p | p in sc
      ensures 0.0 <= p.1 <= w.volume + w.atrPct + w.beta
      ensures volumeUnavailable ==> p.1 <= w.atrPct + w.beta
    {
      var i :| 0 <= i < |sc| && sc[i] == p;
      var v := if volumeUnavailable then 0.0 else Normalize(Volumes(f))[i];
      ScoreBounds(w, v, Normalize(AtrPcts(f))[i], Normalize(Betas(f))[i]);
    }
  }

  /** A single qualifying candidate with room for one symbol is selected. */
  lemma SingleCandidateSelected(rec: Record, threshold: real, s: UniverseSettings)
    requires s.manualOverride == [] && s.maxSymbols >= 1
    requires Passes(rec, s, VolumeUnavailable([rec]), threshold)
    ensures Build([rec], threshold, s).symbols == [rec.symbol]
    ensures Build([rec], threshold, s).meta == Ranked(1, VolumeUnavailable([rec]))
  {
    var rs := [rec];
    SingleSelection(rec, threshold, s);
    var sel := Selected(rs, threshold, s);
    var r := Build(rs, threshold, s);
    assert r == UniverseResult(Symbols(sel), Pairs(sel), Ranked(1, VolumeUnavailable(rs)));
    assert Symbols(sel) == [rec.symbol];
  }

  lemma SingleSelection(rec: Record, threshold: real, s: UniverseSettings)
    requires s.maxSymbols >= 1
    requires Passes(rec, s, VolumeUnavailable([rec]), threshold)
    ensures Passing([rec], threshold, s) == [rec]
    ensures |Selected([rec], threshold, s)| == 1 && Selected([rec], threshold, s)[0].0 == rec
  {
    var rs := [rec];
    assert rs[..0] == [];
    assert Passing(rs, threshold, s) == rs;
    var sel := Selected(rs, threshold, s);
    SelectedShape(rs, threshold, s);
    SelectedPass(rs, threshold, s);
    assert |SortDesc(Scored(rs, s.weights, VolumeUnavailable(rs)))| == 1;
    assert sel[0] in sel;
  }

  /** How `build` as written ends: with a result, or with the `KeyError` that
      `pd.DataFrame([]).set_index("symbol")` raises, as an empty record list has no `symbol`
      column. */
  datatype BuildOutcome = KeyError | Returned(result: UniverseResult)

  /** `build` as written: an empty candidate set fails while the frame is built, before the
      `data.empty` guard can return `no_data`. */
  function BuildAsWritten(rs: seq<Record>, threshold: real, s: UniverseSettings): (o: BuildOutcome)
    ensures s.manualOverride != [] ==> o == Returned(UniverseResult(s.manualOverride, [], Override))
    ensures s.manualOverride == [] && rs == [] ==> o == KeyError
    ensures o.Returned? ==> o.result == Build(rs, threshold, s)
  {
    if s.manualOverride != [] then Returned(UniverseResult(s.manualOverride, [], Override))
    else if rs == [] then KeyError
    else Returned(Rank(rs, threshold, s))
  }

  /** As written, no input ever reaches the `no_data` result. */
  lemma NoDataUnreachable(rs: seq<Record>, threshold: real, s: UniverseSettings)
    ensures BuildAsWritten(rs, threshold, s) != Returned(UniverseResult([], [], NoData))
  {
  }

  /** The input that shows it: no candidates and no override raise instead of returning
      `no_data`, which `Build` returns. */
  lemma NoCandidatesRaise(threshold: real, s: UniverseSettings)
    requires s.manualOverride == []
    ensures BuildAsWritten([], threshold, s) == KeyError
    ensures Build([], threshold, s) == UniverseResult([], [], NoData)
  {
  }
}
